=== FILE: README.md ===
# Discord activity bot — a Dafny model of its bookkeeping

The bot counts messages per user and per day. It keeps daily and weekly
summaries and records member joins and leaves. It answers `!stats`,
`!activity` and `!help`, plus the slash commands `/stats`, `/activity`,
`/leaderboard` and `/profile`, and it can post a daily report. All state
lives in one in-memory document with four maps:

- `messages`: user → date → count
- `dailyStats`: date → total and active-user Set
- `weeklyStats`: Sunday → total, active-user Set and per-user counts
- `memberEvents`: date → joins and leaves

After every change the whole document is written to a JSON file.

The model describes that document and every operation on it as immutable
datatypes and pure functions. Modules:

- `Wrappers`: `Option`, and `Js`, which is a value or a thrown `TypeError`.
- `Assoc`: JavaScript objects as insertion-ordered association lists.
- `Text`: `trim`, `split(/ +/)`, `toLowerCase`, `padStart` and number printing.
- `Dates`: days as integers counted from 1970-01-01, the week key and ISO date strings.
- `Document`: the four maps.
- `Storage`: load and save as Set↔Array conversions.
- `Tracker`: `trackMessage`, `updateWeeklyStats`, joins and leaves.
- `Counts` and `Invariants`: what the summaries should agree with, and the proof that recording a message keeps them in agreement.
- `Maintenance`: cleanup, data statistics, the CSV export and validation.
- `Views`: the stats and activity figures.
- `Profiles`: the profile, join date and activity level.
- `Ranking`: totals, stable sort, rank and leaderboard.
- `Commands`: the `!` parser, dispatch and the message listener.
- `Scheduler`: the daily-report trigger and its figures.
- `Config`: environment validation and the exported settings.
- `History`: replays of whole event sequences.

Each save has two readings:

- `AliasedSave` is what `saveData` does. The spread at
  activityTracker.js:48 is a shallow copy, so the Set→Array rewrite also
  reaches the in-memory document.
- `CopyingSave` is the evidently intended save, which leaves memory alone.

Days, hours and minutes are parameters. Dates are modelled for a process
running in UTC. Weekday is `(d + 4) % 7`, because 1970-01-01 was a Thursday.

## Model

| member | source | states |
|---|---|---|
| Wrappers.Need | slashCommands.js:76-77 | reading a key of a missing top-level map throws; a present map is read through |
| Dates.WeekKey | activityTracker.js:150-155 | the week key is a Sunday, at most `d` and less than seven days before it |
| Dates.WeekKeyUnique | activityTracker.js:150-155 | that Sunday is the only one in the seven days ending at `d`, so the key is determined |
| Dates.WeekKeyIdempotent | activityTracker.js:150-155 | the key of a week key is itself |
| Dates.SameWeek | activityTracker.js:158 | two days share a weekly entry exactly when the second lies in the first one's week |
| Dates.WeekKeyBehindUtc | activityTracker.js:151-154 | at a negative UTC offset the key is still within the seven days ending at `d` |
| Dates.WeekKeyBehindUtcIsMonday | activityTracker.js:151-154 | at a negative UTC offset the key is always a Monday, not a Sunday |
| Dates.WeekKeyExample | activityTracker.js:150-155 | example: 2024-01-10 is a Wednesday; its key is 2024-01-07 in UTC and 2024-01-08 behind UTC |
| Dates.CivilFromDays | activityTracker.js:78 | the month is 1 to 12 and the day 1 to 31, and Dates.DaysFromCivil maps the (year, month, day) back to the same day number |
| Dates.MonthAndDay | activityTracker.js:78 | a day 0 to 365 of a March-based year has a month 1 to 12 and a day 1 to 31 from which the day of the year is recovered |
| Dates.EraDayBounds | activityTracker.js:78 | every day of a 400-year era lies in one of its years 0 to 399, at a day 0 to 365 of that year |
| Dates.EraDecomposed | activityTracker.js:78 | a day given by century, four-year cycle, year and day is placed back in that year at that day |
| Dates.EraOfYear | activityTracker.js:78 | the era of a year is recovered from its year of era |
| Dates.CivilInjective | activityTracker.js:78 | two days with the same (year, month, day) are the same day |
| Dates.YearString | activityTracker.js:78 | a year 0000 to 9999 prints as four digits that read back as the year |
| Dates.DateString | activityTracker.js:78 | for a year 0000 to 9999 the date prints as `YYYY-MM-DD` whose digit groups read back as the civil year, month and day |
| Dates.TwoDigitField | activityTracker.js:78 | a month or day number padded to two places is two digits that read back as the number |
| Dates.DateFields | activityTracker.js:78 | where the three fields sit in a `YYYY-MM-DD` string |
| Dates.DateStringInjective | utils.js:41 | for years 0000 to 9999 distinct days give distinct date strings, so string keys and day numbers identify the same entries |
| Dates.CivilExample10 | activityTracker.js:78 | example: day 19732 prints as 2024-01-10 |
| Dates.CivilExample07 | activityTracker.js:154 | example: day 19729 prints as 2024-01-07 |
| Dates.DateStringOneLine | utils.js:115 | a printed date holds no line break |
| Text.NatToString | utils.js:115 | a count prints as non-empty decimal digits with no leading zero |
| Text.NatToStringRoundTrip | utils.js:115 | reading the printed digits back gives the number |
| Text.NatToStringInjective | slashCommands.js:143 | different numbers print differently |
| Text.IntToString | utils.js:115 | a count prints as the decimal digits of its magnitude, after a minus exactly when it is negative |
| Text.IntToStringOneLine | utils.js:115 | a printed count holds no line break |
| Text.PadStart | scheduler.js:25 | padding keeps the text as a suffix and puts only zeros in front, up to the width |
| Text.PadStartOneLine | scheduler.js:25 | padding adds no line break |
| Text.Pad2TwoDigits | scheduler.js:25 | a number below 100, padded to two, is its tens digit and then its units digit |
| Text.NatToStringWidth | activityTracker.js:78 | a number below 10^w prints in at most w digits |
| Text.LeadingZeros | activityTracker.js:78 | leading zeros do not change the value of a digit string |
| Text.PaddedValue | activityTracker.js:78 | padding with zeros keeps a digit string of the same value |
| Text.TrimStart | commands.js:12 | leading white space only is removed, and the result starts with a non-space |
| Text.TrimEnd | commands.js:12 | trailing white space only is removed, and the result ends with a non-space |
| Text.Trim | commands.js:12 | the result is a slice with white space on both sides and no white space at either end |
| Text.TrimIdempotent | commands.js:12 | trimming twice is trimming once |
| Text.TrimOfTrimmed | commands.js:12 | a text already without white space at its ends is left as it is |
| Text.SplitSpaces | commands.js:12 | splitting on runs of spaces gives at least one piece, and no piece holds a space |
| Text.SplitRun | commands.js:12 | a whole run of spaces, however long, is one separator: the piece before it is cut off and splitting goes on after it |
| Text.SplitJoinRuns | commands.js:12 | pieces without spaces, none empty in the middle, joined by any runs of spaces split back into exactly those pieces |
| Text.JoinRunsEnds | commands.js:12 | text joined by runs of spaces starts with the first piece and ends with the last |
| Text.SplitJoin | commands.js:12 | joining pieces with single spaces and splitting again gives the pieces back |
| Text.JoinSplit | commands.js:12 | a text with no double space is rebuilt by splitting and joining |
| Text.ToLower | commands.js:13 | lower-casing keeps the length and maps every character |
| Text.ToLowerIdempotent | commands.js:13 | lower-casing twice is lower-casing once |
| Document.AddUser | activityTracker.js:99 | adding to a Set gives a Set holding one more user with no duplicates; `.add` on an Array throws |
| Document.SizeText | slashCommands.js:84 | `size` of a Set is its number of users; on an Array the printing throws |
| Document.DistinctSize | slashCommands.js:84 | a duplicate-free list has as many users as elements |
| Storage.Dedup | activityTracker.js:19 | `new Set(array)` keeps exactly the array's users, with no duplicates |
| Storage.DedupOfDistinct | activityTracker.js:19 | a duplicate-free array becomes a Set unchanged |
| Storage.ToArray | activityTracker.js:53 | `Array.from(set)` keeps the elements in order |
| Storage.ToSet | activityTracker.js:18-20 | loading turns an Array into a Set of the same users and leaves a Set alone |
| Storage.Serialized | activityTracker.js:50-64 | the saved form holds only Arrays; messages, events and `lastUpdate` are unchanged, and no map appears or vanishes |
| Storage.SaveData | activityTracker.js:46-66 | the file receives the serialized document; the aliased save leaves memory equal to it, the copying save leaves memory alone |
| Storage.LoadData | activityTracker.js:10-44 | a missing or unreadable file gives the empty document; a loaded document holds only Sets; it keeps the file's messages, events and `lastUpdate`, has a stats map exactly where the file has one, and keeps each stats map's dates in order with their totals, their users and (for weeks) their per-user counts |
| Storage.LoadAfterSave | activityTracker.js:10-66 | loading what was saved gives back a document that held only Sets |
| Storage.CopyingSaveRoundTrip | activityTracker.js:10-66 | with the copying save, the document in memory equals what a reload of the file gives |
| Tracker.BumpMessages | activityTracker.js:81-89 | the user's count for the day grows by one and is created if absent; every other day and every other user is unchanged |
| Tracker.BumpedDays | activityTracker.js:81-89 | the user's date map after the bump is the old one with the day's count one higher |
| Tracker.WeeklyStep | activityTracker.js:157-175 | the week's total and the user's weekly count grow by one and the user joins the Set; with an Array the step stops at `.add` after the total; other weeks and users are unchanged |
| Tracker.UpdateWeeklyStats | activityTracker.js:157-175 | a missing weekly map interrupts; otherwise the document takes the weekly step, and the step completes exactly when the week's users form a Set |
| Tracker.RecordMessage | activityTracker.js:80-104 | the message counter always grows; the day's total grows and the user joins the day's Set; an Array there interrupts the step before the weekly update; other days and the events are unchanged |
| Tracker.TrackMessage | activityTracker.js:72-108 | a missing or empty user id changes nothing; otherwise the file is written exactly when recording completes; an interrupted recording keeps its partial changes in memory |
| Tracker.TrackedLog | activityTracker.js:81-89 | in either save mode the message counts after `trackMessage` are the bumped counts |
| Tracker.GetWeeklyStats | activityTracker.js:177-183 | a stored week is returned as it is and a missing week reads as empty; a missing weekly map throws |
| Tracker.AppendEvent | activityTracker.js:113-124 | exactly one record is appended at the end of the day's joins (or leaves); the other list and the other days are unchanged |
| Tracker.TrackMemberEvent | activityTracker.js:110-148 | a missing events map throws; otherwise the event is appended, `lastUpdate` is set and the document is saved |
| Tracker.TrackMemberJoin | activityTracker.js:110-128 | a join appends one record to today's joins and always writes the file; message counts never change, and with the copying save neither do the stats |
| Tracker.TrackMemberLeave | activityTracker.js:130-148 | the same for leaves |
| Invariants.DayTotalAfterBump | activityTracker.js:89-98 | a bump adds one to the bumped day's log total and nothing to the other days |
| Invariants.ActiveAfterBump | activityTracker.js:89-99 | a bump adds the user to the bumped day's active users and changes no other day |
| Invariants.WeekTotalAfterBump | activityTracker.js:172 | a bump adds one to the total of the bumped day's week |
| Invariants.WeekActiveAfterBump | activityTracker.js:173 | a bump adds the user to the active users of the bumped day's week |
| Invariants.WeekCountOfUserAfterBump | activityTracker.js:174 | a bump adds one to the user's count for the bumped day's week and nothing to anyone else's |
| Invariants.SoundAfterBump | activityTracker.js:81-89 | bumping keeps the log free of duplicate keys and negative counts |
| Invariants.DailyAfterBump | activityTracker.js:91-99 | if the daily map agreed with the log before, it agrees with the bumped log after the daily update |
| Invariants.WeeklyAfterBump | activityTracker.js:157-175 | if the weekly map agreed with the log before, it agrees with the bumped log after the weekly update |
| Invariants.TrackKeepsConsistent | activityTracker.js:72-108 | with the copying save, tracking a message keeps all three summaries equal to what the log implies, and writes the serialized memory |
| History.Handle | index.js:23-42 | a message event is `trackMessage`; a join or leave never touches messages, and with the copying save it leaves the stats alone too |
| History.EmptyIsConsistent | activityTracker.js:37-43 | the empty document is consistent |
| History.HandleKeepsConsistent | index.js:23-42 | with the copying save, any one event keeps the document consistent |
| History.ReplayKeepsConsistent | index.js:23-42 | with the copying save, any sequence of events keeps it consistent |
| History.DailyStatsCountMessages | activityTracker.js:91-99 | from the empty document, a day's stats hold the number of tracked messages of that day and the set of their senders |
| History.HandleCounts | activityTracker.js:81-99 | one event adds one to the day's log total and its sender to the day's users exactly when it is a counted message of that day |
| History.BumpCounts | activityTracker.js:81-89 | one bump adds one to the bumped day's log total and its user to the day's users |
| History.StatsOfConsistent | activityTracker.js:91-99 | in a consistent document the daily stats equal the log's day totals and active users |
| History.SerializedKeepsContents | activityTracker.js:50-64 | serializing keeps every day's total and users and every week's total, turning Sets into Arrays |
| History.FirstAliasedMessage | activityTracker.js:48-64 | the first aliased message leaves memory equal to the serialized form of the consistent copying result |
| History.SecondOnArrays | activityTracker.js:89-107 | on an aliased document a second message bumps the log and the day total, then throws at `.add`: the new sender is missing from the day's users, the week lags by one and nothing is saved |
| History.AliasedSecondMessage | activityTracker.js:48-107 | two aliased messages on one day leave a document that is not consistent and a file that misses the second one |
| History.AliasedTwoUsers | activityTracker.js:48-107 | starting empty, users `a` then `b` on one day give a day total of 2 with only `a` active, and a week total of 1 |
| History.TwoUsersLog | activityTracker.js:81-89 | example: the message log of the same two-user run counts two messages that day and that week |
| History.CleanupLeavesWeeklyStale | utils.js:30-72 | a cleanup that removes a day's messages keeps that week's total, so the document stops being consistent |
| History.OneMessageWeek | activityTracker.js:157-175 | a consistent document whose log is one message has a week total of one |
| History.StaleAfterCleanup | utils.js:38-64 | cleaning that document past its only day empties the log but leaves the week total at one |
| Maintenance.PruneLog | utils.js:38-50 | no remaining date is before the cutoff, no user is left with an empty date map, and no user is added |
| Maintenance.PruneLogGet | utils.js:38-50 | a user's date map after pruning is the old one without earlier dates, and the user is gone exactly when nothing remains |
| Maintenance.PruneLogDays | utils.js:38-50 | a user stays exactly when a date at or after the cutoff remains, and each such date keeps its count |
| Maintenance.PruneLogCount | utils.js:41-44 | the entries kept plus the entries removed are all the entries |
| Maintenance.PruneLogTwice | utils.js:38-50 | pruning twice is pruning once, and a pruned log has nothing before the cutoff |
| Maintenance.FilterCount | utils.js:52-64 | the kept days plus the removed days are all the days of a map |
| Maintenance.CleanupOldData | utils.js:30-72 | a missing messages, daily or events map throws; the file is written exactly when something was removed; the weekly map is never pruned |
| Maintenance.CleanupDays | adminCommands.js:111 | a given non-zero number of days is used as it is; an absent option or 0 gives 30 days |
| Maintenance.CleanupResult | utils.js:30-72 | a cleanup returns the number of removed date entries and saves the pruned document only when that number is positive |
| Maintenance.CleanedMaps | utils.js:38-64 | after cleanup the log is the pruned log, the events and daily stats keep only days from the cutoff on, and the copying save keeps them exactly |
| Maintenance.CleanupRemovesOld | utils.js:38-64 | after cleanup no user date, daily-stat day or event day is before the cutoff |
| Maintenance.CleanupKeepsRecent | utils.js:38-64 | entries dated on or after the cutoff are unchanged, earlier ones are gone, and a user is removed exactly when no date of theirs remains |
| Maintenance.CleanupCountsRemoved | utils.js:41-63 | the returned number is the removed date entries across the three maps; removed user keys are not counted |
| Maintenance.CleanedIsPruned | utils.js:38-64 | a cleaned document has nothing left to prune |
| Maintenance.AlreadyPruned | utils.js:38-64 | a document with nothing before the cutoff prunes to itself and counts zero |
| Maintenance.CleanupIdle | utils.js:66-71 | cleaning a document with nothing to remove returns 0 and neither changes nor saves anything |
| Maintenance.CleanupTwice | utils.js:30-72 | a second cleanup with the same cutoff returns 0 and changes and saves nothing |
| Maintenance.GetDataStats | utils.js:74-86 | throws exactly when the messages or daily map is missing; otherwise the user, day and week figures are the key counts of their maps (a missing weekly map counts as zero), the message total is the sum of every count in the log, and the last update is the document's |
| Maintenance.LogTotalAfterBump | utils.js:80-82 | a bump adds one to the sum of all counts |
| Maintenance.UserTotalAfterBump | slashCommands.js:102-104 | a bump adds one to the user's total |
| Maintenance.DataStatsCountMessages | utils.js:80-82 | after tracking a message, in either save mode, the reported message total is one higher |
| Maintenance.UserRows | utils.js:114-116 | one row per date of a user, in map order, carrying the user and the count |
| Maintenance.CsvRows | utils.js:113-117 | there is one row per (user, date) entry |
| Maintenance.CsvRowsComplete | utils.js:113-117 | a row appears exactly when the log holds that count for that user and date |
| Maintenance.UserRowsComplete | utils.js:114-116 | a user's row appears exactly when the user's map holds that count for that date |
| Maintenance.ConvertToCsv | utils.js:109-120 | the export starts with the header line, and an empty log gives only the header |
| Maintenance.CsvLineCount | utils.js:109-120 | when no user id holds a line break, the export has one line for the header and one per (user, date) entry |
| Maintenance.ExportCsv | utils.js:109-120 | throws exactly when the messages map is missing; otherwise the text starts with the header line, and an empty log gives only the header |
| Maintenance.ExportCsvLineCount | utils.js:109-120 | with a messages map and no line break in a user id, the document's export has one line for the header and one per (user, date) entry |
| Maintenance.RenderRowIsOneLine | utils.js:115 | each row is exactly one line |
| Maintenance.ArrayDayIssues | utils.js:138-142 | one issue for each day whose active users are not a Set (Maintenance.ArrayDays counts them), so none exactly when every day holds a Set; each issue starts with `Invalid activeUsers Set for date: ` |
| Maintenance.MissingIssues | utils.js:126-136 | one issue per missing top-level map, with the messages, dailyStats and memberEvents texts in that order |
| Maintenance.ValidateData | utils.js:122-148 | valid exactly when there are no issues, which happens exactly when the three maps are present and every day holds a Set; the issues are one per missing map, in the fixed order messages, dailyStats, memberEvents, followed by one day issue per day whose active users are not a Set |
| Maintenance.ValidAfterLoad | utils.js:122-148 | a loaded document with its three maps passes validation |
| Maintenance.InvalidAfterAliasedSave | utils.js:138-142 | after an aliased save, validation fails unless there are no daily stats |
| Views.SummarizeDay | slashCommands.js:72-91 | stats figures are the day's total, Set size and join and leave counts, with absent days read as empty; missing maps or an Array throw |
| Views.QuietDayIsZero | slashCommands.js:76-77 | a day with no entries reads as four zeros |
| Views.SummaryOfConsistent | commands.js:41-51 | on a consistent document the stats show the log's day total and number of active users |
| Views.SummaryAfterAliasedSave | commands.js:49 | after an aliased save, the stats of a day with entries throw |
| Views.StatsBreakAfterAliasedTrack | activityTracker.js:48-64 | a message that reaches the aliased save breaks the stats of its own day |
| Views.JoinShowsInSummary | slashCommands.js:85 | a recorded join shows as one more join and changes no other figure |
| Views.GetUserActivity | slashCommands.js:93-104 | today's figure is the day's count and the total is the sum of the user's counts, both 0 for an unknown user |
| Views.CountAtMostTotal | slashCommands.js:99-104 | with no negative counts, one day's count is at most the total |
| Views.TodayAtMostTotal | commands.js:81-89 | the activity view never shows more today than in total |
| Views.ActivityAfterMessage | activityTracker.js:81-89 | after a message, in either save mode, the user's today and total figures are both one higher |
| Views.ActivityOfBumpedLog | slashCommands.js:96-104 | a bumped log shows one more today and in total |
| Profiles.InsertDay | userProfiles.js:17 | inserting a date keeps the multiset of dates and keeps them ascending |
| Profiles.SortDays | userProfiles.js:17 | sorting gives an ascending permutation of the date keys |
| Profiles.SortDaysSum | userProfiles.js:17-30 | a sum over the dates does not depend on their order |
| Profiles.SeqSumKeys | userProfiles.js:17-30 | summing over the keys is summing over the user's map |
| Profiles.ScanFacts | userProfiles.js:19-30 | the scan totals the positive counts and the active days; first and last are null exactly when no day is active, and over ascending dates they are the least and greatest active dates |
| Profiles.AverageTenths | userProfiles.js:32 | the average in tenths is total / active days rounded half up to the nearest tenth, and 0 with no active day |
| Profiles.AverageExample | userProfiles.js:32 | example: 6 over 2 days is 3.0, 5 over 2 is 2.5 and 1 over 3 is 0.3 |
| Profiles.JoinIndex | userProfiles.js:55-60 | the position of the first events entry whose joins hold the user, in map order |
| Profiles.GetUserJoinDate | userProfiles.js:54-62 | null exactly when no day's joins hold the user; otherwise the date of the first entry in map order whose joins hold the user, no earlier entry holding them (Profiles.JoinIndex) |
| Profiles.JoinDateEarliest | userProfiles.js:54-62 | when the events map is in date order, the join date is the earliest such date |
| Profiles.JoinDateFollowsMapOrder | userProfiles.js:54-62 | example: with the events map out of date order (day 5 before day 3, both joining the user), the first entry in map order, day 5, wins |
| Profiles.GetUserProfile | userProfiles.js:8-52 | today's and this week's figures default to 0, the join date is the lookup's, and the average is computed from the total and active days; a missing map throws |
| Profiles.ProfileFigures | userProfiles.js:14-32 | the total is the sum of positive counts, active days are the days with a positive count, and first and last are the least and greatest active dates, null exactly when none |
| Profiles.GetActivityLevel | userProfiles.js:114-121 | the level is the number of thresholds reached |
| Profiles.ReachedThresholds | userProfiles.js:114-121 | those thresholds are 10, 50, 200, 500 and 1000 |
| Profiles.ActivityLevelMonotone | userProfiles.js:114-121 | more messages never give a lower level |
| Ranking.UserTotals | slashCommands.js:123-126 | one (user, sum of counts) pair per user, in map order |
| Ranking.Insert | slashCommands.js:128-129 | insertion places the new pair after every pair with an equal or larger total and keeps the others |
| Ranking.InsertAtSplit | slashCommands.js:128-129 | in a sorted list, the insertion point comes after every total at least as large and before every smaller one |
| Ranking.SortDesc | slashCommands.js:128-129 | the stable sort gives a non-increasing permutation of the totals |
| Ranking.CountSorted | slashCommands.js:128-129 | sorting keeps how many totals satisfy any test |
| Ranking.SortPosition | userProfiles.js:106-108 | each pair lands at the position given by the number of larger totals plus the number of equal totals before it |
| Ranking.SortUnique | slashCommands.js:128-130 | sorting keeps every user at most once |
| Ranking.InSorted | slashCommands.js:128-129 | a pair is in the sorted list exactly when it is in the totals |
| Ranking.FindUser | userProfiles.js:110 | the position of the first pair with the user, or the length if none |
| Ranking.GetUserRank | userProfiles.js:98-112 | the rank is between 1 and the number of tracked users plus one |
| Ranking.UserRankIn | userProfiles.js:98-112 | throws exactly when the messages map is missing; otherwise the rank is between 1 and the number of users plus one, and is one past the last place exactly when the user has no entry |
| Ranking.SortedHasUser | userProfiles.js:110 | the user is found in the sorted list exactly when the user has a messages entry |
| Ranking.RankOfUntracked | userProfiles.js:110-111 | the rank is one past the number of users exactly when the user has no messages entry |
| Ranking.RankFormula | userProfiles.js:102-111 | rank = 1 + users with a larger total + users with an equal total earlier in map order |
| Ranking.LimitOf | slashCommands.js:120 | an absent limit is 10 and a non-zero one is used as it is |
| Ranking.SliceEnd | slashCommands.js:130 | `slice(0, end)` keeps the first `end` pairs, or all when fewer |
| Ranking.Leaderboard | slashCommands.js:119-130 | the board has as many entries as the slice keeps, is non-increasing and holds only users' totals |
| Ranking.LeaderboardIn | slashCommands.js:119-130 | throws exactly when the messages map is missing; otherwise the board has as many entries as the slice keeps, is non-increasing and holds only users' totals |
| Ranking.LeaderboardEntries | slashCommands.js:120-130 | with a limit from 1 to 25 or none, the board has min(limit, users) entries, each user at most once with the sum of their counts |
| Ranking.BoardIsSorted | slashCommands.js:128-130 | entry `i` of the board is entry `i` of the full sorted list |
| Ranking.BoardEntry | slashCommands.js:123-130 | each entry's total is the user's sum of counts |
| Ranking.LeaderboardMatchesRank | slashCommands.js:128-130 | entry `i` of the board has rank `i + 1` in the profile |
| Ranking.PositionLabel | slashCommands.js:141-144 | the first three positions are medals; later ones are a number and a dot |
| Ranking.LabelNumber | slashCommands.js:143 | the number in a later label is the position plus one |
| Ranking.PositionLabelInjective | slashCommands.js:141-144 | no two positions share a label |
| Ranking.MedalIsNotNumber | slashCommands.js:141-144 | no medal equals a numbered label |
| Commands.ParseCommand | commands.js:10-13 | a command exactly when the content starts with `!`; the name is lower case and holds no space; the arguments hold no space and keep their case |
| Commands.ParseWords | commands.js:12-13 | `!` followed by space-separated words parses to the first word lower-cased and the rest as they are |
| Commands.ParseSpacedWords | commands.js:12-13 | `!` and words separated by any runs of spaces parse to the first word lower-cased and the others as they are, so a run yields no empty argument |
| Commands.ParseTwoWords | commands.js:12-13 | two words around one run of spaces give the first, lower-cased, as the name and the second as the only argument |
| Commands.ParseStatsSpaced | commands.js:12-13 | example: `!stats`, any run of spaces, then `foo` parses to `stats` with the one argument `foo` |
| Commands.ParseOneWord | commands.js:12-13 | one word after `!` is a command without arguments |
| Commands.ParseBareBang | commands.js:12-13 | example: a bare `!` names the empty command |
| Commands.UpperCaseStats | commands.js:13-17 | example: `!STATS` dispatches to stats |
| Commands.Dispatch | commands.js:16-28 | exactly the names `stats`, `help` and `activity` are known |
| Commands.RunCommand | commands.js:37-102 | help always answers; stats answers with the day's figures and activity with the target's figures, each failing exactly when its view throws |
| Commands.HandleCommand | commands.js:9-35 | handled exactly when the content parses to a known name; a command that throws is still handled, with the error reply |
| Commands.HandleIgnoresCase | commands.js:13-17 | two contents whose command words agree up to case are handled alike |
| Commands.SameName | commands.js:16-34 | the parsed name alone decides the handling |
| Commands.OnMessageCreate | index.js:23-32 | bots are ignored; a handled command changes nothing; any other message is tracked |
| Commands.BareBangIsTracked | index.js:26-29 | a bare `!` is tracked as an ordinary message |
| Commands.StatsFailsAfterAliasedSave | commands.js:30-34 | after an aliased save, `!stats` on a day with entries gets the error reply and still counts as handled |
| Scheduler.TimeString | scheduler.js:25 | the time is two hour digits, a colon and two minute digits |
| Scheduler.TimeStringInjective | scheduler.js:25 | different times give different strings |
| Scheduler.ReportTimeAt | scheduler.js:8 | the string is `18:00` exactly at 18 h 00 |
| Scheduler.CheckDailyReport | scheduler.js:21-30 | a report is sent exactly when a channel is set and the time is 18:00, so once a day |
| Scheduler.DailyReport | scheduler.js:37-52 | the report shows the previous day's figures, read as the stats view reads them |
| Scheduler.ReportOfConsistent | scheduler.js:41-52 | on a consistent document the report shows yesterday's log total and number of active users |
| Scheduler.TodayLeavesReport | scheduler.js:37-43 | tracking a message today does not change the report on yesterday |
| Scheduler.TrackKeepsOtherDays | activityTracker.js:91-99 | tracking leaves every other day's stats and all events unchanged |
| Scheduler.ReportLostAfterAliasedSave | scheduler.js:59-61 | after an aliased save the report on a day with entries throws and nothing is sent |
| Config.ValidateConfig | config.js:3-27 | each error is present exactly when its condition holds; a missing guild never also gets the format error; errors come in the fixed order |
| Config.PushedErrors | config.js:6-20 | each push happens exactly when its test fails |
| Config.PushedInOrder | config.js:4-20 | the pushes come in source order |
| Config.AcceptedExactly | config.js:22-26 | the configuration is accepted exactly when the token is set, the guild id is digits only, and the channel id is unset or digits only |
| Config.EmptyEnvironment | config.js:6-12 | example: an empty environment gets the two "required" errors |
| Config.LoadConfig | config.js:29-40 | settings exist exactly when validation passes; tracking is off only for exactly `"false"`, reports are on only for exactly `"true"`, the token and guild id are the variables' own values, and the channel is the variable's value when set and null otherwise |

## Left out

- File I/O: reading and writing the JSON file, backups, exports and their timestamped names. Load and save are modelled as the Set↔Array conversions, and a failed read as "no file".
- `getDataStats().dataSize` (utils.js:83): the length of the JSON text, which needs a JSON printer.
- The discord.js surface: embeds, replies, the slash-command builders and `handleInteraction`, `createProfileEmbed`, `adminCommands.js`, and the channel fetch of the daily report. The mentioned user of `!activity` and the `user` option of `/activity` and `/profile` are the `target` parameter.
- The wall clock and polling: `new Date()` and `setInterval`. Today, hour, minute and timestamps are parameters, and timestamps are opaque strings. `index.js` never creates the scheduler; the model describes it all the same.
- Time zones and daylight saving: the model is stated for a process running in UTC. The one local-time effect it keeps is the week key behind UTC (see Findings). The cleanup cutoff and "yesterday" shift the same way and are not modelled separately.
- Floating point: the profile average is kept in integer tenths, rounded half up.
- `parseInt` of `ACTIVITY_CHECK_INTERVAL` and `MAX_DATA_AGE_DAYS` (config.js:34, 39). `maxDataAgeDays` is read by nothing; cleanup uses its own default of 30 days (utils.js:30, adminCommands.js:111).
- `trackingEnabled`, `dailyReportsEnabled` and `weeklyReportsEnabled` are computed but read by nothing in the listeners, so they switch nothing in the model.
- `sendWeeklyReport` logs a message and does nothing else; there is no weekly report to model.
- Process exit, console output and the caught errors' log lines.
- JavaScript's ordering of integer-like object keys: user ids are snowflakes far beyond the array-index range and dates hold dashes, so every map iterates in insertion order, which the association lists keep.
- `toLowerCase` and `trim` are modelled for ASCII letters and the usual white-space characters; Unicode case mapping is left out.
- Maintenance.ConvertToCsv: states the header and, through Maintenance.CsvLineCount, the number of lines; the exact text of each line is left to Maintenance.RenderRow's definition.
- Maintenance.ValidateData: states the number of issues, the missing-map texts and their order, and the common start of the day issues. The date each day issue names, and the map order of those issues, are left to Maintenance.ArrayDayIssues' definition.
- Maintenance.CsvLineCount: assumes user ids without line breaks, as Discord ids are digits.
- Ranking.LeaderboardEntries: assumes a limit from 1 to 25, the range the slash command's option declares; other limits are only covered by Ranking.Leaderboard.
- Date keys are day numbers compared with `<`, where the source compares `YYYY-MM-DD` strings (utils.js:41) and sorts them (userProfiles.js:17). The two orders agree only for years 0000 to 9999. Dates.DateString and Dates.DateStringInjective show that in that range a string names exactly one day, but that string order follows day order is not proved.
- Ranking.GetUserRank, Ranking.Leaderboard and Maintenance.ConvertToCsv take the messages map itself; the `TypeError` of a missing map is stated by Ranking.UserRankIn, Ranking.LeaderboardIn and Maintenance.ExportCsv.
- Stale weekly stats after cleanup are not repaired: cleanup never touches `weeklyStats`, and History.CleanupLeavesWeeklyStale shows the consequence.

## Findings

| source | as written | input that shows it | evidently intended | confidence | as-written member | corrected member |
|---|---|---|---|---|---|---|
| activityTracker.js:48-64 | `{ ...this.activityData }` copies only the top level, so turning Sets into Arrays for the file also replaces the Sets in memory; the next message bumps its counter and day total, then throws at `.add` (line 99), and the error is swallowed (lines 105-107) | from the empty document, users `a` then `b` post on the same day: the day total is 2 but only `a` is active, the week total is 1, and the second message is never saved | save a converted copy and keep the Sets in memory, so that every summary keeps agreeing with the message log | not executed | History.AliasedTwoUsers | History.ReplayKeepsConsistent |
| activityTracker.js:151-154 | the weekday comes from local time (`getDay`, `setDate`) but the key is printed in UTC (`toISOString`) | at any negative UTC offset, "2024-01-10" gives the key 2024-01-08, a Monday | the Sunday that starts the day's week, 2024-01-07 | not executed | Dates.WeekKeyBehindUtcIsMonday | Dates.WeekKey |

=== FILE: assoc.dfy ===
/** Insertion-ordered maps: the plain JavaScript objects of the source, whose
    `Object.keys`/`Object.entries` list keys in the order they were first
    assigned. A map is a list of (key, value) pairs; `Get` finds the first
    pair with the key, `Put` overwrites that pair in place or appends a new
    one, and `Filter` is `delete` applied to every key that fails a test. */
module Assoc {
  import opened Wrappers

  type Assoc<K, V> = seq<(K, V)>

  /** The keys in iteration order (`Object.keys`). */
  function Keys<K(==, !new), V>(m: Assoc<K, V>): seq<K> {
    if m == [] then [] else [m[0].0] + Keys(m[1..])
  }

  /** The values in iteration order (`Object.values`). */
  function Values<K(==, !new), V>(m: Assoc<K, V>): seq<V> {
    if m == [] then [] else [m[0].1] + Values(m[1..])
  }

  /** No key occurs twice: every map the source builds has this shape. */
  predicate Distinct<K(==, !new), V>(m: Assoc<K, V>) {
    m == [] || (m[0].0 !in Keys(m[1..]) && Distinct(m[1..]))
  }

  /** `m[k]`: the value of the first pair with key `k`. */
  function Get<K(==, !new), V>(m: Assoc<K, V>, k: K): (r: Option<V>)
    ensures r.Some? <==> k in Keys(m)
  {
    if m == [] then None
    else if m[0].0 == k then Some(m[0].1)
    else Get(m[1..], k)
  }

  /** `m[k] = v`: overwrite in place, or append when `k` is new. */
  function Put<K(==, !new), V>(m: Assoc<K, V>, k: K, v: V): (r: Assoc<K, V>)
    ensures Get(r, k) == Some(v)
    ensures forall k' :: k' != k ==> Get(r, k') == Get(m, k')
    ensures k in Keys(m) ==> Keys(r) == Keys(m)
    ensures k !in Keys(m) ==> Keys(r) == Keys(m) + [k]
    ensures Distinct(m) ==> Distinct(r)
  {
    if m == [] then [(k, v)]
    else if m[0].0 == k then [(k, v)] + m[1..]
    else [m[0]] + Put(m[1..], k, v)
  }

  /** Deletes every key that fails `keep`; the survivors keep their order. */
  function Filter<K(==, !new), V>(m: Assoc<K, V>, keep: K -> bool): (r: Assoc<K, V>)
    ensures forall k :: Get(r, k) == (if keep(k) then Get(m, k) else None)
    ensures forall k :: k in Keys(r) ==> keep(k)
    ensures |r| <= |m|
    ensures Distinct(m) ==> Distinct(r)
  {
    if m == [] then []
    else if keep(m[0].0) then [m[0]] + Filter(m[1..], keep)
    else Filter(m[1..], keep)
  }

  /** Applies `f` to every value; keys and order are unchanged. */
  function MapValues<K(==, !new), V, W>(m: Assoc<K, V>, f: V -> W): (r: Assoc<K, W>)
    ensures Keys(r) == Keys(m)
    ensures |r| == |m| && forall i :: 0 <= i < |m| ==> r[i] == (m[i].0, f(m[i].1))
    ensures forall k :: Get(r, k) == (if k in Keys(m) then Some(f(Get(m, k).value)) else None)
  {
    if m == [] then [] else [(m[0].0, f(m[0].1))] + MapValues(m[1..], f)
  }

  /** The sum of `f` over every pair. */
  function SumBy<K(==, !new), V>(m: Assoc<K, V>, f: (K, V) -> int): int {
    if m == [] then 0 else f(m[0].0, m[0].1) + SumBy(m[1..], f)
  }

  /** The keys whose value satisfies `p`. */
  function KeysWhere<K(==, !new), V>(m: Assoc<K, V>, p: V -> bool): set<K> {
    if m == [] then {}
    else (if p(m[0].1) then {m[0].0} else {}) + KeysWhere(m[1..], p)
  }

  /** Lemmas */

  lemma KeysLength<K(!new), V>(m: Assoc<K, V>)
    ensures |Keys(m)| == |m|
  {
  }

  lemma {:induction false} KeysWhereSubset<K(!new), V>(m: Assoc<K, V>, p: V -> bool)
    ensures forall k :: k in KeysWhere(m, p) ==> k in Keys(m)
  {
    if m != [] {
      KeysWhereSubset(m[1..], p);
    }
  }

  lemma {:induction false} KeysWhereMeaning<K(!new), V>(m: Assoc<K, V>, p: V -> bool, k: K)
    requires Distinct(m)
    ensures k in KeysWhere(m, p) <==> (Get(m, k).Some? && p(Get(m, k).value))
  {
    if m != [] {
      KeysWhereMeaning(m[1..], p, k);
      KeysWhereSubset(m[1..], p);
    }
  }

  /** Overwriting one pair changes the sum by the difference of its terms. */
  lemma {:induction false} SumByPut<K(!new), V>(m: Assoc<K, V>, k: K, v: V, f: (K, V) -> int)
    ensures SumBy(Put(m, k, v), f) + (if Get(m, k).Some? then f(k, Get(m, k).value) else 0)
            == SumBy(m, f) + f(k, v)
  {
    if m != [] && m[0].0 != k {
      SumByPut(m[1..], k, v, f);
    }
  }

  /** Overwriting one pair changes the key set of `p` only at that key. */
  lemma {:induction false} KeysWherePut<K(!new), V>(m: Assoc<K, V>, k: K, v: V, p: V -> bool)
    requires Distinct(m)
    ensures KeysWhere(Put(m, k, v), p) == (KeysWhere(m, p) - {k}) + (if p(v) then {k} else {})
  {
    if m == [] {
    } else if m[0].0 == k {
      KeysWhereSubset(m[1..], p);
    } else {
      KeysWherePut(m[1..], k, v, p);
    }
  }

  /** Replacing the value of `k` by one that passes `p` adds `k` to the
      key set of `p`. */
  lemma KeysWhereGains<K(!new), V>(m: Assoc<K, V>, k: K, v: V, p: V -> bool)
    requires Distinct(m) && p(v)
    ensures KeysWhere(Put(m, k, v), p) == KeysWhere(m, p) + {k}
  {
    KeysWherePut(m, k, v, p);
  }

  /** Replacing the value of `k` by one that `p` judges as it judged the
      old one (a new key: one that fails `p`) keeps the key set of `p`. */
  lemma KeysWhereKeeps<K(!new), V>(m: Assoc<K, V>, k: K, v: V, p: V -> bool)
    requires Distinct(m)
    requires Get(m, k).Some? ==> p(v) == p(Get(m, k).value)
    requires Get(m, k).None? ==> !p(v)
    ensures KeysWhere(Put(m, k, v), p) == KeysWhere(m, p)
  {
    KeysWherePut(m, k, v, p);
    KeysWhereMeaning(m, p, k);
  }

  /** `SumByPut` with the old value named: a new key must add nothing under
      the old value's term. */
  lemma SumByReplace<K(!new), V>(m: Assoc<K, V>, k: K, v: V, old_: V, f: (K, V) -> int)
    requires Get(m, k).Some? ==> Get(m, k).value == old_
    requires Get(m, k).None? ==> f(k, old_) == 0
    ensures SumBy(Put(m, k, v), f) == SumBy(m, f) + f(k, v) - f(k, old_)
  {
    SumByPut(m, k, v, f);
  }

  /** Mapping with `f` and then with a left inverse `g` restores the map. */
  lemma {:induction false} MapValuesInverse<K(!new), V, W>(m: Assoc<K, V>, f: V -> W, g: W -> V)
    requires forall i :: 0 <= i < |m| ==> g(f(m[i].1)) == m[i].1
    ensures MapValues(MapValues(m, f), g) == m
  {
    if m != [] {
      MapValuesInverse(m[1..], f, g);
    }
  }

  /** Filtering with a test every key passes changes nothing. */
  lemma {:induction false} FilterKeepsAll<K(!new), V>(m: Assoc<K, V>, keep: K -> bool)
    requires forall k :: k in Keys(m) ==> keep(k)
    ensures Filter(m, keep) == m
  {
    if m != [] {
      FilterKeepsAll(m[1..], keep);
    }
  }

  /** Every pair of a `Put` result is the new pair or an old one. */
  lemma {:induction false} PutEntries<K(!new), V>(m: Assoc<K, V>, k: K, v: V)
    ensures forall i :: 0 <= i < |Put(m, k, v)| ==> Put(m, k, v)[i] == (k, v) || Put(m, k, v)[i] in m
  {
    if m != [] && m[0].0 != k {
      PutEntries(m[1..], k, v);
    }
  }

  /** A value `Get` finds is the value of some pair. */
  lemma {:induction false} GetEntry<K(!new), V>(m: Assoc<K, V>, k: K)
    requires Get(m, k).Some?
    ensures (k, Get(m, k).value) in m
  {
    if m[0].0 != k {
      GetEntry(m[1..], k);
    }
  }

  /** The i-th key is the key of the i-th pair. */
  lemma {:induction false} KeysIndexed<K(!new), V>(m: Assoc<K, V>)
    ensures |Keys(m)| == |m|
    ensures forall i :: 0 <= i < |m| ==> Keys(m)[i] == m[i].0
  {
    if m != [] {
      KeysIndexed(m[1..]);
    }
  }

  /** In a map without repeated keys, no two pairs share a key. */
  lemma {:induction false} DistinctIndexed<K(!new), V>(m: Assoc<K, V>)
    requires Distinct(m)
    ensures forall a, b :: 0 <= a < b < |m| ==> m[a].0 != m[b].0
  {
    if m != [] {
      DistinctIndexed(m[1..]);
      KeysIndexed(m[1..]);
      forall b | 0 < b < |m|
        ensures m[0].0 != m[b].0
      {
        assert m[b].0 == Keys(m[1..])[b - 1];
      }
      forall a, b | 0 < a < b < |m|
        ensures m[a].0 != m[b].0
      {
        assert m[a] == m[1..][a - 1] && m[b] == m[1..][b - 1];
      }
    }
  }

  /** In a map without repeated keys, `Get` finds the value of the pair
      holding the key. */
  lemma GetIndexed<K(!new), V>(m: Assoc<K, V>, i: nat)
    requires Distinct(m) && i < |m|
    ensures Get(m, m[i].0) == Some(m[i].1)
  {
    DistinctIndexed(m);
    GetAt(m, i);
  }

  lemma {:induction false} GetAt<K(!new), V>(m: Assoc<K, V>, i: nat)
    requires i < |m|
    requires forall a, b :: 0 <= a < b < |m| ==> m[a].0 != m[b].0
    ensures Get(m, m[i].0) == Some(m[i].1)
  {
    if i > 0 {
      assert m[0].0 != m[i].0;
      assert m[i] == m[1..][i - 1];
      GetAt(m[1..], i - 1);
    }
  }
}

=== FILE: commands.dfy ===
/** The `!`-prefixed text commands, and the message handler that sends a
    message either to a command or to the tracker. */
module Commands {
  import opened Wrappers
  import opened Assoc
  import opened Text
  import opened Dates
  import opened Document
  import opened Storage
  import opened Tracker
  import opened Views

  /** A command name with the words after it. */
  datatype Invocation = Invocation(name: string, args: seq<string>)

  /** `content.slice(1).trim().split(/ +/)`, whose first piece, lower-cased,
      is the command name; `None` when the content does not start with `!`. */
  function ParseCommand(content: string): (r: Option<Invocation>)
    ensures r.Some? <==> |content| > 0 && content[0] == '!'
    ensures r.Some? ==> ToLower(r.value.name) == r.value.name && ' ' !in r.value.name
    ensures r.Some? ==> forall i :: 0 <= i < |r.value.args| ==> ' ' !in r.value.args[i]
  {
    if |content| == 0 || content[0] != '!' then None
    else
      var parts := SplitSpaces(Trim(content[1..]));
      ToLowerIdempotent(parts[0]);
      Some(Invocation(ToLower(parts[0]), parts[1..]))
  }

  datatype Command = Stats | Help | Activity

  /** The `switch`: three names are known, every other one (the empty name
      of a bare `!` included) falls to `default`. */
  function Dispatch(name: string): (c: Option<Command>)
    ensures c == Some(Stats) <==> name == "stats"
    ensures c == Some(Help) <==> name == "help"
    ensures c == Some(Activity) <==> name == "activity"
  {
    if name == "stats" then Some(Stats)
    else if name == "help" then Some(Help)
    else if name == "activity" then Some(Activity)
    else None
  }

  /** What the bot answers. */
  datatype Reply =
    | NoReply
    | StatsReply(summary: DaySummary)
    | HelpReply
    | ActivityReply(figures: UserActivity)
    | ErrorReply

  /** Runs one command against the document; `target` is the first
      mentioned user, or the author. Each command only reads the document. */
  function RunCommand(doc: Document, cmd: Command, target: UserId, today: Day): (r: Js<Reply>)
    ensures cmd.Help? ==> r == Returned(HelpReply)
    ensures cmd.Stats? ==> (r.Returned? <==> SummarizeDay(doc, today).Returned?)
    ensures cmd.Stats? && r.Returned? ==> r.value == StatsReply(SummarizeDay(doc, today).value)
    ensures cmd.Activity? ==> (r.Returned? <==> doc.messages.Some?)
    ensures cmd.Activity? && r.Returned? ==> r.value == ActivityReply(GetUserActivity(doc, target, today).value)
  {
    match cmd
    case Help => Returned(HelpReply)
    case Stats =>
      var summary :- SummarizeDay(doc, today);
      Returned(StatsReply(summary))
    case Activity =>
      var figures :- GetUserActivity(doc, target, today);
      Returned(ActivityReply(figures))
  }

  /** `handleCommand(message)`: whether the message was a command, and the
      reply. A command that throws is answered with an error message and
      still counts as handled. */
  function HandleCommand(doc: Document, content: string, target: UserId, today: Day): (r: (bool, Reply))
    ensures r.0 <==> ParseCommand(content).Some? && Dispatch(ParseCommand(content).value.name).Some?
    ensures r.0 <==> !r.1.NoReply?
    ensures r.0 ==>
      var run := RunCommand(doc, Dispatch(ParseCommand(content).value.name).value, target, today);
      r.1 == (if run.Returned? then run.value else ErrorReply)
  {
    match ParseCommand(content)
    case None => (false, NoReply)
    case Some(inv) =>
      match Dispatch(inv.name)
      case None => (false, NoReply)
      case Some(cmd) =>
        match RunCommand(doc, cmd, target, today)
        case Threw => (true, ErrorReply)
        case Returned(reply) => (true, reply)
  }

  /** The `messageCreate` listener: bots are ignored; a command is answered
      and changes nothing; any other message is tracked. */
  function OnMessageCreate(mode: SaveMode, doc: Document, fromBot: bool, content: string, author: UserId,
                           target: UserId, today: Day, now: Timestamp): (r: (Effect, Reply))
    ensures fromBot ==> r == (Effect(doc, None), NoReply)
    ensures !fromBot && HandleCommand(doc, content, target, today).0 ==>
      r.0 == Effect(doc, None) && !r.1.NoReply?
    ensures !fromBot && !HandleCommand(doc, content, target, today).0 ==>
      r == (TrackMessage(mode, doc, Some(author), today, now), NoReply)
  {
    if fromBot then (Effect(doc, None), NoReply)
    else
      var (handled, reply) := HandleCommand(doc, content, target, today);
      if handled then (Effect(doc, None), reply)
      else (TrackMessage(mode, doc, Some(author), today, now), NoReply)
  }

  /** Lemmas */

  /** A word: non-empty, no white space. */
  predicate Word(w: string) {
    w != [] && forall k :: 0 <= k < |w| ==> !IsJsSpace(w[k])
  }

  predicate Words(ws: seq<string>) {
    |ws| >= 1 && forall i :: 0 <= i < |ws| ==> Word(ws[i])
  }

  /** `!` followed by words separated by single spaces parses to the first
      word, lower-cased, and the other words as they are. */
  lemma ParseWords(ws: seq<string>)
    requires Words(ws)
    ensures ParseCommand("!" + JoinSpaces(ws)) == Some(Invocation(ToLower(ws[0]), ws[1..]))
  {
    var s := JoinSpaces(ws);
    assert ("!" + s)[1..] == s;
    JoinEnds(ws);
    var last := ws[|ws| - 1];
    assert s[0] == ws[0][0];
    assert s[|s| - 1] == last[|last| - 1] by {
      assert s[|s| - |last|..][|last| - 1] == last[|last| - 1];
    }
    TrimOfTrimmed(s);
    forall i | 0 <= i < |ws| ensures ' ' !in ws[i] {
      assert Word(ws[i]);
    }
    SplitJoin(ws);
  }

  /** The same holds whatever runs of spaces separate the words: a run of
      several spaces is one separator and yields no empty argument. */
  lemma ParseSpacedWords(ws: seq<string>, runs: seq<string>)
    requires Words(ws) && |runs| == |ws| - 1
    requires forall i :: 0 <= i < |runs| ==> SpaceRun(runs[i])
    ensures ParseCommand("!" + JoinRuns(ws, runs)) == Some(Invocation(ToLower(ws[0]), ws[1..]))
  {
    var s := JoinRuns(ws, runs);
    assert ("!" + s)[1..] == s;
    JoinRunsEnds(ws, runs);
    var last := ws[|ws| - 1];
    assert s[0] == ws[0][0];
    assert s[|s| - 1] == last[|last| - 1] by {
      assert s[|s| - |last|..][|last| - 1] == last[|last| - 1];
    }
    TrimOfTrimmed(s);
    forall i | 0 <= i < |ws| ensures ' ' !in ws[i] {
      assert Word(ws[i]);
    }
    SplitJoinRuns(ws, runs);
  }

  /** `!stats` and `foo` separated by any run of spaces (`!stats   foo`,
      say) is `stats` with the one argument `foo`. */
  lemma ParseStatsSpaced(r: string)
    requires SpaceRun(r)
    ensures ParseCommand("!" + "stats" + r + "foo") == Some(Invocation("stats", ["foo"]))
  {
    PlainWord("stats");
    PlainWord("foo");
    ParseTwoWords("stats", r, "foo");
  }

  /** Two words around one run of spaces. */
  lemma ParseTwoWords(a: string, r: string, b: string)
    requires Word(a) && Word(b) && SpaceRun(r)
    ensures ParseCommand("!" + a + r + b) == Some(Invocation(ToLower(a), [b]))
  {
    assert JoinRuns([a, b], [r]) == a + r + b by {
      assert [a, b][1..] == [b] && [r][1..] == [];
      assert JoinRuns([b], []) == b;
    }
    assert "!" + a + r + b == "!" + JoinRuns([a, b], [r]);
    ParseSpacedWords([a, b], [r]);
    assert [a, b][1..] == [b];
  }


  /** Lower-casing keeps every word a word. */
  lemma LowerWord(w: string)
    requires Word(w)
    ensures Word(ToLower(w))
  {
    forall k | 0 <= k < |w| ensures !IsJsSpace(ToLower(w)[k]) {
      assert !IsJsSpace(w[k]);
    }
  }

  /** Matching ignores case: two invocations whose command words agree up
      to case are handled alike, whatever their arguments. */
  lemma HandleIgnoresCase(doc: Document, ws: seq<string>, ws': seq<string>, target: UserId, today: Day)
    requires Words(ws) && Words(ws')
    requires ToLower(ws[0]) == ToLower(ws'[0])
    ensures HandleCommand(doc, "!" + JoinSpaces(ws), target, today)
            == HandleCommand(doc, "!" + JoinSpaces(ws'), target, today)
  {
    ParseWords(ws);
    ParseWords(ws');
    SameName(doc, "!" + JoinSpaces(ws), "!" + JoinSpaces(ws'), target, today);
  }

  /** Only the command name decides how a command is handled. */
  lemma SameName(doc: Document, content: string, content': string, target: UserId, today: Day)
    requires ParseCommand(content).Some? && ParseCommand(content').Some?
    requires ParseCommand(content).value.name == ParseCommand(content').value.name
    ensures HandleCommand(doc, content, target, today) == HandleCommand(doc, content', target, today)
  {
  }

  /** A single word after `!` is the whole command. */
  lemma ParseOneWord(w: string)
    requires Word(w)
    ensures ParseCommand("!" + w) == Some(Invocation(ToLower(w), []))
  {
    assert JoinSpaces([w]) == w;
    assert [w][1..] == [];
    ParseWords([w]);
  }

  /** `!STATS` is `!stats`. */
  lemma UpperCaseStats()
    ensures ParseCommand("!STATS") == Some(Invocation("stats", []))
    ensures Dispatch(ParseCommand("!STATS").value.name) == Some(Stats)
  {
    assert Word("STATS");
    ParseOneWord("STATS");
    assert ToLower("STATS") == "stats" by {
      assert ToLower("STATS")[0] == 's' && ToLower("STATS")[1] == 't' && ToLower("STATS")[2] == 'a';
      assert ToLower("STATS")[3] == 't' && ToLower("STATS")[4] == 's';
    }
  }

  /** `!` alone parses to the empty name. */
  lemma ParseBareBang()
    ensures ParseCommand("!") == Some(Invocation("", []))
  {
    var e: string := [];
    assert "!"[1..] == e;
    assert TrimStart(e) == e;
    assert TrimEnd(e) == e;
    assert ' ' !in e;
    assert SplitSpaces(e) == [e];
    assert ToLower(e) == e;
    assert [e][1..] == [];
  }

  /** A bare `!` names the empty command, which is not a command: the
      message goes to the tracker. */
  lemma BareBangIsTracked(mode: SaveMode, doc: Document, author: UserId, target: UserId, today: Day, now: Timestamp)
    ensures OnMessageCreate(mode, doc, false, "!", author, target, today, now)
            == (TrackMessage(mode, doc, Some(author), today, now), NoReply)
  {
    ParseBareBang();
    assert !HandleCommand(doc, "!", target, today).0;
  }

  /** With the as-written save, `!stats` for a day that has stats fails
      after any save and is answered with the error message; it still
      counts as handled, so the message is not tracked. */
  lemma StatsFailsAfterAliasedSave(doc: Document, target: UserId, today: Day)
    requires doc.dailyStats.Some? && Get(doc.dailyStats.value, today).Some?
    ensures HandleCommand(SaveData(AliasedSave, doc).memory, "!stats", target, today) == (true, ErrorReply)
  {
    ParseStats();
    SummaryAfterAliasedSave(doc, today);
    assert RunCommand(SaveData(AliasedSave, doc).memory, Stats, target, today).Threw?;
  }

  lemma ParseStats()
    ensures ParseCommand("!stats") == Some(Invocation("stats", []))
    ensures Dispatch("stats") == Some(Stats)
  {
    PlainWord("stats");
    ParseOneWord("stats");
  }

  /** A word of lower-case letters is a word and its own lower case. */
  lemma PlainWord(w: string)
    requires w != [] && forall k :: 0 <= k < |w| ==> 'a' <= w[k] <= 'z'
    ensures Word(w) && ToLower(w) == w
  {
  }
}

=== FILE: config.dfy ===
/** Start-up configuration: the environment check that stops the process on
    a bad setup, and the settings derived from the environment. */
module Config {
  import opened Wrappers
  import opened Text

  /** The process environment: variable name to value. */
  type Env = map<string, string>

  const TokenVar := "DISCORD_BOT_TOKEN"
  const GuildVar := "GUILD_ID"
  const ChannelVar := "REPORT_CHANNEL_ID"
  const TrackingVar := "TRACKING_ENABLED"
  const DailyVar := "DAILY_REPORTS_ENABLED"
  const WeeklyVar := "WEEKLY_REPORTS_ENABLED"

  /** The four things the start-up check can complain about. */
  datatype ConfigError = TokenRequired | GuildRequired | GuildFormat | ChannelFormat {
    /** The line printed for it. */
    function Message(): string {
      match this
      case TokenRequired => "DISCORD_BOT_TOKEN is required"
      case GuildRequired => "GUILD_ID is required"
      case GuildFormat => "GUILD_ID must be a valid Discord ID (numbers only)"
      case ChannelFormat => "REPORT_CHANNEL_ID must be a valid Discord ID (numbers only)"
    }

    /** Where it comes in the check. */
    function Rank(): nat {
      match this
      case TokenRequired => 0
      case GuildRequired => 1
      case GuildFormat => 2
      case ChannelFormat => 3
    }
  }

  /** `process.env[name]`. */
  function Lookup(env: Env, name: string): Option<string> {
    if name in env then Some(env[name]) else None
  }

  /** `process.env[name]` is truthy: set and not empty. */
  predicate IsSet(env: Env, name: string) {
    name in env && env[name] != ""
  }

  /** A set variable that is not a string of ASCII digits. */
  predicate BadId(env: Env, name: string) {
    IsSet(env, name) && !AllDigits(env[name])
  }

  /** Every error of `errors` comes strictly after the one before. */
  predicate InOrder(errors: seq<ConfigError>) {
    forall i, j :: 0 <= i < j < |errors| ==> errors[i].Rank() < errors[j].Rank()
  }

  /** Two lists in order, every rank of the first below every rank of the
      second, are in order together. */
  lemma InOrderConcat(x: seq<ConfigError>, y: seq<ConfigError>)
    requires InOrder(x) && InOrder(y)
    requires forall i, j :: 0 <= i < |x| && 0 <= j < |y| ==> x[i].Rank() < y[j].Rank()
    ensures InOrder(x + y)
  {
    forall i, j | 0 <= i < j < |x + y| ensures (x + y)[i].Rank() < (x + y)[j].Rank() {
      if j < |x| {
        assert (x + y)[i] == x[i] && (x + y)[j] == x[j];
      } else if i < |x| {
        assert (x + y)[i] == x[i] && (x + y)[j] == y[j - |x|];
      } else {
        assert (x + y)[i] == y[i - |x|] && (x + y)[j] == y[j - |x|];
      }
    }
  }

  /** `if (!ok) errors.push(x)`, as a list of what is pushed. */
  function Unless<T>(ok: bool, x: T): seq<T> {
    if ok then [] else [x]
  }

  /** The four optional pushes of the check, in their order. */
  function Pushes(token: bool, guild: bool, guildDigits: bool, channelDigits: bool): seq<ConfigError> {
    Unless(token, TokenRequired) + Unless(guild, GuildRequired)
    + Unless(guildDigits, GuildFormat) + Unless(channelDigits, ChannelFormat)
  }

  /** An error is pushed exactly when its test fails... */
  lemma PushedErrors(token: bool, guild: bool, guildDigits: bool, channelDigits: bool)
    ensures var e := Pushes(token, guild, guildDigits, channelDigits);
            && (TokenRequired in e <==> !token)
            && (GuildRequired in e <==> !guild)
            && (GuildFormat in e <==> !guildDigits)
            && (ChannelFormat in e <==> !channelDigits)
  {
  }

  /** ... and the pushes come in the check's order. */
  lemma PushedInOrder(token: bool, guild: bool, guildDigits: bool, channelDigits: bool)
    ensures InOrder(Pushes(token, guild, guildDigits, channelDigits))
  {
    var a := Unless(token, TokenRequired);
    var b := Unless(guild, GuildRequired);
    var c := Unless(guildDigits, GuildFormat);
    var d := Unless(channelDigits, ChannelFormat);
    InOrderConcat(a, b);
    var ab := a + b;
    assert forall i :: 0 <= i < |ab| ==> ab[i].Rank() <= 1;
    InOrderConcat(ab, c);
    var abc := ab + c;
    assert forall i :: 0 <= i < |abc| ==> abc[i].Rank() <= 2;
    InOrderConcat(abc, d);
  }

  /** `validateConfig()`'s error list: the token and the guild id are
      required, and a set guild id or report channel must be digits only. An
      unset guild id gets only the "required" message. */
  function ValidateConfig(env: Env): (errors: seq<ConfigError>)
    ensures TokenRequired in errors <==> !IsSet(env, TokenVar)
    ensures GuildRequired in errors <==> !IsSet(env, GuildVar)
    ensures GuildFormat in errors <==> BadId(env, GuildVar)
    ensures ChannelFormat in errors <==> BadId(env, ChannelVar)
    ensures !(GuildRequired in errors && GuildFormat in errors)
    ensures InOrder(errors)
  {
    var token := IsSet(env, TokenVar);
    var guild := IsSet(env, GuildVar);
    var guildDigits := !BadId(env, GuildVar);
    var channelDigits := !BadId(env, ChannelVar);
    PushedErrors(token, guild, guildDigits, channelDigits);
    PushedInOrder(token, guild, guildDigits, channelDigits);
    Pushes(token, guild, guildDigits, channelDigits)
  }

  /** The start-up check passes exactly when there is a token, the guild id
      is digits only, and the report channel is unset or digits only. */
  lemma AcceptedExactly(env: Env)
    ensures ValidateConfig(env) == [] <==>
      && IsSet(env, TokenVar)
      && IsSet(env, GuildVar) && AllDigits(env[GuildVar])
      && !BadId(env, ChannelVar)
  {
    var errors := ValidateConfig(env);
    if errors != [] {
      assert errors[0] in errors;
    }
  }

  /** An empty environment gets the two "required" messages, in that order. */
  lemma EmptyEnvironment()
    ensures ValidateConfig(map[]) == [TokenRequired, GuildRequired]
  {
  }

  /** The settings exported after the check. */
  datatype Settings = Settings(
    token: string,
    guildId: string,
    trackingEnabled: bool,
    dailyReportsEnabled: bool,
    weeklyReportsEnabled: bool,
    reportChannelId: Option<string>)

  /** Loading the configuration module: a failed check exits the process
      (`None`); otherwise the flags follow the exact strings `"false"` and
      `"true"`, and an unset or empty report channel is `null`. */
  function LoadConfig(env: Env): (r: Option<Settings>)
    ensures r.Some? <==> ValidateConfig(env) == []
    ensures r.Some? ==> r.value.token != [] && AllDigits(r.value.guildId)
    ensures r.Some? ==> r.value.token == env[TokenVar] && r.value.guildId == env[GuildVar]
    ensures r.Some? ==> r.value.reportChannelId == (if IsSet(env, ChannelVar) then Some(env[ChannelVar]) else None)
    ensures r.Some? ==> (!r.value.trackingEnabled <==> Lookup(env, TrackingVar) == Some("false"))
    ensures r.Some? ==> (r.value.dailyReportsEnabled <==> Lookup(env, DailyVar) == Some("true"))
    ensures r.Some? ==> (r.value.weeklyReportsEnabled <==> Lookup(env, WeeklyVar) == Some("true"))
    ensures r.Some? ==> (r.value.reportChannelId.None? <==> !IsSet(env, ChannelVar))
    ensures r.Some? && r.value.reportChannelId.Some? ==> AllDigits(r.value.reportChannelId.value)
  {
    AcceptedExactly(env);
    if ValidateConfig(env) != [] then None
    else
      Some(Settings(
        env[TokenVar],
        env[GuildVar],
        Lookup(env, TrackingVar) != Some("false"),
        Lookup(env, DailyVar) == Some("true"),
        Lookup(env, WeeklyVar) == Some("true"),
        if IsSet(env, ChannelVar) then Some(env[ChannelVar]) else None))
  }
}

=== FILE: counts.dfy ===
/** The sums and sets computed from the message log alone: per-day and
    per-week message totals and active-user sets, and the readings of the
    derived statistics they are compared with. */
module Counts {
  import opened Wrappers
  import opened Assoc
  import opened Dates
  import opened Document
  import opened Storage
  import opened Tracker

  function DayTerm(d: Day): (UserId, UserDays) -> int {
    (u: UserId, days: UserDays) => CountOn(days, d)
  }

  /** The number of messages all users sent on day `d`. */
  function DayTotal(log: MessageLog, d: Day): int {
    SumBy(log, DayTerm(d))
  }

  function PositiveOn(d: Day): UserDays -> bool {
    (days: UserDays) => CountOn(days, d) > 0
  }

  /** The users with a positive count on day `d`. */
  function ActiveOn(log: MessageLog, d: Day): set<UserId> {
    KeysWhere(log, PositiveOn(d))
  }

  function InWeek(w: Day): (Day, int) -> int {
    (d: Day, c: int) => if WeekKey(d) == w then c else 0
  }

  /** The number of messages one user sent in the week keyed `w`. */
  function WeekCount(days: UserDays, w: Day): int {
    SumBy(days, InWeek(w))
  }

  function WeekTerm(w: Day): (UserId, UserDays) -> int {
    (u: UserId, days: UserDays) => WeekCount(days, w)
  }

  /** The number of messages all users sent in the week keyed `w`. */
  function WeekTotal(log: MessageLog, w: Day): int {
    SumBy(log, WeekTerm(w))
  }

  function PositiveInWeek(w: Day): UserDays -> bool {
    (days: UserDays) => WeekCount(days, w) > 0
  }

  /** The users with a positive count in the week keyed `w`. */
  function WeekActive(log: MessageLog, w: Day): set<UserId> {
    KeysWhere(log, PositiveInWeek(w))
  }

  /** What the statistics maps record, absent entries read as empty */

  function StatTotal(daily: DailyMap, d: Day): int {
    Get(daily, d).GetOr(NewDailyStat).totalMessages
  }

  function StatUsers(daily: DailyMap, d: Day): set<UserId> {
    Get(daily, d).GetOr(NewDailyStat).activeUsers.Users()
  }

  predicate StatIsSet(daily: DailyMap, d: Day) {
    var c := Get(daily, d).GetOr(NewDailyStat).activeUsers;
    c.JsSet? && NoDuplicates(c.Elements())
  }

  function WeeklyEntry(weekly: WeeklyMap, w: Day): WeeklyStat {
    Get(weekly, w).GetOr(NewWeeklyStat)
  }

  predicate WeeklyIsSet(weekly: WeeklyMap, w: Day) {
    var c := WeeklyEntry(weekly, w).activeUsers;
    c.JsSet? && NoDuplicates(c.Elements())
  }

  /** Every count in a user's map is at least zero. */
  predicate NonNegative(days: UserDays) {
    forall i :: 0 <= i < |days| ==> days[i].1 >= 0
  }
}

=== FILE: dates.dfy ===
/** Calendar days. A date is the number of days since 1970-01-01 (a
    Thursday), which is what the source's `YYYY-MM-DD` strings denote; for
    years 0000 to 9999 the string order of those keys is the numeric order
    of the day numbers, so the source's `date < cutoffStr` and `.sort()` are
    `<` on days here. The bot is specified for a process whose local time
    zone is UTC. */
module Dates {
  import opened Text

  /** Days since 1970-01-01 (UTC). */
  type Day = int

  /** `getDay()`: 0 is Sunday, 6 is Saturday. */
  function Weekday(d: Day): (w: nat)
    ensures w < 7
  {
    (d + 4) % 7
  }

  /** `getWeekKey` in a UTC process: the Sunday that starts the week of `d`. */
  function WeekKey(d: Day): (k: Day)
    ensures Weekday(k) == 0
    ensures k <= d < k + 7
  {
    d - Weekday(d)
  }

  /** `getWeekKey` when the process runs at a negative UTC offset: the
      `YYYY-MM-DD` string parses as UTC midnight, which is still the
      previous local day, so `getDay`/`setDate` act on day `d - 1` and
      `toISOString` adds the day back. */
  function WeekKeyBehindUtc(d: Day): (k: Day)
    ensures k <= d < k + 7
  {
    (d - 1) - Weekday(d - 1) + 1
  }

  /** The proleptic Gregorian (year, month, day) of a day number, by the
      usual era/day-of-era decomposition (years start on 1 March inside an
      era, so the leap day is the last day of a year). */
  function CivilFromDays(d: Day): (c: (int, int, int))
    ensures 1 <= c.1 <= 12 && 1 <= c.2 <= 31
    ensures DaysFromCivil(c.0, c.1, c.2) == d
  {
    var z := d + 719468;
    var era := z / 146097;
    var doe := z % 146097;
    EraDayBounds(doe);
    var yoe := YearOfEra(doe);
    var (m, dd) := MonthAndDay(DayOfYear(doe, yoe));
    var y := yoe + era * 400 + (if m <= 2 then 1 else 0);
    EraOfYear(era, yoe);
    (y, m, dd)
  }

  /** Month and day of the `doy`-th day of a year that starts on 1 March. */
  function MonthAndDay(doy: int): (md: (int, int))
    requires 0 <= doy <= 365
    ensures 1 <= md.0 <= 12 && 1 <= md.1 <= 31
    ensures (153 * MarchMonth(md.0) + 2) / 5 + md.1 - 1 == doy
  {
    var mp := (5 * doy + 2) / 153;
    var dd := doy - (153 * mp + 2) / 5 + 1;
    (if mp < 10 then mp + 3 else mp - 9, dd)
  }

  /** Months counted from March: March is 0, February is 11. */
  function MarchMonth(m: int): int {
    if m > 2 then m - 3 else m + 9
  }

  /** The year inside a 400-year era (0 to 399) of its `doe`-th day. */
  function YearOfEra(doe: int): int {
    (doe - doe / 1460 + doe / 36524 - doe / 146096) / 365
  }

  /** The day inside its March-based year of the era's `doe`-th day. */
  function DayOfYear(doe: int, yoe: int): int {
    doe - (365 * yoe + yoe / 4 - yoe / 100)
  }

  /** The day number of a (year, month, day): the inverse of
      `CivilFromDays`. */
  function DaysFromCivil(y: int, m: int, dd: int): Day {
    var y' := if m <= 2 then y - 1 else y;
    var era := y' / 400;
    var yoe := y' - era * 400;
    var doy := (153 * MarchMonth(m) + 2) / 5 + dd - 1;
    era * 146097 + 365 * yoe + yoe / 4 - yoe / 100 + doy - 719468
  }

  /** The four-digit year, or `toISOString`'s signed six-digit form outside
      0000 to 9999. */
  function YearString(y: int): (s: string)
    ensures 0 <= y <= 9999 ==> |s| == 4 && AllDigits(s) && DigitsValue(s) == y
  {
    if 0 <= y <= 9999 then
      NatToStringWidth(y, 4);
      PaddedValue(NatToString(y), 4);
      NatToStringRoundTrip(y);
      PadStart(NatToString(y), 4)
    else if y < 0 then "-" + PadStart(NatToString(-y), 6)
    else "+" + PadStart(NatToString(y), 6)
  }

  /** `toISOString().split('T')[0]` of the day's midnight. For a year from
      0000 to 9999 it is `YYYY-MM-DD`, and the three digit groups read back
      as the civil year, month and day of `d`. */
  function DateString(d: Day): (s: string)
    ensures 0 <= CivilFromDays(d).0 <= 9999 ==>
      && |s| == 10 && s[4] == '-' && s[7] == '-'
      && AllDigits(s[..4]) && DigitsValue(s[..4]) == CivilFromDays(d).0
      && AllDigits(s[5..7]) && DigitsValue(s[5..7]) == CivilFromDays(d).1
      && AllDigits(s[8..]) && DigitsValue(s[8..]) == CivilFromDays(d).2
  {
    var c := CivilFromDays(d);
    TwoDigitField(c.1);
    TwoDigitField(c.2);
    DateFields(YearString(c.0), PadStart(IntToString(c.1), 2), PadStart(IntToString(c.2), 2));
    YearString(c.0) + "-" + PadStart(IntToString(c.1), 2) + "-" + PadStart(IntToString(c.2), 2)
  }


  /** Lemmas */

  /** The week key is the only Sunday at most six days before `d`. */
  lemma WeekKeyUnique(d: Day, s: Day)
    requires Weekday(s) == 0 && s <= d < s + 7
    ensures s == WeekKey(d)
  {
  }

  /** A week key keys its own week. */
  lemma WeekKeyIdempotent(d: Day)
    ensures WeekKey(WeekKey(d)) == WeekKey(d)
  {
  }

  /** Two days share a week key exactly when both lie in the seven days that
      start at that key. */
  lemma SameWeek(a: Day, b: Day)
    ensures WeekKey(a) == WeekKey(b) <==> WeekKey(a) <= b < WeekKey(a) + 7
  {
    if WeekKey(a) <= b < WeekKey(a) + 7 {
      WeekKeyUnique(b, WeekKey(a));
    }
  }

  /** Behind UTC every week key is a Monday. */
  lemma WeekKeyBehindUtcIsMonday(d: Day)
    ensures Weekday(WeekKeyBehindUtc(d)) == 1
  {
  }

  /** Every day of a 400-year era lies in one of its years 0 to 399, at a
      day of that year from 0 to 365. */
  lemma EraDayBounds(doe: int)
    requires 0 <= doe < 146097
    ensures 0 <= YearOfEra(doe) <= 399 && 0 <= DayOfYear(doe, YearOfEra(doe)) <= 365
  {
    var c := if doe / 36524 < 3 then doe / 36524 else 3;
    var rem := doe - 36524 * c;
    var q := rem / 1461;
    var rem2 := rem - 1461 * q;
    var y := if rem2 / 365 < 3 then rem2 / 365 else 3;
    EraDecomposed(c, q, y, rem2 - 365 * y);
  }

  /** The era of a year is recovered from its year of era. */
  lemma EraOfYear(era: int, yoe: int)
    requires 0 <= yoe <= 399
    ensures (yoe + era * 400) / 400 == era
  {
  }

  /** Day `d` of year `y` of four-year cycle `q` of century `c`: only the
      last year of a cycle has a 366th day, and the last cycle of a century
      has it only in the era's last century. */
  lemma EraDecomposed(c: int, q: int, y: int, d: int)
    requires 0 <= c <= 3 && 0 <= q <= 24 && 0 <= y <= 3 && 0 <= d <= 365
    requires d == 365 ==> y == 3 && (q < 24 || c == 3)
    ensures var doe := 36524 * c + 1461 * q + 365 * y + d;
            YearOfEra(doe) == 100 * c + 4 * q + y && DayOfYear(doe, 100 * c + 4 * q + y) == d
  {
    var doe := 36524 * c + 1461 * q + 365 * y + d;
    assert doe / 146096 == (if doe == 146096 then 1 else 0);
    assert doe / 36524 == (if doe == 146096 then 4 else c);
    assert doe / 1460 == 25 * c + q + (24 * c + q + 365 * y + d) / 1460;
    assert (100 * c + 4 * q + y) / 4 == 25 * c + q;
    assert (100 * c + 4 * q + y) / 100 == c;
  }

  /** A month or day number, padded to two places, reads back as itself. */
  lemma TwoDigitField(n: int)
    requires 1 <= n <= 31
    ensures var s := PadStart(IntToString(n), 2);
            |s| == 2 && AllDigits(s) && DigitsValue(s) == n
  {
    NatToStringWidth(n, 2);
    PaddedValue(NatToString(n), 2);
    NatToStringRoundTrip(n);
  }

  /** Where the three fields of a `YYYY-MM-DD` string sit. */
  lemma DateFields(y: string, m: string, d: string)
    requires |m| == 2 && |d| == 2
    ensures var s := y + "-" + m + "-" + d;
            |y| == 4 ==> |s| == 10 && s[4] == '-' && s[7] == '-' && s[..4] == y && s[5..7] == m && s[8..] == d
  {
  }

  /** Two days whose dates read the same are the same day. */
  lemma CivilInjective(a: Day, b: Day)
    requires CivilFromDays(a) == CivilFromDays(b)
    ensures a == b
  {
  }

  /** Between years 0000 and 9999 two days with the same date string are
      the same day, so date strings are faithful keys. */
  lemma DateStringInjective(a: Day, b: Day)
    requires 0 <= CivilFromDays(a).0 <= 9999 && 0 <= CivilFromDays(b).0 <= 9999
    requires DateString(a) == DateString(b)
    ensures a == b
  {
    CivilInjective(a, b);
  }

  /** Day 19732 is 2024-01-10. */
  lemma CivilExample10()
    ensures CivilFromDays(19732) == (2024, 1, 10)
  {
    assert 739200 / 146097 == 5 && 739200 % 146097 == 8715;
    assert 8715 / 1460 == 5 && 8715 / 36524 == 0 && 8715 / 146096 == 0;
    assert 8710 / 365 == 23 && 23 / 4 == 5 && 23 / 100 == 0;
    assert 1577 / 153 == 10 && 1532 / 5 == 306;
  }

  /** Day 19729 is 2024-01-07. */
  lemma CivilExample07()
    ensures CivilFromDays(19729) == (2024, 1, 7)
  {
    assert 739197 / 146097 == 5 && 739197 % 146097 == 8712;
    assert 8712 / 1460 == 5 && 8712 / 36524 == 0 && 8712 / 146096 == 0;
    assert 8707 / 365 == 23 && 23 / 4 == 5 && 23 / 100 == 0;
    assert 1562 / 153 == 10 && 1532 / 5 == 306;
  }

  /** 2024-01-10 (day 19732), a Wednesday, keys to Sunday 2024-01-07 in UTC
      and to Monday 2024-01-08 behind UTC; 2024-01-07 and 2024-01-13 share a
      week key. */
  lemma WeekKeyExample()
    ensures Weekday(19732) == 3
    ensures WeekKey(19732) == 19729
    ensures WeekKeyBehindUtc(19732) == 19730
    ensures WeekKey(19729) == WeekKey(19735) == 19729
  {
  }

  /** A date is written on one line. */
  lemma DateStringOneLine(d: Day)
    ensures '\n' !in DateString(d)
  {
    var (y, m, dd) := CivilFromDays(d);
    var n := if y < 0 then -y else y;
    assert forall k :: 0 <= k < |NatToString(n)| ==> NatToString(n)[k] != '\n';
    PadStartOneLine(NatToString(n), 4);
    PadStartOneLine(NatToString(n), 6);
    IntToStringOneLine(m);
    IntToStringOneLine(dd);
    PadStartOneLine(IntToString(m), 2);
    PadStartOneLine(IntToString(dd), 2);
  }
}

=== FILE: document.dfy ===
/** The in-memory activity document: four insertion-ordered maps plus the
    time of the last update. Each top-level map is optional because the
    document is whatever the data file parsed to; reading a missing map
    throws a TypeError. */
module Document {
  import opened Wrappers
  import opened Assoc
  import opened Dates

  type UserId = string

  /** An ISO-8601 timestamp; the model never looks inside one. */
  type Timestamp = string

  /** No element occurs twice. */
  predicate NoDuplicates(s: seq<UserId>) {
    forall i, j :: 0 <= i < j < |s| ==> s[i] != s[j]
  }

  /** An `activeUsers` field: a `Set` (insertion-ordered, no duplicates) as
      the tracker creates it, or an `Array` once a save has rewritten it. */
  datatype UserCollection = JsSet(members: seq<UserId>) | JsArray(items: seq<UserId>) {

    /** The elements in order, whatever the container. */
    function Elements(): seq<UserId> {
      match this
      case JsSet(ms) => ms
      case JsArray(xs) => xs
    }

    /** The users it holds. */
    function Users(): set<UserId> {
      set u | u in Elements()
    }
  }

  /** `set.add(u)`; an `Array` has no `add`, so the call throws. */
  function AddUser(c: UserCollection, u: UserId): (r: Js<UserCollection>)
    ensures r.Returned? <==> c.JsSet?
    ensures r.Returned? ==> r.value.JsSet? && r.value.Users() == c.Users() + {u}
    ensures r.Returned? && NoDuplicates(c.Elements()) ==> NoDuplicates(r.value.Elements())
  {
    match c
    case JsArray(_) => Threw
    case JsSet(ms) => Returned(if u in ms then c else JsSet(ms + [u]))
  }

  /** `set.size.toString()`; an `Array` has no `size`, and calling
      `toString` on `undefined` throws. */
  function SizeText(c: UserCollection): (r: Js<nat>)
    ensures r.Returned? <==> c.JsSet?
    ensures r.Returned? && NoDuplicates(c.Elements()) ==> r.value == |c.Users()|
  {
    match c
    case JsArray(_) => Threw
    case JsSet(ms) =>
      DistinctSize(ms);
      Returned(|ms|)
  }

  lemma {:induction false} DistinctSize(s: seq<UserId>)
    ensures NoDuplicates(s) ==> |set x | x in s| == |s|
  {
    if s != [] && NoDuplicates(s) {
      var t := s[..|s| - 1];
      DistinctSize(t);
      assert (set x | x in s) == (set x | x in t) + {s[|s| - 1]};
    }
  }

  datatype DailyStat = DailyStat(totalMessages: int, activeUsers: UserCollection)

  datatype WeeklyStat = WeeklyStat(
    totalMessages: int,
    activeUsers: UserCollection,
    userMessages: Assoc<UserId, int>)

  datatype MemberEvent = MemberEvent(userId: string, username: string, timestamp: Timestamp)

  datatype DayEvents = DayEvents(joins: seq<MemberEvent>, leaves: seq<MemberEvent>)

  /** One user's message count per day. */
  type UserDays = Assoc<Day, int>

  type MessageLog = Assoc<UserId, UserDays>
  type DailyMap = Assoc<Day, DailyStat>
  type WeeklyMap = Assoc<Day, WeeklyStat>
  type EventMap = Assoc<Day, DayEvents>

  datatype Document = Document(
    messages: Option<MessageLog>,
    dailyStats: Option<DailyMap>,
    memberEvents: Option<EventMap>,
    weeklyStats: Option<WeeklyMap>,
    lastUpdate: Timestamp)

  /** The document `loadData` starts from when there is no usable file. */
  function EmptyDocument(now: Timestamp): Document {
    Document(Some([]), Some([]), Some([]), Some([]), now)
  }

  /** The entries the tracker creates for a day or week it has not seen. */
  const NewDailyStat := DailyStat(0, JsSet([]))
  const NewWeeklyStat := WeeklyStat(0, JsSet([]), [])
  const NewDayEvents := DayEvents([], [])

  /** `userMessages[day] || 0`: a user's count for a day, absent read as 0. */
  function CountOn(days: UserDays, d: Day): int {
    Get(days, d).GetOr(0)
  }

  /** `data.messages[userId] || {}`. */
  function DaysOf(log: MessageLog, u: UserId): UserDays {
    Get(log, u).GetOr([])
  }

  function CountOf(d: Day, c: int): int {
    c
  }

  /** `Object.values(userMessages).reduce((sum, count) => sum + count, 0)`:
      all of one user's messages. */
  function UserTotal(days: UserDays): int {
    SumBy(days, CountOf)
  }

  function UserTerm(u: UserId, days: UserDays): int {
    UserTotal(days)
  }

  /** All messages of all users. */
  function LogTotal(log: MessageLog): int {
    SumBy(log, UserTerm)
  }
}

=== FILE: history.dfy ===
/** The bot's event stream replayed through the tracker: messages that are
    not commands, members joining and members leaving, each handled to its
    end or to the statement that threw. With the copying save the counting
    invariant holds after any stream; with the source's aliased save a
    second message on the same day is lost to the weekly statistics and to
    the data file. */
module History {
  import opened Wrappers
  import opened Assoc
  import opened Dates
  import opened Document
  import opened Storage
  import opened Tracker
  import opened Counts
  import opened Invariants
  import opened Maintenance

  /** One event reaching the tracker, with the day and the time stamp the
      clock gives when it is handled. `userId` is `None` for an id that is
      not a string. */
  datatype Event =
    | Message(userId: Option<string>, day: Day, at: Timestamp)
    | Join(member: UserId, username: string, day: Day, at: Timestamp)
    | Leave(member: UserId, username: string, day: Day, at: Timestamp)

  /** The in-memory document after one event. A join or leave that throws
      (no `memberEvents` map) throws before it changes anything. */
  function Handle(mode: SaveMode, doc: Document, ev: Event): (r: Document)
    ensures ev.Message? ==> r == TrackMessage(mode, doc, ev.userId, ev.day, ev.at).memory
    ensures !ev.Message? && doc.memberEvents.None? ==> r == doc
    ensures !ev.Message? && mode.CopyingSave? ==>
              r.messages == doc.messages && r.dailyStats == doc.dailyStats && r.weeklyStats == doc.weeklyStats
  {
    match ev
    case Message(id, d, at) => TrackMessage(mode, doc, id, d, at).memory
    case Join(id, name, d, at) =>
      (match TrackMemberJoin(mode, doc, id, name, d, at)
       case Threw => doc
       case Returned(e) => e.memory)
    case Leave(id, name, d, at) =>
      (match TrackMemberLeave(mode, doc, id, name, d, at)
       case Threw => doc
       case Returned(e) => e.memory)
  }

  /** The in-memory document after a stream of events, oldest first. */
  function Replay(mode: SaveMode, doc: Document, evs: seq<Event>): Document {
    if evs == [] then doc else Handle(mode, Replay(mode, doc, evs[..|evs| - 1]), evs[|evs| - 1])
  }

  /** A message event the tracker counts: one with a non-empty string id. */
  predicate Counted(ev: Event) {
    ev.Message? && ev.userId.Some? && ev.userId.value != ""
  }

  /** The counted messages of day `d` in a stream. */
  function MessagesOn(evs: seq<Event>, d: Day): nat {
    if evs == [] then 0
    else
      var ev := evs[|evs| - 1];
      MessagesOn(evs[..|evs| - 1], d) + (if Counted(ev) && ev.day == d then 1 else 0)
  }

  /** The senders of counted messages of day `d` in a stream. */
  function SendersOn(evs: seq<Event>, d: Day): set<UserId> {
    if evs == [] then {}
    else
      var ev := evs[|evs| - 1];
      SendersOn(evs[..|evs| - 1], d) + (if Counted(ev) && ev.day == d then {ev.userId.value} else {})
  }

  /** The empty document satisfies the invariant. */
  lemma EmptyIsConsistent(now: Timestamp)
    ensures Consistent(EmptyDocument(now))
  {
    var doc := EmptyDocument(now);
    assert LogIsSound(doc.messages.value);
    assert DailyAgrees(doc.messages.value, doc.dailyStats.value);
    assert WeeklyAgrees(doc.messages.value, doc.weeklyStats.value);
  }

  /** One event with the copying save keeps the invariant. */
  lemma HandleKeepsConsistent(doc: Document, ev: Event)
    requires Consistent(doc)
    ensures Consistent(Handle(CopyingSave, doc, ev))
  {
    if Counted(ev) {
      TrackKeepsConsistent(doc, ev.userId.value, ev.day, ev.at);
    }
  }

  /** Any stream of events with the copying save keeps the invariant. */
  lemma {:induction false} ReplayKeepsConsistent(doc: Document, evs: seq<Event>)
    requires Consistent(doc)
    ensures Consistent(Replay(CopyingSave, doc, evs))
  {
    if evs != [] {
      ReplayKeepsConsistent(doc, evs[..|evs| - 1]);
      HandleKeepsConsistent(Replay(CopyingSave, doc, evs[..|evs| - 1]), evs[|evs| - 1]);
    }
  }

  /** Starting from the empty document with the copying save, each day's
      statistics count exactly the day's counted messages and name exactly
      their senders. */
  lemma {:induction false} DailyStatsCountMessages(now: Timestamp, evs: seq<Event>, d: Day)
    ensures var m := Replay(CopyingSave, EmptyDocument(now), evs);
            && m.messages.Some? && m.dailyStats.Some?
            && DayTotal(m.messages.value, d) == MessagesOn(evs, d)
            && ActiveOn(m.messages.value, d) == SendersOn(evs, d)
            && StatTotal(m.dailyStats.value, d) == MessagesOn(evs, d)
            && StatUsers(m.dailyStats.value, d) == SendersOn(evs, d)
  {
    EmptyIsConsistent(now);
    ReplayKeepsConsistent(EmptyDocument(now), evs);
    if evs == [] {
      assert DayTotal([], d) == 0;
    } else {
      DailyStatsCountMessages(now, evs[..|evs| - 1], d);
      ReplayKeepsConsistent(EmptyDocument(now), evs[..|evs| - 1]);
      HandleCounts(Replay(CopyingSave, EmptyDocument(now), evs[..|evs| - 1]), evs[|evs| - 1], d);
    }
    StatsOfConsistent(Replay(CopyingSave, EmptyDocument(now), evs), d);
  }

  /** One event adds its message, if counted and of day `d`, to the day's
      total and its sender to the day's users. */
  lemma HandleCounts(p: Document, ev: Event, d: Day)
    requires Consistent(p)
    ensures Handle(CopyingSave, p, ev).messages.Some?
    ensures DayTotal(Handle(CopyingSave, p, ev).messages.value, d)
            == DayTotal(p.messages.value, d) + (if Counted(ev) && ev.day == d then 1 else 0)
    ensures ActiveOn(Handle(CopyingSave, p, ev).messages.value, d)
            == ActiveOn(p.messages.value, d) + (if Counted(ev) && ev.day == d then {ev.userId.value} else {})
  {
    if Counted(ev) {
      TrackedLog(CopyingSave, p, ev.userId.value, ev.day, ev.at);
      BumpCounts(p.messages.value, ev.userId.value, ev.day, d);
    } else {
      assert Handle(CopyingSave, p, ev).messages == p.messages;
    }
  }

  lemma BumpCounts(log: MessageLog, u: UserId, t: Day, d: Day)
    requires LogIsSound(log)
    ensures DayTotal(BumpMessages(log, u, t), d) == DayTotal(log, d) + (if t == d then 1 else 0)
    ensures ActiveOn(BumpMessages(log, u, t), d) == ActiveOn(log, d) + (if t == d then {u} else {})
  {
    assert NonNegative(DaysOf(log, u));
    DayTotalAfterBump(log, u, t, d);
    ActiveAfterBump(log, u, t, d);
  }

  /** In a consistent document the day's statistics read as the log's. */
  lemma StatsOfConsistent(m: Document, d: Day)
    requires Consistent(m)
    ensures StatTotal(m.dailyStats.value, d) == DayTotal(m.messages.value, d)
    ensures StatUsers(m.dailyStats.value, d) == ActiveOn(m.messages.value, d)
  {
  }

  /** The source's aliased save */

  /** `saveData` keeps every entry's total and users; only the collection
      kind changes. */
  lemma SerializedKeepsContents(doc: Document, d: Day, w: Day)
    requires doc.dailyStats.Some? && doc.weeklyStats.Some?
    ensures var s := Serialized(doc);
            && Get(s.dailyStats.value, d).Some? == Get(doc.dailyStats.value, d).Some?
            && (Get(doc.dailyStats.value, d).Some? ==> Get(s.dailyStats.value, d).value.activeUsers.JsArray?)
            && StatTotal(s.dailyStats.value, d) == StatTotal(doc.dailyStats.value, d)
            && StatUsers(s.dailyStats.value, d) == StatUsers(doc.dailyStats.value, d)
            && WeeklyEntry(s.weeklyStats.value, w).totalMessages == WeeklyEntry(doc.weeklyStats.value, w).totalMessages
  {
  }

  /** With the aliased save, after one recorded message a second message on
      the same day reaches the daily total and the log but not the day's
      users or the weekly statistics, and is never written: the save that
      would have written it is skipped because `activeUsers.add` throws on
      the Array the first save left in memory. */
  lemma AliasedSecondMessage(doc: Document, u: UserId, v: UserId, t: Day, now: Timestamp, later: Timestamp)
    requires Consistent(doc) && u != "" && v != ""
    ensures var e1 := TrackMessage(AliasedSave, doc, Some(u), t, now);
            var e2 := TrackMessage(AliasedSave, e1.memory, Some(v), t, later);
            var log1 := e1.memory.messages.value;
            var m := e2.memory;
            && e1.written.Some? && e2.written.None?
            && log1 == BumpMessages(doc.messages.value, u, t)
            && m.messages == Some(BumpMessages(log1, v, t))
            && StatTotal(m.dailyStats.value, t) == DayTotal(m.messages.value, t)
            && StatUsers(m.dailyStats.value, t) == ActiveOn(log1, t)
            && ActiveOn(m.messages.value, t) == ActiveOn(log1, t) + {v}
            && WeeklyEntry(m.weeklyStats.value, WeekKey(t)).totalMessages + 1 == WeekTotal(m.messages.value, WeekKey(t))
            && !Consistent(m)
  {
    FirstAliasedMessage(doc, u, t, now);
    SecondOnArrays(TrackMessage(CopyingSave, doc, Some(u), t, now).memory, v, t, later);
  }

  /** The first message is recorded in full and saved; the aliased save
      leaves the serialized copy of the consistent document in memory. */
  lemma FirstAliasedMessage(doc: Document, u: UserId, t: Day, now: Timestamp)
    requires Consistent(doc) && u != ""
    ensures Consistent(TrackMessage(CopyingSave, doc, Some(u), t, now).memory)
    ensures Get(TrackMessage(CopyingSave, doc, Some(u), t, now).memory.dailyStats.value, t).Some?
    ensures TrackMessage(CopyingSave, doc, Some(u), t, now).memory.messages == Some(BumpMessages(doc.messages.value, u, t))
    ensures TrackMessage(AliasedSave, doc, Some(u), t, now)
            == SaveData(AliasedSave, TrackMessage(CopyingSave, doc, Some(u), t, now).memory)
  {
    TrackKeepsConsistent(doc, u, t, now);
    assert RecordMessage(doc, u, t, now).Completed?;
  }

  /** A message recorded on the serialized copy of a consistent document
      whose day has stats throws at `activeUsers.add`: the count and the
      total grow, the users and the week do not, and nothing is saved. */
  lemma SecondOnArrays(c: Document, v: UserId, t: Day, later: Timestamp)
    requires Consistent(c) && v != "" && Get(c.dailyStats.value, t).Some?
    ensures var m := TrackMessage(AliasedSave, Serialized(c), Some(v), t, later);
            && m.written.None?
            && m.memory.messages == Some(BumpMessages(c.messages.value, v, t))
            && StatTotal(m.memory.dailyStats.value, t) == DayTotal(m.memory.messages.value, t)
            && StatUsers(m.memory.dailyStats.value, t) == ActiveOn(c.messages.value, t)
            && ActiveOn(m.memory.messages.value, t) == ActiveOn(c.messages.value, t) + {v}
            && WeeklyEntry(m.memory.weeklyStats.value, WeekKey(t)).totalMessages + 1
               == WeekTotal(m.memory.messages.value, WeekKey(t))
            && !Consistent(m.memory)
  {
    SerializedKeepsContents(c, t, WeekKey(t));
    assert Get(Serialized(c).dailyStats.value, t).value.activeUsers.JsArray?;
    assert RecordMessage(Serialized(c), v, t, later).Interrupted?;
    assert StatIsSet(c.dailyStats.value, t) && StatTotal(c.dailyStats.value, t) == DayTotal(c.messages.value, t);
    assert WeeklyEntry(c.weeklyStats.value, WeekKey(t)).totalMessages == WeekTotal(c.messages.value, WeekKey(t));
    assert NonNegative(DaysOf(c.messages.value, v));
    DayTotalAfterBump(c.messages.value, v, t, t);
    ActiveAfterBump(c.messages.value, v, t, t);
    WeekTotalAfterBump(c.messages.value, v, t, WeekKey(t));
  }

  /** The smallest instance: from an empty file, users "a" then "b" post on
      the same day. The day counts two messages but names only "a", and the
      week counts one message while the log holds two. */
  lemma AliasedTwoUsers(now: Timestamp, later: Timestamp, t: Day)
    ensures var e1 := TrackMessage(AliasedSave, EmptyDocument(now), Some("a"), t, now);
            var e2 := TrackMessage(AliasedSave, e1.memory, Some("b"), t, later);
            var m := e2.memory;
            && e2.written.None?
            && StatTotal(m.dailyStats.value, t) == 2
            && StatUsers(m.dailyStats.value, t) == {"a"}
            && ActiveOn(m.messages.value, t) == {"a", "b"}
            && WeeklyEntry(m.weeklyStats.value, WeekKey(t)).totalMessages == 1
            && WeekTotal(m.messages.value, WeekKey(t)) == 2
  {
    EmptyIsConsistent(now);
    AliasedSecondMessage(EmptyDocument(now), "a", "b", t, now, later);
    TwoUsersLog(t);
  }

  /** The log after one message from "a" and one from "b" on day `t`. */
  lemma TwoUsersLog(t: Day)
    ensures ActiveOn(BumpMessages([], "a", t), t) == {"a"}
    ensures DayTotal(BumpMessages(BumpMessages([], "a", t), "b", t), t) == 2
    ensures WeekTotal(BumpMessages(BumpMessages([], "a", t), "b", t), WeekKey(t)) == 2
  {
    DayTotalAfterBump([], "a", t, t);
    ActiveAfterBump([], "a", t, t);
    WeekTotalAfterBump([], "a", t, WeekKey(t));
    assert LogIsSound(BumpMessages([], "a", t));
    DayTotalAfterBump(BumpMessages([], "a", t), "b", t, t);
    WeekTotalAfterBump(BumpMessages([], "a", t), "b", t, WeekKey(t));
  }

  /** Cleanup never touches the weekly stats, so they keep counting pruned
      messages: one message from "a" on day `t`, then a cleanup on day
      `t + 1` keeping no days, leaves an empty log under a week that still
      counts one message, and the document is no longer consistent. */
  lemma CleanupLeavesWeeklyStale(now: Timestamp, t: Day)
    ensures var e1 := TrackMessage(CopyingSave, EmptyDocument(now), Some("a"), t, now);
            var c := CleanupOldData(CopyingSave, e1.memory, t + 1, 0);
            var m := c.effect.memory;
            && c.cleaned.Returned?
            && m.messages == Some([])
            && WeeklyEntry(m.weeklyStats.value, WeekKey(t)).totalMessages == 1
            && WeekTotal(m.messages.value, WeekKey(t)) == 0
            && !Consistent(m)
  {
    EmptyIsConsistent(now);
    TrackKeepsConsistent(EmptyDocument(now), "a", t, now);
    OneMessageWeek(TrackMessage(CopyingSave, EmptyDocument(now), Some("a"), t, now).memory, t);
    StaleAfterCleanup(TrackMessage(CopyingSave, EmptyDocument(now), Some("a"), t, now).memory, t);
  }

  /** A consistent document holding one message from "a" counts it in the
      week. */
  lemma OneMessageWeek(d1: Document, t: Day)
    requires Consistent(d1) && d1.messages == Some(BumpMessages([], "a", t))
    ensures d1.messages == Some([("a", [(t, 1)])])
    ensures WeeklyEntry(d1.weeklyStats.value, WeekKey(t)).totalMessages == 1
  {
    WeekTotalAfterBump([], "a", t, WeekKey(t));
  }

  /** Pruning every day of that document empties the log and leaves the
      week as it was. */
  lemma StaleAfterCleanup(d1: Document, t: Day)
    requires Consistent(d1) && d1.memberEvents.Some? && d1.messages == Some([("a", [(t, 1)])])
    requires WeeklyEntry(d1.weeklyStats.value, WeekKey(t)).totalMessages == 1
    ensures var c := CleanupOldData(CopyingSave, d1, t + 1, 0);
            && c.cleaned.Returned?
            && c.effect.memory.messages == Some([])
            && WeeklyEntry(c.effect.memory.weeklyStats.value, WeekKey(t)).totalMessages == 1
            && WeekTotal(c.effect.memory.messages.value, WeekKey(t)) == 0
            && !Consistent(c.effect.memory)
  {
    assert PruneLog([("a", [(t, 1)])], t + 1) == [];
    CleanupResult(CopyingSave, d1, t + 1, 0);
    CleanedMaps(CopyingSave, d1, t + 1);
    assert WeekTotal([], WeekKey(t)) == 0;
  }
}

=== FILE: invariants.dfy ===
/** The counting invariant that ties the derived statistics to the message
    log: for every day, `dailyStats[day].totalMessages` is the sum of that
    day's user counts and `activeUsers` holds exactly the users with a
    positive count; for every week, the weekly entry agrees in the same way
    with the counts of the seven days that share its key. Message tracking
    with the copying save keeps the invariant for any sequence of events;
    the source's aliased save breaks it from the second message of a day. */
module Invariants {
  import opened Wrappers
  import opened Assoc
  import opened Dates
  import opened Document
  import opened Storage
  import opened Tracker
  import opened Counts

  /** The invariant */

  /** The log has one entry per user and no negative counts. */
  ghost predicate LogIsSound(log: MessageLog) {
    Distinct(log) && forall u :: NonNegative(DaysOf(log, u))
  }

  /** Every day's entry is a Set and agrees with the log. */
  ghost predicate DailyAgrees(log: MessageLog, daily: DailyMap) {
    forall d :: StatIsSet(daily, d) && StatTotal(daily, d) == DayTotal(log, d) && StatUsers(daily, d) == ActiveOn(log, d)
  }

  /** Every week's entry is a Set and agrees with the log, down to each
      user's weekly count. */
  ghost predicate WeeklyAgrees(log: MessageLog, weekly: WeeklyMap) {
    forall w ::
      && WeeklyIsSet(weekly, w)
      && WeeklyEntry(weekly, w).totalMessages == WeekTotal(log, w)
      && WeeklyEntry(weekly, w).activeUsers.Users() == WeekActive(log, w)
      && (forall u :: WeekCountOf(WeeklyEntry(weekly, w).userMessages, u) == WeekCount(DaysOf(log, u), w))
  }

  ghost predicate Consistent(doc: Document) {
    && doc.messages.Some? && doc.dailyStats.Some? && doc.weeklyStats.Some?
    && LogIsSound(doc.messages.value)
    && DailyAgrees(doc.messages.value, doc.dailyStats.value)
    && WeeklyAgrees(doc.messages.value, doc.weeklyStats.value)
  }

  /** Lemmas about one increment of the log */

  lemma CountOnNonNegative(days: UserDays, d: Day)
    requires NonNegative(days)
    ensures CountOn(days, d) >= 0
  {
    if Get(days, d).Some? {
      GetEntry(days, d);
    }
  }

  lemma {:induction false} WeekCountNonNegative(days: UserDays, w: Day)
    requires NonNegative(days)
    ensures WeekCount(days, w) >= 0
  {
    if days != [] {
      WeekCountNonNegative(days[1..], w);
    }
  }

  /** One more message from `u` on `t` adds one to day `t`'s total only. */
  lemma DayTotalAfterBump(log: MessageLog, u: UserId, t: Day, d: Day)
    ensures DayTotal(BumpMessages(log, u, t), d) == DayTotal(log, d) + (if d == t then 1 else 0)
  {
    var od := DaysOf(log, u);
    var nd := Put(od, t, CountOn(od, t) + 1);
    SumByPut(log, u, nd, DayTerm(d));
  }

  /** ... and adds `u` to day `t`'s active users only. */
  lemma ActiveAfterBump(log: MessageLog, u: UserId, t: Day, d: Day)
    requires Distinct(log) && NonNegative(DaysOf(log, u))
    ensures ActiveOn(BumpMessages(log, u, t), d) == ActiveOn(log, d) + (if d == t then {u} else {})
  {
    var od := DaysOf(log, u);
    var nd := Put(od, t, CountOn(od, t) + 1);
    var p := PositiveOn(d);
    assert BumpMessages(log, u, t) == Put(log, u, nd) by {
      BumpIsPut(log, u, t);
    }
    if d == t {
      assert KeysWhere(Put(log, u, nd), p) == KeysWhere(log, p) + {u} by {
        CountOnNonNegative(od, t);
        assert p(nd);
        KeysWhereGains(log, u, nd, p);
      }
    } else {
      assert KeysWhere(Put(log, u, nd), p) == KeysWhere(log, p) by {
        assert p(nd) == (CountOn(nd, d) > 0);
        assert p(od) == (CountOn(od, d) > 0);
        assert CountOn(nd, d) == CountOn(od, d);
        KeysWhereKeeps(log, u, nd, p);
      }
    }
  }

  /** One more message on `t` adds one to the user's count for `t`'s week only. */
  lemma WeekCountAfterPut(od: UserDays, t: Day, w: Day)
    ensures WeekCount(Put(od, t, CountOn(od, t) + 1), w) == WeekCount(od, w) + (if WeekKey(t) == w then 1 else 0)
  {
    SumByPut(od, t, CountOn(od, t) + 1, InWeek(w));
  }

  /** Replacing one user's days by days whose count for week `w` differs
      by `delta` changes the week's total by `delta`. */
  lemma WeekTotalAfterPut(log: MessageLog, r: MessageLog, u: UserId, od: UserDays, nd: UserDays, w: Day, delta: int)
    requires r == Put(log, u, nd) && od == DaysOf(log, u)
    requires WeekCount(nd, w) == WeekCount(od, w) + delta
    ensures WeekTotal(r, w) == WeekTotal(log, w) + delta
  {
    var f := WeekTerm(w);
    assert f(u, nd) == WeekCount(nd, w);
    assert f(u, od) == WeekCount(od, w);
    SumByReplace(log, u, nd, od, f);
  }

  lemma {:induction false} WeekTotalAfterBump(log: MessageLog, u: UserId, t: Day, w: Day)
    ensures WeekTotal(BumpMessages(log, u, t), w) == WeekTotal(log, w) + (if WeekKey(t) == w then 1 else 0)
  {
    BumpIsPut(log, u, t);
    WeekCountAfterPut(DaysOf(log, u), t, w);
    WeekTotalAfterPut(log, BumpMessages(log, u, t), u, DaysOf(log, u),
      Put(DaysOf(log, u), t, CountOn(DaysOf(log, u), t) + 1), w, if WeekKey(t) == w then 1 else 0);
  }

  /** Replacing one user's non-negative days by days with `gained` more
      messages in week `w` adds the user to the week's active users exactly
      when `gained`. */
  lemma WeekActiveAfterPut(log: MessageLog, r: MessageLog, u: UserId, od: UserDays, nd: UserDays, w: Day, gained: bool)
    requires Distinct(log) && r == Put(log, u, nd) && od == DaysOf(log, u)
    requires WeekCount(od, w) >= 0
    requires WeekCount(nd, w) == WeekCount(od, w) + (if gained then 1 else 0)
    ensures WeekActive(r, w) == WeekActive(log, w) + (if gained then {u} else {})
  {
    var p := PositiveInWeek(w);
    assert p(nd) == (WeekCount(nd, w) > 0);
    assert p(od) == (WeekCount(od, w) > 0);
    if gained {
      KeysWhereGains(log, u, nd, p);
    } else {
      KeysWhereKeeps(log, u, nd, p);
    }
  }

  lemma {:induction false} WeekActiveAfterBump(log: MessageLog, u: UserId, t: Day, w: Day)
    requires Distinct(log) && NonNegative(DaysOf(log, u))
    ensures WeekActive(BumpMessages(log, u, t), w) == WeekActive(log, w) + (if WeekKey(t) == w then {u} else {})
  {
    BumpIsPut(log, u, t);
    WeekCountAfterPut(DaysOf(log, u), t, w);
    assert WeekCount(DaysOf(log, u), w) >= 0 by { WeekCountNonNegative(DaysOf(log, u), w); }
    WeekActiveAfterPut(log, BumpMessages(log, u, t), u, DaysOf(log, u),
      Put(DaysOf(log, u), t, CountOn(DaysOf(log, u), t) + 1), w, WeekKey(t) == w);
  }

  lemma WeekCountOfUserAfterBump(log: MessageLog, u: UserId, t: Day, w: Day, v: UserId)
    ensures WeekCount(DaysOf(BumpMessages(log, u, t), v), w)
            == WeekCount(DaysOf(log, v), w) + (if v == u && WeekKey(t) == w then 1 else 0)
  {
    var od := DaysOf(log, u);
    if v == u {
      assert DaysOf(BumpMessages(log, u, t), u) == Put(od, t, CountOn(od, t) + 1) by {
        BumpedDays(log, u, t);
      }
      WeekCountAfterPut(od, t, w);
    } else {
      assert DaysOf(BumpMessages(log, u, t), v) == DaysOf(log, v);
    }
  }

  lemma NonNegativeAfterBump(log: MessageLog, u: UserId, t: Day, v: UserId)
    requires NonNegative(DaysOf(log, u)) && NonNegative(DaysOf(log, v))
    ensures NonNegative(DaysOf(BumpMessages(log, u, t), v))
  {
    if v == u {
      BumpedDays(log, u, t);
      CountOnNonNegative(DaysOf(log, u), t);
      PutEntries(DaysOf(log, u), t, CountOn(DaysOf(log, u), t) + 1);
    }
  }

  /** Message tracking keeps the invariant */

  /** One day's entry after a message on day `t`. */
  lemma DailyPoint(log: MessageLog, daily: DailyMap, daily': DailyMap, u: UserId, t: Day, d: Day)
    requires Distinct(log) && NonNegative(DaysOf(log, u))
    requires StatIsSet(daily, d) && StatTotal(daily, d) == DayTotal(log, d) && StatUsers(daily, d) == ActiveOn(log, d)
    requires d == t ==> && StatIsSet(daily', d)
                        && StatTotal(daily', d) == StatTotal(daily, d) + 1
                        && StatUsers(daily', d) == StatUsers(daily, d) + {u}
    requires d != t ==> Get(daily', d) == Get(daily, d)
    ensures StatIsSet(daily', d)
    ensures StatTotal(daily', d) == DayTotal(BumpMessages(log, u, t), d)
    ensures StatUsers(daily', d) == ActiveOn(BumpMessages(log, u, t), d)
  {
    DayTotalAfterBump(log, u, t, d);
    ActiveAfterBump(log, u, t, d);
  }

  /** One week's entry after a message on day `t`. */
  lemma WeeklyPoint(log: MessageLog, weekly: WeeklyMap, weekly': WeeklyMap, u: UserId, t: Day, w: Day)
    requires Distinct(log) && NonNegative(DaysOf(log, u))
    requires && WeeklyIsSet(weekly, w)
             && WeeklyEntry(weekly, w).totalMessages == WeekTotal(log, w)
             && WeeklyEntry(weekly, w).activeUsers.Users() == WeekActive(log, w)
             && (forall v :: WeekCountOf(WeeklyEntry(weekly, w).userMessages, v) == WeekCount(DaysOf(log, v), w))
    requires w == WeekKey(t) ==>
               var o := WeeklyEntry(weekly, w);
               var n := WeeklyEntry(weekly', w);
               && WeeklyIsSet(weekly', w)
               && n.totalMessages == o.totalMessages + 1
               && n.activeUsers.Users() == o.activeUsers.Users() + {u}
               && WeekCountOf(n.userMessages, u) == WeekCountOf(o.userMessages, u) + 1
               && (forall v :: v != u ==> Get(n.userMessages, v) == Get(o.userMessages, v))
    requires w != WeekKey(t) ==> Get(weekly', w) == Get(weekly, w)
    ensures && WeeklyIsSet(weekly', w)
            && WeeklyEntry(weekly', w).totalMessages == WeekTotal(BumpMessages(log, u, t), w)
            && WeeklyEntry(weekly', w).activeUsers.Users() == WeekActive(BumpMessages(log, u, t), w)
            && (forall v :: WeekCountOf(WeeklyEntry(weekly', w).userMessages, v)
                            == WeekCount(DaysOf(BumpMessages(log, u, t), v), w))
  {
    assert WeeklyEntry(weekly', w).totalMessages == WeekTotal(BumpMessages(log, u, t), w) by {
      WeekTotalAfterBump(log, u, t, w);
    }
    assert WeeklyEntry(weekly', w).activeUsers.Users() == WeekActive(BumpMessages(log, u, t), w) by {
      WeekActiveAfterBump(log, u, t, w);
    }
    forall v
      ensures WeekCountOf(WeeklyEntry(weekly', w).userMessages, v) == WeekCount(DaysOf(BumpMessages(log, u, t), v), w)
    {
      WeekCountOfUserAfterBump(log, u, t, w, v);
    }
  }

  /** A message keeps the log free of duplicate users and negative counts. */
  lemma SoundAfterBump(log: MessageLog, u: UserId, t: Day)
    requires LogIsSound(log)
    ensures LogIsSound(BumpMessages(log, u, t))
  {
    forall v
      ensures NonNegative(DaysOf(BumpMessages(log, u, t), v))
    {
      assert NonNegative(DaysOf(log, u)) && NonNegative(DaysOf(log, v));
      NonNegativeAfterBump(log, u, t, v);
    }
  }

  /** Daily statistics that gain the message on its day, and only there,
      agree with the bumped log. */
  lemma DailyAfterBump(log: MessageLog, daily: DailyMap, daily': DailyMap, u: UserId, t: Day)
    requires LogIsSound(log) && DailyAgrees(log, daily)
    requires && StatIsSet(daily', t)
             && StatTotal(daily', t) == StatTotal(daily, t) + 1
             && StatUsers(daily', t) == StatUsers(daily, t) + {u}
    requires forall d :: d != t ==> Get(daily', d) == Get(daily, d)
    ensures DailyAgrees(BumpMessages(log, u, t), daily')
  {
    assert NonNegative(DaysOf(log, u));
    forall d
      ensures && StatIsSet(daily', d)
              && StatTotal(daily', d) == DayTotal(BumpMessages(log, u, t), d)
              && StatUsers(daily', d) == ActiveOn(BumpMessages(log, u, t), d)
    {
      assert StatIsSet(daily, d) && StatTotal(daily, d) == DayTotal(log, d) && StatUsers(daily, d) == ActiveOn(log, d);
      DailyPoint(log, daily, daily', u, t, d);
    }
  }

  /** Weekly statistics that gain the message in its week, and only there,
      agree with the bumped log. */
  lemma WeeklyAfterBump(log: MessageLog, weekly: WeeklyMap, weekly': WeeklyMap, u: UserId, t: Day)
    requires LogIsSound(log) && WeeklyAgrees(log, weekly)
    requires var o := WeeklyEntry(weekly, WeekKey(t));
             var n := WeeklyEntry(weekly', WeekKey(t));
             && WeeklyIsSet(weekly', WeekKey(t))
             && n.totalMessages == o.totalMessages + 1
             && n.activeUsers.Users() == o.activeUsers.Users() + {u}
             && WeekCountOf(n.userMessages, u) == WeekCountOf(o.userMessages, u) + 1
             && (forall v :: v != u ==> Get(n.userMessages, v) == Get(o.userMessages, v))
    requires forall w :: w != WeekKey(t) ==> Get(weekly', w) == Get(weekly, w)
    ensures WeeklyAgrees(BumpMessages(log, u, t), weekly')
  {
    assert NonNegative(DaysOf(log, u));
    forall w
      ensures && WeeklyIsSet(weekly', w)
              && WeeklyEntry(weekly', w).totalMessages == WeekTotal(BumpMessages(log, u, t), w)
              && WeeklyEntry(weekly', w).activeUsers.Users() == WeekActive(BumpMessages(log, u, t), w)
              && (forall v :: WeekCountOf(WeeklyEntry(weekly', w).userMessages, v)
                              == WeekCount(DaysOf(BumpMessages(log, u, t), v), w))
    {
      assert && WeeklyIsSet(weekly, w)
             && WeeklyEntry(weekly, w).totalMessages == WeekTotal(log, w)
             && WeeklyEntry(weekly, w).activeUsers.Users() == WeekActive(log, w)
             && (forall v :: WeekCountOf(WeeklyEntry(weekly, w).userMessages, v) == WeekCount(DaysOf(log, v), w));
      WeeklyPoint(log, weekly, weekly', u, t, w);
    }
  }

  /** Recording a message with the copying save keeps the invariant, and
      the file written is the serialized form of what is in memory. */
  lemma TrackKeepsConsistent(doc: Document, u: UserId, t: Day, now: Timestamp)
    requires Consistent(doc) && u != ""
    ensures var e := TrackMessage(CopyingSave, doc, Some(u), t, now);
            Consistent(e.memory) && e.written == Some(Serialized(e.memory))
  {
    var log := doc.messages.value;
    var daily := doc.dailyStats.value;
    var weekly := doc.weeklyStats.value;
    assert StatIsSet(daily, t);
    assert WeeklyIsSet(weekly, WeekKey(t));
    var s := RecordMessage(doc, u, t, now);
    assert s.Completed?;
    assert TrackMessage(CopyingSave, doc, Some(u), t, now) == SaveData(CopyingSave, s.doc);
    SoundAfterBump(log, u, t);
    DailyAfterBump(log, daily, s.doc.dailyStats.value, u, t);
    WeeklyAfterBump(log, weekly, s.doc.weeklyStats.value, u, t);
  }
}

=== FILE: maintenance.dfy ===
/** The data utilities: `cleanupOldData`, `getDataStats`, `convertToCSV` and
    `validateData`. Dates are day numbers; the source compares date strings,
    whose order is the order of the days they name. */
module Maintenance {
  import opened Wrappers
  import opened Assoc
  import opened Text
  import opened Dates
  import opened Document
  import opened Storage
  import opened Tracker

  /** Cleanup */

  /** The test an entry passes to survive: `!(date < cutoffStr)`. */
  function Recent(cutoff: Day): Day -> bool {
    (d: Day) => d >= cutoff
  }

  /** No key of `m` is dated before `cutoff`. */
  predicate NoneBefore<V>(m: Assoc<Day, V>, cutoff: Day) {
    forall d :: d in Keys(m) ==> d >= cutoff
  }

  /** The number of entries dated before `cutoff`. */
  function CountBefore<V>(m: Assoc<Day, V>, cutoff: Day): nat {
    if m == [] then 0 else (if m[0].0 < cutoff then 1 else 0) + CountBefore(m[1..], cutoff)
  }

  /** The number of (user, date) entries of a log. */
  function Entries(log: MessageLog): nat {
    if log == [] then 0 else |log[0].1| + Entries(log[1..])
  }

  /** The number of (user, date) entries dated before `cutoff`. */
  function LogBefore(log: MessageLog, cutoff: Day): nat {
    if log == [] then 0 else CountBefore(log[0].1, cutoff) + LogBefore(log[1..], cutoff)
  }

  /** The `messages` loop of `cleanupOldData`: old dates deleted from every
      user's map, and a user whose map ends up empty deleted. */
  function PruneLog(log: MessageLog, cutoff: Day): (r: MessageLog)
    ensures forall u :: u in Keys(r) ==> u in Keys(log)
    ensures forall i :: 0 <= i < |r| ==> r[i].1 != [] && NoneBefore(r[i].1, cutoff)
    ensures Distinct(log) ==> Distinct(r)
  {
    if log == [] then []
    else
      var kept := Filter(log[0].1, Recent(cutoff));
      var rest := PruneLog(log[1..], cutoff);
      if kept == [] then rest else [(log[0].0, kept)] + rest
  }

  /** What `cleanupOldData` did: the effect on memory and the file, and the
      number it returns or the exception it throws. */
  datatype Cleanup = Cleanup(effect: Effect, cleaned: Js<nat>)

  /** `cleanupOldData(daysToKeep)` run on day `today`: the cutoff is the day
      `daysToKeep` days back; old entries go from `messages`, `dailyStats`
      and `memberEvents` in that order (a missing map throws when reached,
      after the earlier maps were pruned); `weeklyStats` is not touched; the
      count covers removed date entries only, and the data is saved only
      when it is positive. */
  function CleanupOldData(mode: SaveMode, doc: Document, today: Day, daysToKeep: int): (r: Cleanup)
    ensures r.cleaned.Returned? <==> doc.messages.Some? && doc.dailyStats.Some? && doc.memberEvents.Some?
    ensures r.effect.memory.lastUpdate == doc.lastUpdate
    ensures r.effect.written.Some? <==> r.cleaned.Returned? && r.cleaned.value > 0
    ensures r.effect.written.None? ==> r.effect.memory.weeklyStats == doc.weeklyStats
    ensures mode.CopyingSave? ==> r.effect.memory.weeklyStats == doc.weeklyStats
    ensures r.cleaned.Returned? ==>
      r.effect.memory.messages.Some? && r.effect.memory.dailyStats.Some? && r.effect.memory.memberEvents.Some?
  {
    var cutoff := today - daysToKeep;
    if doc.messages.None? then Cleanup(Effect(doc, None), Threw)
    else if doc.dailyStats.None? then
      Cleanup(Effect(doc.(messages := Some(PruneLog(doc.messages.value, cutoff))), None), Threw)
    else if doc.memberEvents.None? then
      Cleanup(Effect(doc.(messages := Some(PruneLog(doc.messages.value, cutoff)),
                          dailyStats := Some(Filter(doc.dailyStats.value, Recent(cutoff)))), None), Threw)
    else FinishCleanup(mode, Pruned(doc, cutoff), Removed(doc, cutoff))
  }

  /** The three pruned maps `cleanupOldData` leaves when none is missing. */
  function Pruned(doc: Document, cutoff: Day): Document
    requires doc.messages.Some? && doc.dailyStats.Some? && doc.memberEvents.Some?
  {
    doc.(messages := Some(PruneLog(doc.messages.value, cutoff)),
         dailyStats := Some(Filter(doc.dailyStats.value, Recent(cutoff))),
         memberEvents := Some(Filter(doc.memberEvents.value, Recent(cutoff))))
  }

  /** The count `cleanupOldData` returns: date entries before the cutoff in
      the three maps. */
  function Removed(doc: Document, cutoff: Day): nat
    requires doc.messages.Some? && doc.dailyStats.Some? && doc.memberEvents.Some?
  {
    LogBefore(doc.messages.value, cutoff) + CountBefore(doc.dailyStats.value, cutoff)
    + CountBefore(doc.memberEvents.value, cutoff)
  }

  /** The end of `cleanupOldData`: save only when something was removed. */
  function FinishCleanup(mode: SaveMode, pruned: Document, n: nat): Cleanup {
    if n > 0 then Cleanup(SaveData(mode, pruned), Returned(n)) else Cleanup(Effect(pruned, None), Returned(0))
  }

  /** What a cleanup that found all three maps leaves in memory: the
      pruned document, or its serialized form when the aliased save ran
      because something was removed. */
  function CleanedMemory(mode: SaveMode, doc: Document, cutoff: Day): Document
    requires doc.messages.Some? && doc.dailyStats.Some? && doc.memberEvents.Some?
  {
    if mode.AliasedSave? && Removed(doc, cutoff) > 0 then Serialized(Pruned(doc, cutoff)) else Pruned(doc, cutoff)
  }

  /** The `/cleanup` command's `getInteger('days') || 30`: an absent option
      and 0 both give 30. */
  function CleanupDays(option: Option<int>): (days: int)
    ensures days != 0
    ensures option.Some? && option.value != 0 ==> days == option.value
    ensures option.None? || option == Some(0) ==> days == 30
  {
    match option
    case Some(n) => if n == 0 then 30 else n
    case None => 30
  }

  lemma {:induction false} FilterCount<V>(m: Assoc<Day, V>, cutoff: Day)
    ensures |Filter(m, Recent(cutoff))| + CountBefore(m, cutoff) == |m|
  {
    if m != [] {
      FilterCount(m[1..], cutoff);
    }
  }

  lemma {:induction false} CountBeforeNone<V>(m: Assoc<Day, V>, cutoff: Day)
    requires NoneBefore(m, cutoff)
    ensures CountBefore(m, cutoff) == 0
  {
    if m != [] {
      assert m[0].0 in Keys(m);
      assert forall d :: d in Keys(m[1..]) ==> d in Keys(m);
      CountBeforeNone(m[1..], cutoff);
    }
  }

  lemma {:induction false} PruneLogCount(log: MessageLog, cutoff: Day)
    ensures Entries(PruneLog(log, cutoff)) + LogBefore(log, cutoff) == Entries(log)
  {
    if log != [] {
      PruneLogCount(log[1..], cutoff);
      FilterCount(log[0].1, cutoff);
      var kept := Filter(log[0].1, Recent(cutoff));
      var rest := PruneLog(log[1..], cutoff);
      if kept != [] {
        assert ([(log[0].0, kept)] + rest)[1..] == rest;
      }
    }
  }

  /** A user survives exactly when some date of theirs survives, and keeps
      exactly the surviving dates. */
  lemma {:induction false} PruneLogGet(log: MessageLog, cutoff: Day, u: UserId)
    requires Distinct(log)
    ensures var kept := Filter(DaysOf(log, u), Recent(cutoff));
            Get(PruneLog(log, cutoff), u) == if u in Keys(log) && kept != [] then Some(kept) else None
  {
    if log != [] {
      PruneLogGet(log[1..], cutoff, u);
      var kept := Filter(log[0].1, Recent(cutoff));
      var rest := PruneLog(log[1..], cutoff);
      if kept != [] {
        assert ([(log[0].0, kept)] + rest)[1..] == rest;
      }
      if log[0].0 == u {
        assert u !in Keys(rest);
      }
    }
  }

  /** Pruning an already pruned log changes nothing and removes nothing. */
  lemma {:induction false} PruneLogTwice(log: MessageLog, cutoff: Day)
    ensures PruneLog(PruneLog(log, cutoff), cutoff) == PruneLog(log, cutoff)
    ensures LogBefore(PruneLog(log, cutoff), cutoff) == 0
  {
    if log != [] {
      PruneLogTwice(log[1..], cutoff);
      var kept := Filter(log[0].1, Recent(cutoff));
      var rest := PruneLog(log[1..], cutoff);
      if kept != [] {
        var p := [(log[0].0, kept)] + rest;
        assert p[0] == (log[0].0, kept) && p[1..] == rest;
        FilterKeepsAll(kept, Recent(cutoff));
        CountBeforeNone(kept, cutoff);
      }
    }
  }

  /** With none of the three maps missing, cleanup returns the number of
      entries before the cutoff, leaves the cleaned memory, and writes the
      serialized pruned document exactly when that number is positive. */
  lemma CleanupResult(mode: SaveMode, doc: Document, today: Day, daysToKeep: int)
    requires doc.messages.Some? && doc.dailyStats.Some? && doc.memberEvents.Some?
    ensures CleanupOldData(mode, doc, today, daysToKeep).cleaned == Returned(Removed(doc, today - daysToKeep))
    ensures CleanupOldData(mode, doc, today, daysToKeep).effect.memory == CleanedMemory(mode, doc, today - daysToKeep)
    ensures CleanupOldData(mode, doc, today, daysToKeep).effect.written
            == if Removed(doc, today - daysToKeep) > 0 then Some(Serialized(Pruned(doc, today - daysToKeep))) else None
  {
    assert CleanupOldData(mode, doc, today, daysToKeep)
           == FinishCleanup(mode, Pruned(doc, today - daysToKeep), Removed(doc, today - daysToKeep));
  }

  /** The cleaned maps: the log and the member events are the pruned ones
      in either mode; the daily stats have the pruned keys, and are the
      pruned map itself with the copying save. */
  lemma CleanedMaps(mode: SaveMode, doc: Document, cutoff: Day)
    requires doc.messages.Some? && doc.dailyStats.Some? && doc.memberEvents.Some?
    ensures CleanedMemory(mode, doc, cutoff).messages == Some(PruneLog(doc.messages.value, cutoff))
    ensures CleanedMemory(mode, doc, cutoff).memberEvents == Some(Filter(doc.memberEvents.value, Recent(cutoff)))
    ensures CleanedMemory(mode, doc, cutoff).dailyStats.Some?
    ensures Keys(CleanedMemory(mode, doc, cutoff).dailyStats.value) == Keys(Filter(doc.dailyStats.value, Recent(cutoff)))
    ensures mode.CopyingSave? ==> CleanedMemory(mode, doc, cutoff).dailyStats == Some(Filter(doc.dailyStats.value, Recent(cutoff)))
  {
  }

  /** After cleanup no user's map, no daily entry and no member-event
      entry is dated before the cutoff. */
  lemma CleanupRemovesOld(mode: SaveMode, doc: Document, cutoff: Day)
    requires doc.messages.Some? && doc.dailyStats.Some? && doc.memberEvents.Some?
    ensures var m := CleanedMemory(mode, doc, cutoff);
            && m.messages.Some? && m.dailyStats.Some? && m.memberEvents.Some?
            && (forall i :: 0 <= i < |m.messages.value| ==> NoneBefore(m.messages.value[i].1, cutoff))
            && NoneBefore(m.dailyStats.value, cutoff)
            && NoneBefore(m.memberEvents.value, cutoff)
  {
    CleanedMaps(mode, doc, cutoff);
  }

  /** One user's dates after pruning the log. */
  lemma PruneLogDays(log: MessageLog, cutoff: Day, u: UserId, d: Day)
    requires Distinct(log)
    ensures u in Keys(PruneLog(log, cutoff)) <==> u in Keys(log) && Filter(DaysOf(log, u), Recent(cutoff)) != []
    ensures Get(DaysOf(PruneLog(log, cutoff), u), d) == (if d >= cutoff then Get(DaysOf(log, u), d) else None)
  {
    PruneLogGet(log, cutoff, u);
  }

  /** Every entry dated on or after the cutoff is kept as it was (daily
      entries as they were with the copying save, and as Arrays with the
      aliased one); older entries are gone; users are removed exactly when
      none of their dates is kept. */
  lemma CleanupKeepsRecent(mode: SaveMode, doc: Document, cutoff: Day, u: UserId, d: Day)
    requires doc.messages.Some? && doc.dailyStats.Some? && doc.memberEvents.Some?
    requires Distinct(doc.messages.value)
    ensures var m := CleanedMemory(mode, doc, cutoff);
            && (u in Keys(m.messages.value) <==> u in Keys(doc.messages.value) && Filter(DaysOf(doc.messages.value, u), Recent(cutoff)) != [])
            && Get(DaysOf(m.messages.value, u), d) == (if d >= cutoff then Get(DaysOf(doc.messages.value, u), d) else None)
            && Get(m.memberEvents.value, d) == (if d >= cutoff then Get(doc.memberEvents.value, d) else None)
            && (d >= cutoff ==> Get(m.dailyStats.value, d).Some? == Get(doc.dailyStats.value, d).Some?)
            && (d < cutoff ==> Get(m.dailyStats.value, d).None?)
            && (mode.CopyingSave? ==> Get(m.dailyStats.value, d) == (if d >= cutoff then Get(doc.dailyStats.value, d) else None))
  {
    CleanedMaps(mode, doc, cutoff);
    PruneLogDays(doc.messages.value, cutoff, u, d);
  }

  /** The returned count is the number of date entries that disappeared
      from the three maps. */
  lemma CleanupCountsRemoved(mode: SaveMode, doc: Document, cutoff: Day)
    requires doc.messages.Some? && doc.dailyStats.Some? && doc.memberEvents.Some?
    ensures var m := CleanedMemory(mode, doc, cutoff);
            Removed(doc, cutoff)
            == (Entries(doc.messages.value) - Entries(m.messages.value))
               + (|doc.dailyStats.value| - |m.dailyStats.value|)
               + (|doc.memberEvents.value| - |m.memberEvents.value|)
  {
    CleanedMaps(mode, doc, cutoff);
    KeysLength(CleanedMemory(mode, doc, cutoff).dailyStats.value);
    KeysLength(Filter(doc.dailyStats.value, Recent(cutoff)));
    PruneLogCount(doc.messages.value, cutoff);
    FilterCount(doc.dailyStats.value, cutoff);
    FilterCount(doc.memberEvents.value, cutoff);
  }

  /** A document with nothing before the cutoff is its own pruned form and
      has nothing to remove. */
  lemma AlreadyPruned(d: Document, cutoff: Day)
    requires d.messages.Some? && d.dailyStats.Some? && d.memberEvents.Some?
    requires PruneLog(d.messages.value, cutoff) == d.messages.value
    requires LogBefore(d.messages.value, cutoff) == 0
    requires NoneBefore(d.dailyStats.value, cutoff) && NoneBefore(d.memberEvents.value, cutoff)
    ensures Pruned(d, cutoff) == d && Removed(d, cutoff) == 0
  {
    FilterKeepsAll(d.dailyStats.value, Recent(cutoff));
    FilterKeepsAll(d.memberEvents.value, Recent(cutoff));
    CountBeforeNone(d.dailyStats.value, cutoff);
    CountBeforeNone(d.memberEvents.value, cutoff);
  }

  /** The cleaned memory has nothing left to prune. */
  lemma CleanedIsPruned(mode: SaveMode, doc: Document, cutoff: Day)
    requires doc.messages.Some? && doc.dailyStats.Some? && doc.memberEvents.Some?
    ensures var m := CleanedMemory(mode, doc, cutoff);
            && m.messages.Some? && m.dailyStats.Some? && m.memberEvents.Some?
            && Pruned(m, cutoff) == m && Removed(m, cutoff) == 0
  {
    PruneLogTwice(doc.messages.value, cutoff);
    CleanupRemovesOld(mode, doc, cutoff);
    CleanedMaps(mode, doc, cutoff);
    AlreadyPruned(CleanedMemory(mode, doc, cutoff), cutoff);
  }

  /** A second cleanup with the same cutoff finds nothing: it returns 0,
      does not save and leaves memory as the first one left it. */
  lemma CleanupTwice(mode: SaveMode, doc: Document, today: Day, daysToKeep: int)
    requires doc.messages.Some? && doc.dailyStats.Some? && doc.memberEvents.Some?
    ensures var m := CleanupOldData(mode, doc, today, daysToKeep).effect.memory;
            CleanupOldData(mode, m, today, daysToKeep) == Cleanup(Effect(m, None), Returned(0))
  {
    CleanupResult(mode, doc, today, daysToKeep);
    CleanedIsPruned(mode, doc, today - daysToKeep);
    CleanupIdle(mode, CleanupOldData(mode, doc, today, daysToKeep).effect.memory, today, daysToKeep);
  }

  /** Cleanup of a document with nothing to prune returns 0, saves nothing
      and changes nothing. */
  lemma CleanupIdle(mode: SaveMode, m: Document, today: Day, daysToKeep: int)
    requires m.messages.Some? && m.dailyStats.Some? && m.memberEvents.Some?
    requires Pruned(m, today - daysToKeep) == m && Removed(m, today - daysToKeep) == 0
    ensures CleanupOldData(mode, m, today, daysToKeep) == Cleanup(Effect(m, None), Returned(0))
  {
    CleanupResult(mode, m, today, daysToKeep);
  }

  /** Statistics about the data */

  datatype DataStats = DataStats(
    totalUsers: nat, totalDays: nat, totalWeeks: nat, totalMessages: int, lastUpdate: Timestamp)

  /** `getDataStats()` without `dataSize`: `Object.keys` of a missing
      `messages` or `dailyStats` throws, a missing `weeklyStats` counts as
      empty. */
  function GetDataStats(doc: Document): (r: Js<DataStats>)
    ensures r.Returned? <==> doc.messages.Some? && doc.dailyStats.Some?
    ensures r.Returned? ==>
      && r.value.totalUsers == |Keys(doc.messages.value)|
      && r.value.totalDays == |Keys(doc.dailyStats.value)|
      && r.value.totalWeeks == |Keys(doc.weeklyStats.GetOr([]))|
      && r.value.totalMessages == LogTotal(doc.messages.value)
      && r.value.lastUpdate == doc.lastUpdate
  {
    var log :- Need(doc.messages);
    var daily :- Need(doc.dailyStats);
    KeysLength(log);
    KeysLength(daily);
    KeysLength(doc.weeklyStats.GetOr([]));
    Returned(DataStats(|log|, |daily|, |doc.weeklyStats.GetOr([])|, LogTotal(log), doc.lastUpdate))
  }

  lemma UserTotalAfterBump(days: UserDays, t: Day)
    ensures UserTotal(Put(days, t, CountOn(days, t) + 1)) == UserTotal(days) + 1
  {
    SumByPut(days, t, CountOn(days, t) + 1, CountOf);
  }

  lemma LogTotalAfterBump(log: MessageLog, u: UserId, t: Day)
    ensures LogTotal(BumpMessages(log, u, t)) == LogTotal(log) + 1
  {
    BumpIsPut(log, u, t);
    UserTotalAfterBump(DaysOf(log, u), t);
    SumByReplace(log, u, Put(DaysOf(log, u), t, CountOn(DaysOf(log, u), t) + 1), DaysOf(log, u), UserTerm);
  }

  /** Every tracked message adds one to `totalMessages`, with either save:
      the message log is bumped before anything can throw. */
  lemma DataStatsCountMessages(mode: SaveMode, doc: Document, u: UserId, t: Day, now: Timestamp)
    requires doc.messages.Some? && doc.dailyStats.Some? && u != ""
    ensures var m := TrackMessage(mode, doc, Some(u), t, now).memory;
            GetDataStats(m).Returned?
            && GetDataStats(m).value.totalMessages == GetDataStats(doc).value.totalMessages + 1
  {
    var log := doc.messages.value;
    var s := RecordMessage(doc, u, t, now);
    assert s.doc.messages == Some(BumpMessages(log, u, t));
    var m := TrackMessage(mode, doc, Some(u), t, now).memory;
    assert m.messages == s.doc.messages && m.dailyStats.Some?;
    LogTotalAfterBump(log, u, t);
    assert GetDataStats(m).value.totalMessages == LogTotal(BumpMessages(log, u, t));
  }

  /** CSV export */

  datatype CsvRow = CsvRow(date: Day, user: UserId, count: int)

  /** One user's rows, in the order of their dates. */
  function UserRows(u: UserId, days: UserDays): (rows: seq<CsvRow>)
    ensures |rows| == |days|
    ensures forall i :: 0 <= i < |days| ==> rows[i] == CsvRow(days[i].0, u, days[i].1)
  {
    if days == [] then [] else [CsvRow(days[0].0, u, days[0].1)] + UserRows(u, days[1..])
  }

  /** The rows of the export: users in map order, each user's dates in map
      order. */
  function CsvRows(log: MessageLog): (rows: seq<CsvRow>)
    ensures |rows| == Entries(log)
  {
    if log == [] then [] else UserRows(log[0].0, log[0].1) + CsvRows(log[1..])
  }

  const CsvHeader := "Date,UserId,Messages\n"

  function RenderRow(row: CsvRow): string {
    DateString(row.date) + "," + row.user + "," + IntToString(row.count) + "\n"
  }

  function RenderRows(rows: seq<CsvRow>): string {
    ConcatMap(RenderRow, rows)
  }

  /** The texts of `f` for each element, glued together in order. */
  function ConcatMap<T>(f: T -> string, xs: seq<T>): string {
    if xs == [] then "" else f(xs[0]) + ConcatMap(f, xs[1..])
  }

  /** `convertToCSV()`: the header line, then one line per row. */
  function ConvertToCsv(log: MessageLog): (csv: string)
    ensures |csv| >= |CsvHeader| && csv[..|CsvHeader|] == CsvHeader
    ensures log == [] ==> csv == CsvHeader
  {
    CsvHeader + RenderRows(CsvRows(log))
  }
  /** `convertToCSV` reads `data.messages` first: without that map
      `Object.entries` throws. */
  function ExportCsv(doc: Document): (r: Js<string>)
    ensures r.Returned? <==> doc.messages.Some?
    ensures r.Returned? ==> |r.value| >= |CsvHeader| && r.value[..|CsvHeader|] == CsvHeader
    ensures r.Returned? && doc.messages.value == [] ==> r.value == CsvHeader
  {
    var log :- Need(doc.messages);
    Returned(ConvertToCsv(log))
  }

  /** With no line break in a user id, the export of a document has the
      header line and one line per (user, date) entry. */
  lemma ExportCsvLineCount(doc: Document)
    requires doc.messages.Some?
    requires forall i :: 0 <= i < |doc.messages.value| ==> '\n' !in doc.messages.value[i].0
    ensures ExportCsv(doc).Returned? && LineBreaks(ExportCsv(doc).value) == 1 + Entries(doc.messages.value)
  {
    assert ExportCsv(doc) == Returned(ConvertToCsv(doc.messages.value));
    CsvLineCount(doc.messages.value);
  }



  /** The number of line breaks in a text. */
  function LineBreaks(s: string): nat {
    multiset(s)['\n']
  }

  /** With no line break in a user id, the export has the header line and
      one line per (user, date) entry of the log. */
  lemma CsvLineCount(log: MessageLog)
    requires forall i :: 0 <= i < |log| ==> '\n' !in log[i].0
    ensures LineBreaks(ConvertToCsv(log)) == 1 + Entries(log)
  {
    HeaderIsOneLine();
    CsvRowsOneLine(log);
    RenderRowsLines(CsvRows(log));
    LineBreaksConcat(CsvHeader, RenderRows(CsvRows(log)));
  }

  lemma HeaderIsOneLine()
    ensures LineBreaks(CsvHeader) == 1
  {
    assert CsvHeader == "Date,UserId,Messages" + "\n";
    assert '\n' !in "Date,UserId,Messages";
    OneLineBreak("Date,UserId,Messages");
  }

  /** A text without line breaks, then a line break. */
  lemma OneLineBreak(a: string)
    requires '\n' !in a
    ensures LineBreaks(a + "\n") == 1
  {
    assert multiset(a + "\n") == multiset(a) + multiset{'\n'};
  }

  lemma LineBreaksConcat(a: string, b: string)
    ensures LineBreaks(a + b) == LineBreaks(a) + LineBreaks(b)
  {
    assert multiset(a + b) == multiset(a) + multiset(b);
  }

  lemma {:induction false} CsvRowsOneLine(log: MessageLog)
    requires forall i :: 0 <= i < |log| ==> '\n' !in log[i].0
    ensures forall i :: 0 <= i < |CsvRows(log)| ==> '\n' !in CsvRows(log)[i].user
  {
    if log != [] {
      CsvRowsOneLine(log[1..]);
      var head := UserRows(log[0].0, log[0].1);
      assert CsvRows(log) == head + CsvRows(log[1..]);
      forall i | 0 <= i < |CsvRows(log)| ensures '\n' !in CsvRows(log)[i].user {
        if i >= |head| {
          assert CsvRows(log)[i] == CsvRows(log[1..])[i - |head|];
          assert log[1..][0] == log[1];
        }
      }
    }
  }

  /** Each rendered row is one line. */
  lemma RenderRowIsOneLine(row: CsvRow)
    requires '\n' !in row.user
    ensures LineBreaks(RenderRow(row)) == 1
  {
    DateStringOneLine(row.date);
    IntToStringOneLine(row.count);
    OneLineBreak(DateString(row.date) + "," + row.user + "," + IntToString(row.count));
  }

  lemma RenderRowsLines(rows: seq<CsvRow>)
    requires forall i :: 0 <= i < |rows| ==> '\n' !in rows[i].user
    ensures LineBreaks(RenderRows(rows)) == |rows|
  {
    forall i | 0 <= i < |rows| ensures LineBreaks(RenderRow(rows[i])) == 1 {
      RenderRowIsOneLine(rows[i]);
    }
    ConcatLines(RenderRow, rows);
  }

  /** Texts of one line each glue into as many lines. */
  lemma {:induction false} ConcatLines<T>(f: T -> string, xs: seq<T>)
    requires forall i :: 0 <= i < |xs| ==> LineBreaks(f(xs[i])) == 1
    ensures LineBreaks(ConcatMap(f, xs)) == |xs|
  {
    if xs != [] {
      assert forall i :: 0 <= i < |xs[1..]| ==> xs[1..][i] == xs[i + 1];
      ConcatLines(f, xs[1..]);
      LinesStep(f(xs[0]), ConcatMap(f, xs[1..]), |xs| - 1);
    }
  }

  /** One more line in front. */
  lemma LinesStep(a: string, b: string, n: nat)
    requires LineBreaks(a) == 1 && LineBreaks(b) == n
    ensures LineBreaks(a + b) == n + 1
  {
    LineBreaksConcat(a, b);
  }


  /** The rows are exactly the (date, user, count) entries of the log. */
  lemma {:induction false} CsvRowsComplete(log: MessageLog, row: CsvRow)
    requires Distinct(log) && forall i :: 0 <= i < |log| ==> Distinct(log[i].1)
    ensures row in CsvRows(log) <==> Get(DaysOf(log, row.user), row.date) == Some(row.count)
  {
    if log != [] {
      CsvRowsComplete(log[1..], row);
      var u := log[0].0;
      var days := log[0].1;
      UserRowsComplete(u, days, row);
      if row.user == u {
        assert Get(log[1..], u).None?;
      }
    }
  }

  lemma {:induction false} UserRowsComplete(u: UserId, days: UserDays, row: CsvRow)
    requires Distinct(days)
    ensures row in UserRows(u, days) <==> row.user == u && Get(days, row.date) == Some(row.count)
  {
    if days != [] {
      UserRowsComplete(u, days[1..], row);
      assert UserRows(u, days) == [CsvRow(days[0].0, u, days[0].1)] + UserRows(u, days[1..]);
      if row.date == days[0].0 {
        assert Get(days[1..], row.date).None?;
      }
    }
  }

  /** Validation */

  datatype Validation = Validation(isValid: bool, issues: seq<string>)

  const MessagesIssue := "Missing or invalid messages data"
  const DailyStatsIssue := "Missing or invalid dailyStats data"
  const MemberEventsIssue := "Missing or invalid memberEvents data"
  const DayIssuePrefix := "Invalid activeUsers Set for date: "

  /** An issue about one day's `activeUsers`. */
  predicate IsDayIssue(t: string) {
    |t| >= |DayIssuePrefix| && t[..|DayIssuePrefix|] == DayIssuePrefix
  }

  /** The issue for one day whose `activeUsers` is not a Set. */
  function DayIssue(d: Day): (t: string)
    ensures IsDayIssue(t)
  {
    StartsWith(DayIssuePrefix, DateString(d));
    DayIssuePrefix + DateString(d)
  }

  lemma StartsWith(p: string, x: string)
    ensures |p + x| >= |p| && (p + x)[..|p|] == p
  {
  }

  /** The number of days whose `activeUsers` is not a Set. */
  function ArrayDays(daily: DailyMap): nat {
    if daily == [] then 0
    else (if daily[0].1.activeUsers.JsSet? then 0 else 1) + ArrayDays(daily[1..])
  }

  /** The number of top-level maps `validateData` finds missing. */
  function MissingMaps(doc: Document): nat {
    (if doc.messages.None? then 1 else 0)
    + (if doc.dailyStats.None? then 1 else 0)
    + (if doc.memberEvents.None? then 1 else 0)
  }

  /** One issue per day whose `activeUsers` is not a Set, in map order. */
  function ArrayDayIssues(daily: DailyMap): (issues: seq<string>)
    ensures issues == [] <==> forall i :: 0 <= i < |daily| ==> daily[i].1.activeUsers.JsSet?
    ensures |issues| == ArrayDays(daily) <= |daily|
    ensures forall k :: 0 <= k < |issues| ==> IsDayIssue(issues[k])
  {
    if daily == [] then []
    else
      var rest := ArrayDayIssues(daily[1..]);
      assert forall i :: 1 <= i < |daily| ==> daily[i] == daily[1..][i - 1];
      if daily[0].1.activeUsers.JsSet? then rest
      else
        ConsDayIssue(DayIssue(daily[0].0), rest);
        [DayIssue(daily[0].0)] + rest
  }

  lemma ConsDayIssue(t: string, rest: seq<string>)
    requires IsDayIssue(t) && forall k :: 0 <= k < |rest| ==> IsDayIssue(rest[k])
    ensures forall k :: 0 <= k < |[t] + rest| ==> IsDayIssue(([t] + rest)[k])
  {
    assert forall k :: 0 < k < |[t] + rest| ==> ([t] + rest)[k] == rest[k - 1];
  }


  /** The issues for the missing top-level maps, in the source's order. */
  function MissingIssues(doc: Document): (m: seq<string>)
    ensures |m| == MissingMaps(doc)
    ensures doc.messages.None? ==> m[0] == MessagesIssue
    ensures doc.dailyStats.None? ==> m[if doc.messages.None? then 1 else 0] == DailyStatsIssue
    ensures doc.memberEvents.None? ==> m[|m| - 1] == MemberEventsIssue
  {
    (if doc.messages.None? then [MessagesIssue] else [])
    + (if doc.dailyStats.None? then [DailyStatsIssue] else [])
    + (if doc.memberEvents.None? then [MemberEventsIssue] else [])
  }

  /** `validateData()`: one issue per missing top-level map, in a fixed
      order, then one per day whose `activeUsers` is not a Set;
      `weeklyStats` is not checked. */
  function ValidateData(doc: Document): (r: Validation)
    ensures r.isValid <==> r.issues == []
    ensures r.isValid <==>
      && doc.messages.Some? && doc.dailyStats.Some? && doc.memberEvents.Some?
      && forall i :: 0 <= i < |doc.dailyStats.value| ==> doc.dailyStats.value[i].1.activeUsers.JsSet?
    ensures |r.issues| == MissingMaps(doc) + ArrayDays(doc.dailyStats.GetOr([]))
    ensures doc.messages.None? ==> r.issues[0] == MessagesIssue
    ensures doc.dailyStats.None? ==>
      r.issues[if doc.messages.None? then 1 else 0] == DailyStatsIssue
    ensures doc.memberEvents.None? ==>
      r.issues[MissingMaps(doc) - 1] == MemberEventsIssue
    ensures forall k :: MissingMaps(doc) <= k < |r.issues| ==> IsDayIssue(r.issues[k])
  {
    var missing := MissingIssues(doc);
    var days := ArrayDayIssues(doc.dailyStats.GetOr([]));
    ConcatIndex(missing, days);
    assert missing == [] <==> doc.messages.Some? && doc.dailyStats.Some? && doc.memberEvents.Some?;
    Validation(|missing + days| == 0, missing + days)
  }

  /** Where the two parts of a concatenation sit. */
  lemma ConcatIndex(a: seq<string>, b: seq<string>)
    ensures forall k :: 0 <= k < |a| ==> (a + b)[k] == a[k]
    ensures forall k :: |a| <= k < |a + b| ==> (a + b)[k] == b[k - |a|]
  {
  }


  /** A freshly loaded document with its three maps passes validation. */
  lemma ValidAfterLoad(file: StoredFile, now: Timestamp)
    requires var doc := LoadData(file, now);
             doc.messages.Some? && doc.dailyStats.Some? && doc.memberEvents.Some?
    ensures ValidateData(LoadData(file, now)).isValid
  {
  }

  /** After the source's aliased save, every day with statistics is
      reported: the in-memory Sets have become Arrays. */
  lemma InvalidAfterAliasedSave(doc: Document)
    requires doc.messages.Some? && doc.dailyStats.Some? && doc.memberEvents.Some?
    ensures var v := ValidateData(SaveData(AliasedSave, doc).memory);
            v.isValid <==> doc.dailyStats.value == []
  {
    var m := SaveData(AliasedSave, doc).memory;
    if doc.dailyStats.value != [] {
      assert m.dailyStats.value[0].1.activeUsers.JsArray?;
    }
  }
}

=== FILE: profiles.dfy ===
/** User profiles: `getUserProfile`, `getUserJoinDate` and
    `getActivityLevel`. "Today" is a parameter. */
module Profiles {
  import opened Wrappers
  import opened Assoc
  import opened Dates
  import opened Document
  import opened Tracker

  /** Sorting day keys */

  predicate Ascending(s: seq<Day>) {
    forall i, j :: 0 <= i < j < |s| ==> s[i] <= s[j]
  }

  /** Where `d` goes in ascending `s`: before the first larger day. */
  function DayAt(s: seq<Day>, d: Day): (p: nat)
    ensures p <= |s|
  {
    if s == [] || s[0] > d then 0 else 1 + DayAt(s[1..], d)
  }

  lemma {:induction false} DayAtSplit(s: seq<Day>, d: Day)
    ensures Ascending(s) ==> forall k :: 0 <= k < DayAt(s, d) ==> s[k] <= d
    ensures Ascending(s) ==> forall k :: DayAt(s, d) <= k < |s| ==> s[k] > d
  {
    if Ascending(s) && s != [] && s[0] <= d {
      DayAtSplit(s[1..], d);
      forall k | 1 <= k < |s|
        ensures s[k] == s[1..][k - 1]
      {
      }
    }
  }

  function InsertDay(s: seq<Day>, d: Day): (r: seq<Day>)
    ensures multiset(r) == multiset(s) + multiset{d}
    ensures Ascending(s) ==> Ascending(r)
  {
    InsertedAt(s, d);
    s[..DayAt(s, d)] + [d] + s[DayAt(s, d)..]
  }

  lemma InsertedAt(s: seq<Day>, d: Day)
    ensures var r := s[..DayAt(s, d)] + [d] + s[DayAt(s, d)..];
            && multiset(r) == multiset(s) + multiset{d}
            && (Ascending(s) ==> Ascending(r))
  {
    InsertedMultiset(s, DayAt(s, d), d);
    if Ascending(s) {
      DayAtSplit(s, d);
      InsertedIndices(s, DayAt(s, d), d);
      AscendingAround(s, s[..DayAt(s, d)] + [d] + s[DayAt(s, d)..], DayAt(s, d), d);
    }
  }

  lemma InsertedMultiset(s: seq<Day>, p: nat, d: Day)
    requires p <= |s|
    ensures multiset(s[..p] + [d] + s[p..]) == multiset(s) + multiset{d}
  {
    assert s == s[..p] + s[p..];
  }

  lemma InsertedIndices(s: seq<Day>, p: nat, d: Day)
    requires p <= |s|
    ensures var r := s[..p] + [d] + s[p..];
            && |r| == |s| + 1 && r[p] == d
            && (forall k :: 0 <= k < p ==> r[k] == s[k])
            && (forall k :: p < k < |r| ==> r[k] == s[k - 1])
  {
  }

  /** `r` is ascending `s` with `d` placed at `p`, after the days up to `d`
      and before the larger ones. */
  lemma AscendingAround(s: seq<Day>, r: seq<Day>, p: nat, d: Day)
    requires Ascending(s) && p <= |s| && |r| == |s| + 1 && r[p] == d
    requires forall k :: 0 <= k < p ==> r[k] == s[k] && s[k] <= d
    requires forall k :: p < k < |r| ==> r[k] == s[k - 1] && s[k - 1] > d
    ensures Ascending(r)
  {
    forall i, j | 0 <= i < j < |r|
      ensures r[i] <= r[j]
    {
      if j < p {
        assert s[i] <= s[j];
      } else if i > p {
        assert s[i - 1] <= s[j - 1];
      }
    }
  }

  /** `Object.keys(userMessages).sort()`: the date strings in string order,
      which is the order of the days. */
  function SortDays(s: seq<Day>): (r: seq<Day>)
    ensures Ascending(r)
    ensures multiset(r) == multiset(s)
  {
    if s == [] then []
    else
      assert s == s[..|s| - 1] + [s[|s| - 1]];
      InsertDay(SortDays(s[..|s| - 1]), s[|s| - 1])
  }

  /** Sums over a sequence of days */

  /** The sum of `f` of each listed day's count. */
  function SeqSum(days: UserDays, s: seq<Day>, f: int -> int): int {
    if s == [] then 0 else f(CountOn(days, s[0])) + SeqSum(days, s[1..], f)
  }

  /** The positive part of a count: what the scan adds for a date. */
  function Positive(c: int): int {
    if c > 0 then c else 0
  }

  /** One for a date the scan counts as active. */
  function ActiveMark(c: int): int {
    if c > 0 then 1 else 0
  }

  function OnValue(f: int -> int): (Day, int) -> int {
    (d: Day, c: int) => f(c)
  }

  lemma {:induction false} SeqSumConcat(days: UserDays, a: seq<Day>, b: seq<Day>, f: int -> int)
    ensures SeqSum(days, a + b, f) == SeqSum(days, a, f) + SeqSum(days, b, f)
  {
    if a == [] {
      assert a + b == b;
    } else {
      assert (a + b)[1..] == a[1..] + b;
      SeqSumConcat(days, a[1..], b, f);
    }
  }

  lemma SeqSumLast(days: UserDays, s: seq<Day>, f: int -> int)
    requires s != []
    ensures SeqSum(days, s, f) == SeqSum(days, s[..|s| - 1], f) + f(CountOn(days, s[|s| - 1]))
  {
    assert s == s[..|s| - 1] + [s[|s| - 1]];
    SeqSumConcat(days, s[..|s| - 1], [s[|s| - 1]], f);
  }

  lemma InsertDaySum(days: UserDays, s: seq<Day>, d: Day, f: int -> int)
    ensures SeqSum(days, InsertDay(s, d), f) == SeqSum(days, s, f) + f(CountOn(days, d))
  {
    var p := DayAt(s, d);
    assert InsertDay(s, d) == (s[..p] + [d]) + s[p..];
    SeqSumConcat(days, s[..p] + [d], s[p..], f);
    SeqSumConcat(days, s[..p], [d], f);
    SeqSumConcat(days, s[..p], s[p..], f);
    assert s[..p] + s[p..] == s;
  }

  /** Sorting the days does not change a sum over them. */
  lemma {:induction false} SortDaysSum(days: UserDays, s: seq<Day>, f: int -> int)
    ensures SeqSum(days, SortDays(s), f) == SeqSum(days, s, f)
  {
    if s != [] {
      SortDaysSum(days, s[..|s| - 1], f);
      SeqSumLast(days, s, f);
      InsertDaySum(days, SortDays(s[..|s| - 1]), s[|s| - 1], f);
    }
  }

  lemma {:induction false} SeqSumSameCounts(a: UserDays, b: UserDays, s: seq<Day>, f: int -> int)
    requires forall k :: k in s ==> CountOn(a, k) == CountOn(b, k)
    ensures SeqSum(a, s, f) == SeqSum(b, s, f)
  {
    if s != [] {
      SeqSumSameCounts(a, b, s[1..], f);
    }
  }

  /** Over the map's own keys, the sum is the sum over its entries. */
  lemma {:induction false} SeqSumKeys(days: UserDays, f: int -> int)
    requires Distinct(days)
    ensures SeqSum(days, Keys(days), f) == SumBy(days, OnValue(f))
  {
    if days != [] {
      var rest := days[1..];
      SeqSumKeys(rest, f);
      SeqSumSameCounts(days, rest, Keys(rest), f);
    }
  }

  /** The scan over the sorted dates */

  datatype Tally = Tally(total: int, activeDays: nat, first: Option<Day>, last: Option<Day>)

  /** The `forEach` over `sortedDates`, one date at a time. */
  function Scan(days: UserDays, s: seq<Day>): Tally {
    if s == [] then Tally(0, 0, None, None)
    else
      var acc := Scan(days, s[..|s| - 1]);
      var d := s[|s| - 1];
      var c := CountOn(days, d);
      if c > 0 then Tally(acc.total + c, acc.activeDays + 1, if acc.first.None? then Some(d) else acc.first, Some(d))
      else acc
  }

  /** The scan adds the positive counts, counts the active dates, and over
      ascending dates finds the least and the greatest active one. */
  lemma ScanFacts(days: UserDays, s: seq<Day>)
    ensures var t := Scan(days, s);
            && t.total == SeqSum(days, s, Positive)
            && t.activeDays == SeqSum(days, s, ActiveMark)
            && (t.first.None? <==> t.activeDays == 0)
            && (t.first.None? ==> forall k :: k in s ==> CountOn(days, k) <= 0)
            && (t.last.None? <==> t.activeDays == 0)
            && (t.first.Some? ==> t.first.value in s && CountOn(days, t.first.value) > 0)
            && (t.last.Some? ==> t.last.value in s && CountOn(days, t.last.value) > 0)
            && (Ascending(s) && t.first.Some? ==>
                  forall k :: k in s && CountOn(days, k) > 0 ==> t.first.value <= k)
            && (Ascending(s) && t.last.Some? ==>
                  forall k :: k in s && CountOn(days, k) > 0 ==> k <= t.last.value)
  {
    ScanSums(days, s);
    ScanEnds(days, s);
    if Ascending(s) {
      ScanOrder(days, s);
    }
  }

  /** The scan adds the positive counts and counts the active dates. */
  lemma {:induction false} ScanSums(days: UserDays, s: seq<Day>)
    ensures Scan(days, s).total == SeqSum(days, s, Positive)
    ensures Scan(days, s).activeDays == SeqSum(days, s, ActiveMark)
    ensures Scan(days, s).first.None? <==> Scan(days, s).activeDays == 0
    ensures Scan(days, s).last.None? <==> Scan(days, s).activeDays == 0
  {
    if s != [] {
      ScanSums(days, s[..|s| - 1]);
      SeqSumLast(days, s, Positive);
      SeqSumLast(days, s, ActiveMark);
    }
  }

  /** The first and last dates the scan keeps are active dates of `s`, and
      none is kept when no date is active. */
  lemma {:induction false} ScanEnds(days: UserDays, s: seq<Day>)
    ensures Scan(days, s).first.None? ==> forall k :: k in s ==> CountOn(days, k) <= 0
    ensures Scan(days, s).first.Some? ==> Scan(days, s).first.value in s && CountOn(days, Scan(days, s).first.value) > 0
    ensures Scan(days, s).last.Some? ==> Scan(days, s).last.value in s && CountOn(days, Scan(days, s).last.value) > 0
  {
    if s != [] {
      ScanEnds(days, s[..|s| - 1]);
      assert forall k :: k in s <==> k in s[..|s| - 1] || k == s[|s| - 1];
    }
  }

  /** Over ascending dates the first kept date is the least active one and
      the last kept date the greatest. */
  lemma {:induction false} ScanOrder(days: UserDays, s: seq<Day>)
    requires Ascending(s)
    ensures Scan(days, s).first.Some? ==>
              forall k :: k in s && CountOn(days, k) > 0 ==> Scan(days, s).first.value <= k
    ensures Scan(days, s).last.Some? ==>
              forall k :: k in s && CountOn(days, k) > 0 ==> k <= Scan(days, s).last.value
  {
    if s != [] {
      assert Ascending(s[..|s| - 1]);
      ScanOrder(days, s[..|s| - 1]);
      ScanEnds(days, s[..|s| - 1]);
      assert forall k :: k in s <==> k in s[..|s| - 1] || k == s[|s| - 1];
    }
  }

  /** Each user's totals in map order */

  /** The sum of a user's positive counts, in map order. */
  function PositiveTotal(days: UserDays): int {
    SumBy(days, OnValue(Positive))
  }

  /** The number of a user's dates with a positive count, in map order. */
  function ActiveDayCount(days: UserDays): int {
    SumBy(days, OnValue(ActiveMark))
  }

  /** Average */

  /** `Math.round(totalMessages / activeDays * 10) / 10`, in tenths:
      the nearest tenth, halves rounded up; 0 without active days. */
  function AverageTenths(total: int, activeDays: nat): (tenths: int)
    ensures activeDays == 0 ==> tenths == 0
    ensures activeDays > 0 ==>
      2 * activeDays * tenths - activeDays <= 20 * total < 2 * activeDays * tenths + activeDays
  {
    if activeDays > 0 then (20 * total + activeDays) / (2 * activeDays) else 0
  }

  /** Counts 4 and 2 average to 3.0. */
  lemma AverageExample()
    ensures AverageTenths(6, 2) == 30
    ensures AverageTenths(5, 2) == 25
    ensures AverageTenths(1, 3) == 3
  {
  }

  /** Join date */

  predicate JoinedIn(ev: DayEvents, u: UserId) {
    exists i :: 0 <= i < |ev.joins| && ev.joins[i].userId == u
  }

  /** The index of the first day, in map order, whose joins hold the user. */
  function JoinIndex(events: EventMap, u: UserId): (k: nat)
    ensures k <= |events|
    ensures k < |events| ==> JoinedIn(events[k].1, u)
    ensures forall j :: 0 <= j < k ==> !JoinedIn(events[j].1, u)
  {
    if events == [] then 0
    else if JoinedIn(events[0].1, u) then 0
    else 1 + JoinIndex(events[1..], u)
  }

  /** `getUserJoinDate(userId, data)`: the key of the first entry of
      `memberEvents`, in map order, whose joins include the user. */
  function GetUserJoinDate(events: EventMap, u: UserId): (r: Option<Day>)
    ensures r.None? <==> forall j :: 0 <= j < |events| ==> !JoinedIn(events[j].1, u)
    ensures r.Some? ==> exists j :: 0 <= j < |events| && events[j].0 == r.value && JoinedIn(events[j].1, u)
    ensures r.Some? ==> JoinIndex(events, u) < |events| && r.value == events[JoinIndex(events, u)].0
  {
    var k := JoinIndex(events, u);
    if k < |events| then Some(events[k].0) else None
  }

  /** When the days of `memberEvents` are in increasing order, as the
      tracker creates them, the join date is the earliest day the user
      joined. */
  lemma JoinDateEarliest(events: EventMap, u: UserId, j: nat)
    requires forall a, b :: 0 <= a < b < |events| ==> events[a].0 < events[b].0
    requires j < |events| && JoinedIn(events[j].1, u)
    ensures GetUserJoinDate(events, u).Some? && GetUserJoinDate(events, u).value <= events[j].0
  {
    var k := JoinIndex(events, u);
    assert k <= j;
  }

  /** Map order is not date order: a file whose later day comes first in
      `memberEvents` yields that later day. */
  lemma JoinDateFollowsMapOrder()
    ensures var rec := MemberEvent("u", "name", "t");
            var events := [(5, DayEvents([rec], [])), (3, DayEvents([rec], []))];
            GetUserJoinDate(events, "u") == Some(5)
  {
    var rec := MemberEvent("u", "name", "t");
    assert JoinedIn(DayEvents([rec], []), "u") by {
      assert [rec][0].userId == "u";
    }
  }

  /** Profile */

  datatype Profile = Profile(
    userId: UserId,
    totalMessages: int,
    activeDays: nat,
    averageTenths: int,
    todayMessages: int,
    weeklyMessages: int,
    firstMessageDate: Option<Day>,
    lastMessageDate: Option<Day>,
    joinDate: Option<Day>)

  /** `getUserProfile(userId)` on day `today`. A missing `messages`,
      `weeklyStats` or `memberEvents` map throws. */
  function GetUserProfile(doc: Document, u: UserId, today: Day): (r: Js<Profile>)
    ensures r.Returned? <==> doc.messages.Some? && doc.weeklyStats.Some? && doc.memberEvents.Some?
    ensures r.Returned? ==>
      var days := DaysOf(doc.messages.value, u);
      && r.value.todayMessages == CountOn(days, today)
      && r.value.weeklyMessages == WeekCountOf(Get(doc.weeklyStats.value, WeekKey(today)).GetOr(NewWeeklyStat).userMessages, u)
      && r.value.joinDate == GetUserJoinDate(doc.memberEvents.value, u)
      && r.value.averageTenths == AverageTenths(r.value.totalMessages, r.value.activeDays)
  {
    var log :- Need(doc.messages);
    var days := DaysOf(log, u);
    var tally := Scan(days, SortDays(Keys(days)));
    var week :- GetWeeklyStats(doc, WeekKey(today));
    var events :- Need(doc.memberEvents);
    Returned(Profile(u, tally.total, tally.activeDays, AverageTenths(tally.total, tally.activeDays),
                     CountOn(days, today), WeekCountOf(week.userMessages, u),
                     tally.first, tally.last, GetUserJoinDate(events, u)))
  }

  /** The profile's figures: the total is the sum of the positive counts,
      the active days are the dates with a positive count, and the first
      and last dates are the least and greatest of those; both are absent
      exactly when there is no active day. */
  lemma ProfileFigures(doc: Document, u: UserId, today: Day)
    requires doc.messages.Some? && doc.weeklyStats.Some? && doc.memberEvents.Some?
    requires Distinct(DaysOf(doc.messages.value, u))
    ensures var p := GetUserProfile(doc, u, today).value;
            var days := DaysOf(doc.messages.value, u);
            && p.totalMessages == PositiveTotal(days)
            && p.activeDays == ActiveDayCount(days)
            && (p.firstMessageDate.None? <==> p.activeDays == 0)
            && (p.lastMessageDate.None? <==> p.activeDays == 0)
            && (p.firstMessageDate.Some? ==>
                  && p.firstMessageDate.value in Keys(days) && CountOn(days, p.firstMessageDate.value) > 0
                  && forall k :: k in Keys(days) && CountOn(days, k) > 0 ==> p.firstMessageDate.value <= k)
            && (p.lastMessageDate.Some? ==>
                  && p.lastMessageDate.value in Keys(days) && CountOn(days, p.lastMessageDate.value) > 0
                  && forall k :: k in Keys(days) && CountOn(days, k) > 0 ==> k <= p.lastMessageDate.value)
  {
    var days := DaysOf(doc.messages.value, u);
    var sorted := SortDays(Keys(days));
    ScanFacts(days, sorted);
    SortDaysSum(days, Keys(days), Positive);
    SortDaysSum(days, Keys(days), ActiveMark);
    SeqSumKeys(days, Positive);
    SeqSumKeys(days, ActiveMark);
    forall k
      ensures k in sorted <==> k in Keys(days)
    {
      assert k in sorted <==> k in multiset(sorted);
      assert k in Keys(days) <==> k in multiset(Keys(days));
    }
  }

  /** Activity level */

  datatype Level = Beginner | Newcomer | Regular | Active | Expert | Legend {
    function Ordinal(): nat {
      match this
      case Beginner => 0
      case Newcomer => 1
      case Regular => 2
      case Active => 3
      case Expert => 4
      case Legend => 5
    }

    function Name(): string {
      match this
      case Beginner => "Beginner"
      case Newcomer => "Newcomer"
      case Regular => "Regular"
      case Active => "Active"
      case Expert => "Expert"
      case Legend => "Legend"
    }
  }

  /** The message counts at which the levels start. */
  const Thresholds: seq<int> := [10, 50, 200, 500, 1000]

  /** The number of thresholds `total` reaches. */
  function Reached(ts: seq<int>, total: int): nat {
    if ts == [] then 0 else (if total >= ts[0] then 1 else 0) + Reached(ts[1..], total)
  }

  /** `getActivityLevel(totalMessages)`: the level is the number of
      thresholds reached. */
  function GetActivityLevel(total: int): (l: Level)
    ensures l.Ordinal() == Reached(Thresholds, total)
  {
    ReachedThresholds(total);
    if total >= 1000 then Legend
    else if total >= 500 then Expert
    else if total >= 200 then Active
    else if total >= 50 then Regular
    else if total >= 10 then Newcomer
    else Beginner
  }

  lemma ReachedThresholds(total: int)
    ensures Reached(Thresholds, total)
            == (if total >= 10 then 1 else 0) + (if total >= 50 then 1 else 0) + (if total >= 200 then 1 else 0)
               + (if total >= 500 then 1 else 0) + (if total >= 1000 then 1 else 0)
  {
    var t1: seq<int> := [50, 200, 500, 1000];
    var t2: seq<int> := [200, 500, 1000];
    var t3: seq<int> := [500, 1000];
    var t4: seq<int> := [1000];
    assert Thresholds[1..] == t1 && t1[1..] == t2 && t2[1..] == t3 && t3[1..] == t4 && t4[1..] == [];
    assert Reached(t4, total) == (if total >= 1000 then 1 else 0);
    assert Reached(t3, total) == (if total >= 500 then 1 else 0) + Reached(t4, total);
    assert Reached(t2, total) == (if total >= 200 then 1 else 0) + Reached(t3, total);
    assert Reached(t1, total) == (if total >= 50 then 1 else 0) + Reached(t2, total);
  }

  lemma {:induction false} ReachedMonotone(ts: seq<int>, a: int, b: int)
    requires a <= b
    ensures Reached(ts, a) <= Reached(ts, b)
  {
    if ts != [] {
      ReachedMonotone(ts[1..], a, b);
    }
  }

  /** More messages never give a lower level. */
  lemma ActivityLevelMonotone(a: int, b: int)
    requires a <= b
    ensures GetActivityLevel(a).Ordinal() <= GetActivityLevel(b).Ordinal()
  {
    ReachedMonotone(Thresholds, a, b);
  }
}

=== FILE: ranking.dfy ===
/** Per-user totals and their ordering: the leaderboard of `/leaderboard`
    and `getUserRank`. Both sort `Object.entries(userTotals)` with the
    comparator `b - a`, and JavaScript's sort is stable, so users with equal
    totals keep the order of the `messages` map. */
module Ranking {
  import opened Wrappers
  import opened Assoc
  import opened Text
  import opened Document

  /** A user and their total. */
  type Standing = (UserId, int)

  /** `userTotals`: every user's total, in the order of `messages`. */
  function UserTotals(log: MessageLog): (r: seq<Standing>)
    ensures |r| == |log|
    ensures forall i :: 0 <= i < |log| ==> r[i] == (log[i].0, UserTotal(log[i].1))
  {
    MapValues(log, UserTotal)
  }

  predicate NonIncreasing(s: seq<Standing>) {
    forall i, j :: 0 <= i < j < |s| ==> s[i].1 >= s[j].1
  }

  predicate UniqueUsers(s: seq<Standing>) {
    forall a, b :: 0 <= a < b < |s| ==> s[a].0 != s[b].0
  }

  /** Counting standings by their total */

  function Count(s: seq<Standing>, p: int -> bool): nat {
    if s == [] then 0 else (if p(s[0].1) then 1 else 0) + Count(s[1..], p)
  }

  function Above(v: int): int -> bool {
    (t: int) => t > v
  }

  function AtLeast(v: int): int -> bool {
    (t: int) => t >= v
  }

  function Equal(v: int): int -> bool {
    (t: int) => t == v
  }

  lemma {:induction false} CountConcat(a: seq<Standing>, b: seq<Standing>, p: int -> bool)
    ensures Count(a + b, p) == Count(a, p) + Count(b, p)
  {
    if a == [] {
      assert a + b == b;
    } else {
      assert (a + b)[1..] == a[1..] + b;
      CountConcat(a[1..], b, p);
    }
  }

  lemma {:induction false} CountSplit(s: seq<Standing>, v: int)
    ensures Count(s, AtLeast(v)) == Count(s, Above(v)) + Count(s, Equal(v))
  {
    if s != [] {
      CountSplit(s[1..], v);
    }
  }

  /** Stable descending sort */

  /** Where a stable descending sort puts `x` into sorted `s`: after every
      entry whose total is at least `x`'s. */
  function InsertAt(s: seq<Standing>, x: Standing): (p: nat)
    ensures p <= |s|
  {
    if s == [] || s[0].1 < x.1 then 0 else 1 + InsertAt(s[1..], x)
  }

  function Insert(s: seq<Standing>, x: Standing): (r: seq<Standing>)
    ensures |r| == |s| + 1
    ensures forall k :: 0 <= k < |r| ==>
              r[k] == if k < InsertAt(s, x) then s[k] else if k == InsertAt(s, x) then x else s[k - 1]
    ensures multiset(r) == multiset(s) + multiset{x}
  {
    var p := InsertAt(s, x);
    assert s == s[..p] + s[p..];
    s[..p] + [x] + s[p..]
  }

  lemma {:induction false} InsertAtSplit(s: seq<Standing>, x: Standing)
    requires NonIncreasing(s)
    ensures forall k :: 0 <= k < InsertAt(s, x) ==> s[k].1 >= x.1
    ensures forall k :: InsertAt(s, x) <= k < |s| ==> s[k].1 < x.1
    ensures InsertAt(s, x) == Count(s, AtLeast(x.1))
  {
    if s != [] && s[0].1 >= x.1 {
      InsertAtSplit(s[1..], x);
      forall k | 1 <= k < InsertAt(s, x)
        ensures s[k].1 >= x.1
      {
        assert s[k] == s[1..][k - 1];
      }
      forall k | InsertAt(s, x) <= k < |s|
        ensures s[k].1 < x.1
      {
        assert s[k] == s[1..][k - 1];
      }
    } else if s != [] {
      CountNone(s, x.1);
    }
  }

  lemma {:induction false} CountNone(s: seq<Standing>, v: int)
    requires NonIncreasing(s) && s != [] && s[0].1 < v
    ensures Count(s, AtLeast(v)) == 0
    ensures forall k :: 0 <= k < |s| ==> s[k].1 < v
  {
    if |s| > 1 {
      assert s[1..][0] == s[1];
      CountNone(s[1..], v);
    }
  }

  /** `Object.entries(userTotals).sort(([,a], [,b]) => b - a)`, as an
      insertion sort: each entry goes after every earlier entry whose total
      is at least as large. */
  function SortDesc(s: seq<Standing>): (r: seq<Standing>)
    ensures |r| == |s|
    ensures NonIncreasing(r)
    ensures multiset(r) == multiset(s)
  {
    if s == [] then []
    else
      InsertSorted(SortDesc(s[..|s| - 1]), s[|s| - 1]);
      assert s == s[..|s| - 1] + [s[|s| - 1]];
      Insert(SortDesc(s[..|s| - 1]), s[|s| - 1])
  }

  /** Inserting at the insertion point keeps the entries in order. */
  lemma InsertSorted(s: seq<Standing>, x: Standing)
    requires NonIncreasing(s)
    ensures NonIncreasing(Insert(s, x))
  {
    InsertAtSplit(s, x);
  }

  lemma CountInsert(s: seq<Standing>, x: Standing, p: int -> bool)
    ensures Count(Insert(s, x), p) == Count(s, p) + (if p(x.1) then 1 else 0)
  {
    CountAround(s, InsertAt(s, x), x, p);
  }

  lemma CountAround(s: seq<Standing>, q: nat, x: Standing, p: int -> bool)
    requires q <= |s|
    ensures Count(s[..q] + [x] + s[q..], p) == Count(s, p) + (if p(x.1) then 1 else 0)
  {
    assert s[..q] + [x] + s[q..] == s[..q] + ([x] + s[q..]);
    CountConcat(s[..q], [x] + s[q..], p);
    CountCons(x, s[q..], p);
    assert s[..q] + s[q..] == s;
    CountConcat(s[..q], s[q..], p);
  }

  lemma CountCons(x: Standing, t: seq<Standing>, p: int -> bool)
    ensures Count([x] + t, p) == (if p(x.1) then 1 else 0) + Count(t, p)
  {
    assert ([x] + t)[1..] == t;
  }

  lemma SortDescLast(s: seq<Standing>)
    requires s != []
    ensures SortDesc(s) == Insert(SortDesc(s[..|s| - 1]), s[|s| - 1])
  {
  }

  lemma CountLast(s: seq<Standing>, p: int -> bool)
    requires s != []
    ensures Count(s, p) == Count(s[..|s| - 1], p) + (if p(s[|s| - 1].1) then 1 else 0)
  {
    assert s == s[..|s| - 1] + [s[|s| - 1]];
    CountConcat(s[..|s| - 1], [s[|s| - 1]], p);
  }

  lemma {:induction false} CountSorted(s: seq<Standing>, p: int -> bool)
    ensures Count(SortDesc(s), p) == Count(s, p)
  {
    if s != [] {
      var init := s[..|s| - 1];
      var x := s[|s| - 1];
      CountSorted(init, p);
      CountLast(s, p);
      SortDescLast(s);
      CountInsert(SortDesc(init), x, p);
    }
  }

  /** Where the stable sort puts entry `i`: after every entry with a larger
      total and every earlier entry with the same total. */
  function Position(s: seq<Standing>, i: nat): nat
    requires i < |s|
  {
    Count(s, Above(s[i].1)) + Count(s[..i], Equal(s[i].1))
  }

  lemma {:induction false} SortPosition(s: seq<Standing>, i: nat)
    requires i < |s|
    ensures Position(s, i) < |s| && SortDesc(s)[Position(s, i)] == s[i]
    decreases |s|, 1
  {
    if i == |s| - 1 {
      SortPositionLast(s);
    } else {
      SortPositionEarlier(s, i);
    }
  }

  /** The last entry goes to the insertion point, which is the number of
      earlier entries with a total at least as large. */
  lemma SortPositionLast(s: seq<Standing>)
    requires s != []
    ensures Position(s, |s| - 1) < |s| && SortDesc(s)[Position(s, |s| - 1)] == s[|s| - 1]
  {
    var n := |s| - 1;
    var init := s[..n];
    var x := s[n];
    var prev := SortDesc(init);
    var p := InsertAt(prev, x);
    SortDescLast(s);
    InsertAtSplit(prev, x);
    CountLast(s, Above(x.1));
    assert s[..n] == init;
    CountSorted(init, AtLeast(x.1));
    CountSplit(init, x.1);
    assert Position(s, n) == p;
    assert Insert(prev, x)[p] == x;
  }

  /** An earlier entry moves one place down exactly when the last entry has
      a larger total. */
  lemma {:induction false} SortPositionEarlier(s: seq<Standing>, i: nat)
    requires i < |s| - 1
    ensures Position(s, i) < |s| && SortDesc(s)[Position(s, i)] == s[i]
    decreases |s|, 0
  {
    var init := s[..|s| - 1];
    assert init[i] == s[i];
    SortPosition(init, i);
    PositionShift(s, i);
    SortDescLast(s);
    InsertShift(SortDesc(init), s[|s| - 1], Position(init, i));
  }

  lemma PositionShift(s: seq<Standing>, i: nat)
    requires i < |s| - 1
    ensures Position(s, i) == Position(s[..|s| - 1], i) + (if s[|s| - 1].1 > s[i].1 then 1 else 0)
  {
    var init := s[..|s| - 1];
    assert init[i] == s[i];
    assert s[..i] == init[..i];
    CountLast(s, Above(s[i].1));
  }

  lemma InsertShift(s: seq<Standing>, x: Standing, q: nat)
    requires NonIncreasing(s) && q < |s|
    ensures s[q].1 < x.1 ==> Insert(s, x)[q + 1] == s[q]
    ensures s[q].1 >= x.1 ==> Insert(s, x)[q] == s[q]
  {
    InsertAtSplit(s, x);
  }

  /** Sorting keeps the users unique. */
  lemma {:induction false} SortUnique(s: seq<Standing>)
    requires UniqueUsers(s)
    ensures UniqueUsers(SortDesc(s))
  {
    if s != [] {
      assert UniqueUsers(s[..|s| - 1]);
      SortUnique(s[..|s| - 1]);
      SortDescLast(s);
      InsertUnique(SortDesc(s[..|s| - 1]), s[..|s| - 1], s[|s| - 1]);
    }
  }

  /** Inserting a user that the sorted entries do not hold keeps the users
      unique. */
  lemma InsertUnique(prev: seq<Standing>, init: seq<Standing>, x: Standing)
    requires UniqueUsers(prev) && multiset(prev) == multiset(init)
    requires forall j :: 0 <= j < |init| ==> init[j].0 != x.0
    ensures UniqueUsers(Insert(prev, x))
  {
    forall k | 0 <= k < |prev|
      ensures prev[k].0 != x.0
    {
      assert prev[k] in multiset(init);
      var j :| 0 <= j < |init| && init[j] == prev[k];
    }
  }

  /** `sorted.find(entry => entry.userId === userId)`: the first index
      holding the user, or the length. */
  function FindUser(s: seq<Standing>, u: UserId): (k: nat)
    ensures k <= |s|
    ensures k < |s| ==> s[k].0 == u
    ensures forall j :: 0 <= j < k ==> s[j].0 != u
  {
    if s == [] then 0 else if s[0].0 == u then 0 else 1 + FindUser(s[1..], u)
  }

  /** `getUserRank(userId)`: the user's place in the sorted totals, or one
      past the last place for a user without messages. */
  function GetUserRank(log: MessageLog, u: UserId): (rank: nat)
    ensures 1 <= rank <= |log| + 1
  {
    var sorted := SortDesc(UserTotals(log));
    var k := FindUser(sorted, u);
    if k < |sorted| then k + 1 else |sorted| + 1
  }
  /** `getUserRank` reads `data.messages` first: without that map
      `Object.entries` throws. */
  function UserRankIn(doc: Document, u: UserId): (r: Js<nat>)
    ensures r.Returned? <==> doc.messages.Some?
    ensures r.Returned? ==> 1 <= r.value <= |doc.messages.value| + 1
    ensures r.Returned? ==> (r.value == |doc.messages.value| + 1 <==> u !in Keys(doc.messages.value))
  {
    var log :- Need(doc.messages);
    RankOfUntracked(log, u);
    Returned(GetUserRank(log, u))
  }


  /** Sorting neither adds nor drops entries. */
  lemma InSorted(s: seq<Standing>, e: Standing)
    ensures e in SortDesc(s) <==> e in s
  {
    assert e in SortDesc(s) <==> e in multiset(SortDesc(s));
    assert e in s <==> e in multiset(s);
  }

  /** A user has an entry in the sorted totals exactly when they have one
      in `messages`. */
  lemma SortedHasUser(log: MessageLog, u: UserId)
    ensures FindUser(SortDesc(UserTotals(log)), u) < |log| <==> u in Keys(log)
  {
    var totals := UserTotals(log);
    var sorted := SortDesc(totals);
    var k := FindUser(sorted, u);
    KeysIndexed(log);
    if k < |sorted| {
      InSorted(totals, sorted[k]);
      var j :| 0 <= j < |totals| && totals[j] == sorted[k];
      assert Keys(log)[j] == u;
    }
    if u in Keys(log) {
      var j :| 0 <= j < |log| && Keys(log)[j] == u;
      InSorted(totals, totals[j]);
      var k' :| 0 <= k' < |sorted| && sorted[k'] == totals[j];
      assert k <= k';
    }
  }

  /** The rank is one past the last place exactly when the user has no
      entry in `messages`. */
  lemma RankOfUntracked(log: MessageLog, u: UserId)
    ensures GetUserRank(log, u) == |log| + 1 <==> u !in Keys(log)
  {
    SortedHasUser(log, u);
  }

  /** The rank is 1 + the number of users with a larger total + the number
      of users earlier in `messages` with the same total. */
  lemma RankFormula(log: MessageLog, i: nat)
    requires Distinct(log) && i < |log|
    ensures var totals := UserTotals(log);
            GetUserRank(log, log[i].0)
            == 1 + Count(totals, Above(totals[i].1)) + Count(totals[..i], Equal(totals[i].1))
  {
    DistinctIndexed(log);
    assert UniqueUsers(UserTotals(log));
    SortUnique(UserTotals(log));
    SortPosition(UserTotals(log), i);
    FoundAt(SortDesc(UserTotals(log)), Position(UserTotals(log), i), log[i].0);
  }

  /** In entries with unique users, the search finds a user where it is. */
  lemma FoundAt(s: seq<Standing>, q: nat, u: UserId)
    requires UniqueUsers(s) && q < |s| && s[q].0 == u
    ensures FindUser(s, u) == q
  {
  }

  /** Leaderboard */

  /** `interaction.options.getInteger('limit') || 10`. */
  function LimitOf(option: Option<int>): (limit: int)
    ensures option.None? ==> limit == 10
    ensures option.Some? && option.value != 0 ==> limit == option.value
  {
    match option
    case Some(n) => if n == 0 then 10 else n
    case None => 10
  }

  /** The end `Array.prototype.slice(0, end)` uses on a list of `len`
      items: a negative end counts from the back. */
  function SliceEnd(end: int, len: nat): (k: nat)
    ensures k <= len
    ensures end >= 0 ==> k == if end < len then end else len
  {
    if end < 0 then (if len + end < 0 then 0 else len + end)
    else if end < len then end else len
  }

  /** The entries `handleLeaderboard` lists. */
  function Leaderboard(log: MessageLog, limit: Option<int>): (board: seq<Standing>)
    ensures |board| == SliceEnd(LimitOf(limit), |log|)
    ensures NonIncreasing(board)
    ensures forall i :: 0 <= i < |board| ==> board[i] in multiset(UserTotals(log))
  {
    PrefixMembers(SortDesc(UserTotals(log)), UserTotals(log), SliceEnd(LimitOf(limit), |log|));
    SortDesc(UserTotals(log))[..SliceEnd(LimitOf(limit), |log|)]
  }
  /** `handleLeaderboard` reads `data.messages` first: without that map
      `Object.entries` throws. */
  function LeaderboardIn(doc: Document, limit: Option<int>): (r: Js<seq<Standing>>)
    ensures r.Returned? <==> doc.messages.Some?
    ensures r.Returned? ==> |r.value| == SliceEnd(LimitOf(limit), |doc.messages.value|)
    ensures r.Returned? ==> NonIncreasing(r.value)
    ensures r.Returned? ==> forall i :: 0 <= i < |r.value| ==> r.value[i] in multiset(UserTotals(doc.messages.value))
  {
    var log :- Need(doc.messages);
    Returned(Leaderboard(log, limit))
  }


  /** A prefix of a sorted permutation of `t` is sorted and holds entries
      of `t` only. */
  lemma PrefixMembers(s: seq<Standing>, t: seq<Standing>, n: nat)
    requires n <= |s| && NonIncreasing(s) && multiset(s) == multiset(t)
    ensures NonIncreasing(s[..n])
    ensures forall i :: 0 <= i < n ==> s[..n][i] in multiset(t)
  {
    forall i | 0 <= i < n
      ensures s[..n][i] in multiset(t)
    {
      assert s[..n][i] == s[i];
      assert s[i] in multiset(s);
    }
  }

  /** With the limits the command allows (1 to 25) the board has
      min(limit, users) entries, each user once, each with their total. */
  lemma LeaderboardEntries(log: MessageLog, limit: Option<int>)
    requires Distinct(log)
    requires limit.Some? ==> 1 <= limit.value <= 25
    ensures var board := Leaderboard(log, limit);
            var n := if limit.Some? then limit.value else 10;
            && |board| == (if n < |log| then n else |log|)
            && UniqueUsers(board)
            && forall i :: 0 <= i < |board| ==> board[i].1 == UserTotal(DaysOf(log, board[i].0))
  {
    DistinctIndexed(log);
    assert UniqueUsers(UserTotals(log));
    SortUnique(UserTotals(log));
    BoardUnique(log, limit);
    forall i | 0 <= i < |Leaderboard(log, limit)|
      ensures Leaderboard(log, limit)[i].1 == UserTotal(DaysOf(log, Leaderboard(log, limit)[i].0))
    {
      BoardEntry(log, limit, i);
    }
  }

  lemma BoardUnique(log: MessageLog, limit: Option<int>)
    requires UniqueUsers(SortDesc(UserTotals(log)))
    ensures UniqueUsers(Leaderboard(log, limit))
  {
    forall a, b | 0 <= a < b < |Leaderboard(log, limit)|
      ensures Leaderboard(log, limit)[a].0 != Leaderboard(log, limit)[b].0
    {
      BoardIsSorted(log, limit, a);
      BoardIsSorted(log, limit, b);
    }
  }

  lemma BoardEntry(log: MessageLog, limit: Option<int>, i: nat)
    requires Distinct(log) && i < |Leaderboard(log, limit)|
    ensures Leaderboard(log, limit)[i].1 == UserTotal(DaysOf(log, Leaderboard(log, limit)[i].0))
  {
    var totals := UserTotals(log);
    var e := Leaderboard(log, limit)[i];
    assert e in multiset(totals);
    var j :| 0 <= j < |totals| && totals[j] == e;
    GetIndexed(log, j);
  }

  /** Entry `i` of the board is the user `getUserRank` places at `i + 1`. */
  lemma LeaderboardMatchesRank(log: MessageLog, limit: Option<int>, i: nat)
    requires Distinct(log) && i < |Leaderboard(log, limit)|
    ensures GetUserRank(log, Leaderboard(log, limit)[i].0) == i + 1
  {
    DistinctIndexed(log);
    assert UniqueUsers(UserTotals(log));
    SortUnique(UserTotals(log));
    BoardIsSorted(log, limit, i);
    FoundAt(SortDesc(UserTotals(log)), i, Leaderboard(log, limit)[i].0);
  }

  lemma BoardIsSorted(log: MessageLog, limit: Option<int>, i: nat)
    requires i < |Leaderboard(log, limit)|
    ensures Leaderboard(log, limit)[i] == SortDesc(UserTotals(log))[i]
  {
  }

  const Medals: seq<string> := ["\U{1F947}", "\U{1F948}", "\U{1F949}"]

  /** `medals[index] || \`${index + 1}.\``: a medal for the first three
      places, the place number and a dot after that. */
  function PositionLabel(i: nat): (tag: string)
    ensures i < 3 ==> tag == Medals[i]
    ensures i >= 3 ==> |tag| >= 2 && tag[|tag| - 1] == '.' && AllDigits(tag[..|tag| - 1])
  {
    if i < 3 then Medals[i] else NatToString(i + 1) + "."
  }

  /** No two places share a label. */
  lemma PositionLabelInjective(i: nat, j: nat)
    requires i != j
    ensures PositionLabel(i) != PositionLabel(j)
  {
    if i >= 3 && j >= 3 {
      if PositionLabel(i) == PositionLabel(j) {
        LabelNumber(i);
        LabelNumber(j);
        NatToStringInjective(i + 1, j + 1);
      }
    } else if i >= 3 {
      MedalIsNotNumber(j, i);
    } else if j >= 3 {
      MedalIsNotNumber(i, j);
    }
  }

  /** A numbered label is the place number with a dot after it. */
  lemma LabelNumber(i: nat)
    requires i >= 3
    ensures PositionLabel(i)[..|PositionLabel(i)| - 1] == NatToString(i + 1)
  {
    assert (NatToString(i + 1) + ".")[..|NatToString(i + 1)|] == NatToString(i + 1);
  }

  /** A medal does not end with a dot, so it is no numbered label. */
  lemma MedalIsNotNumber(m: nat, k: nat)
    requires m < 3 <= k
    ensures PositionLabel(m) != PositionLabel(k)
  {
    assert PositionLabel(k)[|PositionLabel(k)| - 1] == '.';
    assert Medals[m][|Medals[m]| - 1] != '.';
  }
}

=== FILE: scheduler.dfy ===
/** The daily report: the once-a-minute check of the wall clock against the
    report time, and the figures the report shows. */
module Scheduler {
  import opened Wrappers
  import opened Assoc
  import opened Text
  import opened Dates
  import opened Document
  import opened Storage
  import opened Tracker
  import opened Counts
  import opened Invariants
  import opened Views

  /** The local hour and minute, as `getHours` and `getMinutes` give them. */
  type Hour = h: nat | h < 24
  type Minute = m: nat | m < 60

  /** The constructor's report time; nothing changes it. */
  const ReportTime := "18:00"

  /** `HH:MM`: both parts zero-padded to two digits. */
  function TimeString(h: Hour, m: Minute): (r: string)
    ensures r == [DigitChar(h / 10), DigitChar(h % 10), ':', DigitChar(m / 10), DigitChar(m % 10)]
  {
    Pad2TwoDigits(h);
    Pad2TwoDigits(m);
    JoinClock(DigitChar(h / 10), DigitChar(h % 10), DigitChar(m / 10), DigitChar(m % 10));
    Pad2(NatToString(h)) + ":" + Pad2(NatToString(m))
  }

  lemma JoinClock(a: char, b: char, c: char, d: char)
    ensures [a, b] + ":" + [c, d] == [a, b, ':', c, d]
  {
  }

  lemma DigitCharInjective(a: nat, b: nat)
    requires a < 10 && b < 10 && DigitChar(a) == DigitChar(b)
    ensures a == b
  {
  }

  /** Different minutes of the day give different time strings. */
  lemma TimeStringInjective(h: Hour, m: Minute, h': Hour, m': Minute)
    requires TimeString(h, m) == TimeString(h', m')
    ensures h == h' && m == m'
  {
    var s := TimeString(h, m);
    var s' := TimeString(h', m');
    assert s[0] == s'[0] && s[1] == s'[1] && s[3] == s'[3] && s[4] == s'[4];
    DigitCharInjective(h / 10, h' / 10);
    DigitCharInjective(h % 10, h' % 10);
    DigitCharInjective(m / 10, m' / 10);
    DigitCharInjective(m % 10, m' % 10);
  }

  /** The report time is the time string of 18:00 and of no other minute. */
  lemma ReportTimeAt(h: Hour, m: Minute)
    ensures TimeString(h, m) == ReportTime <==> h == 18 && m == 0
  {
    var t := TimeString(18, 0);
    assert t[0] == '1' && t[1] == '8' && t[2] == ':' && t[3] == '0' && t[4] == '0';
    assert t == ReportTime;
    if TimeString(h, m) == ReportTime {
      TimeStringInjective(h, m, 18, 0);
    }
  }

  /** `checkDailyReport()`: whether the report is sent this minute. Nothing
      happens without a report channel (`null` and `""` are both unset);
      with one, the report goes out exactly at 18:00. */
  function CheckDailyReport(channel: Option<string>, h: Hour, m: Minute): (send: bool)
    ensures send <==> channel.Some? && channel.value != "" && h == 18 && m == 0
  {
    ReportTimeAt(h, m);
    channel.Some? && channel.value != "" && TimeString(h, m) == ReportTime
  }

  /** The figures of `sendDailyReport()`: yesterday's stats and events, absent
      ones read as zeros. An exception is logged and no report is sent
      (`None`). */
  function DailyReport(doc: Document, today: Day): (r: Option<DaySummary>)
    ensures r.Some? <==> SummarizeDay(doc, today - 1).Returned?
    ensures r.Some? ==> r.value == SummarizeDay(doc, today - 1).value
  {
    match SummarizeDay(doc, today - 1)
    case Returned(summary) => Some(summary)
    case Threw => None
  }

  /** On a consistent document the report shows yesterday's log: the sum of
      the users' counts and the number of users who wrote. */
  lemma ReportOfConsistent(doc: Document, today: Day)
    requires Consistent(doc) && doc.memberEvents.Some?
    ensures DailyReport(doc, today).Some?
    ensures DailyReport(doc, today).value.totalMessages == DayTotal(doc.messages.value, today - 1)
    ensures DailyReport(doc, today).value.activeUsers == |ActiveOn(doc.messages.value, today - 1)|
  {
    SummaryOfConsistent(doc, today - 1);
  }

  /** Tracking a message today, with a copying save, leaves yesterday's
      figures alone. */
  lemma TodayLeavesReport(doc: Document, u: UserId, today: Day, now: Timestamp)
    requires u != ""
    ensures DailyReport(TrackMessage(CopyingSave, doc, Some(u), today, now).memory, today) == DailyReport(doc, today)
  {
    TrackKeepsOtherDays(doc, u, today, now, today - 1);
    SameDaySummary(TrackMessage(CopyingSave, doc, Some(u), today, now).memory, doc, today - 1);
  }

  /** A message tracked with a copying save changes no other day's stats
      and no member events. */
  lemma TrackKeepsOtherDays(doc: Document, u: UserId, today: Day, now: Timestamp, d: Day)
    requires u != "" && d != today
    ensures TrackMessage(CopyingSave, doc, Some(u), today, now).memory.memberEvents == doc.memberEvents
    ensures TrackMessage(CopyingSave, doc, Some(u), today, now).memory.dailyStats.Some? == doc.dailyStats.Some?
    ensures doc.dailyStats.Some? ==>
              Get(TrackMessage(CopyingSave, doc, Some(u), today, now).memory.dailyStats.value, d)
              == Get(doc.dailyStats.value, d)
  {
    assert TrackMessage(CopyingSave, doc, Some(u), today, now).memory == RecordMessage(doc, u, today, now).doc;
  }

  /** The day's figures read only the day's stats and events. */
  lemma SameDaySummary(m: Document, doc: Document, d: Day)
    requires m.memberEvents == doc.memberEvents && m.dailyStats.Some? == doc.dailyStats.Some?
    requires doc.dailyStats.Some? ==> Get(m.dailyStats.value, d) == Get(doc.dailyStats.value, d)
    ensures SummarizeDay(m, d) == SummarizeDay(doc, d)
  {
  }

  /** With the as-written save, once a save has happened the report of a
      day that has stats is lost. */
  lemma ReportLostAfterAliasedSave(doc: Document, today: Day)
    requires doc.dailyStats.Some? && Get(doc.dailyStats.value, today - 1).Some?
    ensures DailyReport(SaveData(AliasedSave, doc).memory, today).None?
  {
    SummaryAfterAliasedSave(doc, today - 1);
  }
}

=== FILE: storage.dfy ===
/** The storage boundary: `saveData` turns every `activeUsers` Set into an
    Array before writing the JSON file, and `loadData` turns Arrays back into
    Sets. The file is modelled as the document value it holds; reading and
    writing bytes is not modelled. */
module Storage {
  import opened Wrappers
  import opened Assoc
  import opened Document

  /** `new Set(array)`: the first occurrence of each element, in order. */
  function Dedup(xs: seq<UserId>): (r: seq<UserId>)
    ensures NoDuplicates(r)
    ensures forall u :: u in r <==> u in xs
  {
    if xs == [] then []
    else
      var p := Dedup(xs[..|xs| - 1]);
      var x := xs[|xs| - 1];
      if x in p then p else p + [x]
  }

  /** The conversion `saveData` applies to an `activeUsers` that is a Set. */
  function ToArray(c: UserCollection): (r: UserCollection)
    ensures r.JsArray? && r.Elements() == c.Elements()
  {
    JsArray(c.Elements())
  }

  /** The conversion `loadData` applies to an `activeUsers` that is an Array. */
  function ToSet(c: UserCollection): (r: UserCollection)
    ensures r.JsSet? && NoDuplicates(r.Elements())
    ensures c.JsSet? && NoDuplicates(c.Elements()) ==> r == c
    ensures r.Users() == c.Users()
  {
    match c
    case JsArray(xs) => JsSet(Dedup(xs))
    case JsSet(ms) => if NoDuplicates(ms) then c else JsSet(Dedup(ms))
  }

  function DailyToArrays(s: DailyStat): DailyStat {
    s.(activeUsers := ToArray(s.activeUsers))
  }

  function WeeklyToArrays(s: WeeklyStat): WeeklyStat {
    s.(activeUsers := ToArray(s.activeUsers))
  }

  function DailyToSets(s: DailyStat): DailyStat {
    s.(activeUsers := ToSet(s.activeUsers))
  }

  function WeeklyToSets(s: WeeklyStat): WeeklyStat {
    s.(activeUsers := ToSet(s.activeUsers))
  }

  /** Every `activeUsers` in the document is a duplicate-free Set. */
  predicate SetsOnly(doc: Document) {
    && (doc.dailyStats.Some? ==> forall i :: 0 <= i < |doc.dailyStats.value| ==>
          doc.dailyStats.value[i].1.activeUsers.JsSet? && NoDuplicates(doc.dailyStats.value[i].1.activeUsers.Elements()))
    && (doc.weeklyStats.Some? ==> forall i :: 0 <= i < |doc.weeklyStats.value| ==>
          doc.weeklyStats.value[i].1.activeUsers.JsSet? && NoDuplicates(doc.weeklyStats.value[i].1.activeUsers.Elements()))
  }

  /** Every `activeUsers` in the document is an Array. */
  predicate ArraysOnly(doc: Document) {
    && (doc.dailyStats.Some? ==> forall i :: 0 <= i < |doc.dailyStats.value| ==>
          doc.dailyStats.value[i].1.activeUsers.JsArray?)
    && (doc.weeklyStats.Some? ==> forall i :: 0 <= i < |doc.weeklyStats.value| ==>
          doc.weeklyStats.value[i].1.activeUsers.JsArray?)
  }

  /** The document as `saveData` writes it: every Set replaced by an Array
      with the same elements in the same order, everything else as it was. */
  function Serialized(doc: Document): (r: Document)
    ensures ArraysOnly(r)
    ensures r.messages == doc.messages && r.memberEvents == doc.memberEvents
    ensures r.lastUpdate == doc.lastUpdate
    ensures r.dailyStats.Some? == doc.dailyStats.Some? && r.weeklyStats.Some? == doc.weeklyStats.Some?
  {
    doc.(dailyStats := if doc.dailyStats.Some? then Some(MapValues(doc.dailyStats.value, DailyToArrays)) else None,
         weeklyStats := if doc.weeklyStats.Some? then Some(MapValues(doc.weeklyStats.value, WeeklyToArrays)) else None)
  }

  /** How `saveData` treats the in-memory document. The source spreads the
      document into a new object, but the spread copies only the top level:
      `dailyStats` and `weeklyStats` are shared, so the conversion rewrites
      the in-memory entries too (`AliasedSave`). `CopyingSave` is the evident
      intent: the written file is converted, memory keeps its Sets. */
  datatype SaveMode = AliasedSave | CopyingSave

  /** The in-memory document after an operation, and the document it wrote
      to the data file, if it saved. */
  datatype Effect = Effect(memory: Document, written: Option<Document>)

  /** `saveData()`. A failing write is logged and changes nothing else, so it
      is not distinguished. */
  function SaveData(mode: SaveMode, doc: Document): (e: Effect)
    ensures e.written == Some(Serialized(doc))
    ensures mode.AliasedSave? ==> e.memory == e.written.value
    ensures mode.CopyingSave? ==> e.memory == doc
  {
    match mode
    case AliasedSave => Effect(Serialized(doc), Some(Serialized(doc)))
    case CopyingSave => Effect(doc, Some(Serialized(doc)))
  }

  /** The loaded daily map keeps every stored date, in order, with its
      total and its users. */
  predicate DailyLoaded(stored: DailyMap, loaded: DailyMap) {
    && |loaded| == |stored|
    && forall i :: 0 <= i < |stored| ==>
         && loaded[i].0 == stored[i].0
         && loaded[i].1.totalMessages == stored[i].1.totalMessages
         && loaded[i].1.activeUsers.Users() == stored[i].1.activeUsers.Users()
  }

  /** The same for weeks, whose per-user counts are kept as well. */
  predicate WeeklyLoaded(stored: WeeklyMap, loaded: WeeklyMap) {
    && |loaded| == |stored|
    && forall i :: 0 <= i < |stored| ==>
         && loaded[i].0 == stored[i].0
         && loaded[i].1.totalMessages == stored[i].1.totalMessages
         && loaded[i].1.activeUsers.Users() == stored[i].1.activeUsers.Users()
         && loaded[i].1.userMessages == stored[i].1.userMessages
  }

  /** What `loadData` finds: no file, a file `JSON.parse` rejects, or a
      parsed document. */
  datatype StoredFile = NoFile | Unparseable | Stored(json: Document)

  /** `loadData()`: the parsed document with every Array turned into a Set,
      or the empty document when there is no usable file. */
  function LoadData(file: StoredFile, now: Timestamp): (doc: Document)
    ensures !file.Stored? ==> doc == EmptyDocument(now)
    ensures SetsOnly(doc)
    ensures file.Stored? ==> doc.messages == file.json.messages && doc.memberEvents == file.json.memberEvents
    ensures file.Stored? ==> doc.lastUpdate == file.json.lastUpdate
    ensures file.Stored? ==> doc.dailyStats.Some? == file.json.dailyStats.Some?
    ensures file.Stored? ==> doc.weeklyStats.Some? == file.json.weeklyStats.Some?
    ensures file.Stored? && file.json.dailyStats.Some? ==>
      doc.dailyStats.Some? && DailyLoaded(file.json.dailyStats.value, doc.dailyStats.value)
    ensures file.Stored? && file.json.weeklyStats.Some? ==>
      doc.weeklyStats.Some? && WeeklyLoaded(file.json.weeklyStats.value, doc.weeklyStats.value)
  {
    match file
    case Stored(json) =>
      json.(dailyStats := if json.dailyStats.Some? then Some(MapValues(json.dailyStats.value, DailyToSets)) else None,
            weeklyStats := if json.weeklyStats.Some? then Some(MapValues(json.weeklyStats.value, WeeklyToSets)) else None)
    case _ => EmptyDocument(now)
  }

  /** Lemmas */

  lemma {:induction false} DedupOfDistinct(xs: seq<UserId>)
    requires NoDuplicates(xs)
    ensures Dedup(xs) == xs
  {
    if xs != [] {
      DedupOfDistinct(xs[..|xs| - 1]);
    }
  }

  /** Saving a document of duplicate-free Sets and loading the file gives
      the same document back: set contents and insertion order survive. */
  lemma LoadAfterSave(doc: Document, now: Timestamp)
    requires SetsOnly(doc)
    ensures LoadData(Stored(Serialized(doc)), now) == doc
  {
    if doc.dailyStats.Some? {
      var m := doc.dailyStats.value;
      forall i | 0 <= i < |m|
        ensures DailyToSets(DailyToArrays(m[i].1)) == m[i].1
      {
        DedupOfDistinct(m[i].1.activeUsers.Elements());
      }
      MapValuesInverse(m, DailyToArrays, DailyToSets);
    }
    if doc.weeklyStats.Some? {
      var m := doc.weeklyStats.value;
      forall i | 0 <= i < |m|
        ensures WeeklyToSets(WeeklyToArrays(m[i].1)) == m[i].1
      {
        DedupOfDistinct(m[i].1.activeUsers.Elements());
      }
      MapValuesInverse(m, WeeklyToArrays, WeeklyToSets);
    }
  }

  /** With the copying save, what was written loads back as what is in
      memory. */
  lemma CopyingSaveRoundTrip(doc: Document, now: Timestamp)
    requires SetsOnly(doc)
    ensures LoadData(Stored(SaveData(CopyingSave, doc).written.value), now)
            == SaveData(CopyingSave, doc).memory
  {
    LoadAfterSave(doc, now);
  }
}

=== FILE: text.dfy ===
/** The JavaScript string operations the bot relies on: `trim`,
    `split(/ +/)`, `toLowerCase`, `Number.prototype.toString` for integers,
    `padStart(2, '0')` and the `/^\d+$/` test. Strings are sequences of
    Unicode scalar values. */
module Text {

  predicate IsDigit(c: char) {
    '0' <= c <= '9'
  }

  /** `/^\d+$/.test(s)`: non-empty and ASCII digits only (`\d` without the
      `u` flag, and `$` matches only at the very end of the input). */
  predicate AllDigits(s: string) {
    |s| > 0 && forall i :: 0 <= i < |s| ==> IsDigit(s[i])
  }

  function DigitChar(d: nat): (c: char)
    requires d < 10
    ensures IsDigit(c)
  {
    ('0' as int + d) as char
  }

  function DigitValue(c: char): nat
    requires IsDigit(c)
  {
    (c as int - '0' as int) as nat
  }

  /** Decimal rendering of a non-negative integer, without leading zeros. */
  function NatToString(n: nat): (s: string)
    ensures AllDigits(s)
    ensures s[0] == '0' ==> n == 0
    decreases n
  {
    if n < 10 then [DigitChar(n)] else NatToString(n / 10) + [DigitChar(n % 10)]
  }

  /** The value of a string of decimal digits. */
  function DigitsValue(s: string): nat
    requires forall i :: 0 <= i < |s| ==> IsDigit(s[i])
  {
    if s == [] then 0 else 10 * DigitsValue(s[..|s| - 1]) + DigitValue(s[|s| - 1])
  }

  /** `String(i)` for an integer (magnitudes below 10^21, where JavaScript
      switches to exponent notation, are the only ones the bot produces). */
  function IntToString(i: int): (s: string)
    ensures |s| > 0
    ensures s[0] == '-' <==> i < 0
    ensures i >= 0 ==> s == NatToString(i)
    ensures i < 0 ==> s == "-" + NatToString(-i)
  {
    if i < 0 then "-" + NatToString(-i) else NatToString(i)
  }

  /** `s.padStart(width, '0')`: zeros in front up to `width` characters. */
  function PadStart(s: string, width: nat): (r: string)
    ensures |r| == if |s| < width then width else |s|
    ensures r[|r| - |s|..] == s
    ensures forall k :: 0 <= k < |r| - |s| ==> r[k] == '0'
  {
    if |s| >= width then s else seq(width - |s|, _ => '0') + s
  }

  /** `s.padStart(2, '0')`, as the scheduler formats hours and minutes. */
  function Pad2(s: string): string {
    PadStart(s, 2)
  }

  /** JavaScript's WhiteSpace and LineTerminator characters: what `trim`
      removes. */
  predicate IsJsSpace(c: char) {
    || c == ' ' || c == '\t' || c == '\n' || c == '\r'
    || c == '\U{000B}' || c == '\U{000C}' || c == '\U{00A0}' || c == '\U{FEFF}'
    || c == '\U{1680}' || ('\U{2000}' <= c <= '\U{200A}')
    || c == '\U{2028}' || c == '\U{2029}' || c == '\U{202F}' || c == '\U{205F}'
    || c == '\U{3000}'
  }

  function TrimStart(s: string): (r: string)
    ensures |r| <= |s| && r == s[|s| - |r|..]
    ensures forall k :: 0 <= k < |s| - |r| ==> IsJsSpace(s[k])
    ensures r == [] || !IsJsSpace(r[0])
  {
    if s != [] && IsJsSpace(s[0]) then TrimStart(s[1..]) else s
  }

  function TrimEnd(s: string): (r: string)
    ensures |r| <= |s| && r == s[..|r|]
    ensures forall k :: |r| <= k < |s| ==> IsJsSpace(s[k])
    ensures r == [] || !IsJsSpace(r[|r| - 1])
  {
    if s != [] && IsJsSpace(s[|s| - 1]) then TrimEnd(s[..|s| - 1]) else s
  }

  /** `r` is the slice of `s` starting at `i`, and everything of `s` around
      it is white space. */
  ghost predicate SliceAmidSpace(s: string, r: string, i: int) {
    && 0 <= i && i + |r| <= |s| && r == s[i..i + |r|]
    && (forall k :: 0 <= k < i ==> IsJsSpace(s[k]))
    && (forall k :: i + |r| <= k < |s| ==> IsJsSpace(s[k]))
  }

  /** `s.trim()`: the longest slice of `s` that neither starts nor ends with
      white space; only white space is removed. */
  function Trim(s: string): (r: string)
    ensures exists i :: SliceAmidSpace(s, r, i)
    ensures r == [] || (!IsJsSpace(r[0]) && !IsJsSpace(r[|r| - 1]))
  {
    var a := TrimStart(s);
    var r := TrimEnd(a);
    assert SliceAmidSpace(s, r, |s| - |a|);
    r
  }

  /** Index of the first space of a string that has one. */
  function FirstSpace(s: string): (i: nat)
    requires ' ' in s
    ensures i < |s| && s[i] == ' ' && ' ' !in s[..i]
  {
    if s[0] == ' ' then 0 else 1 + FirstSpace(s[1..])
  }

  /** Index just past the run of spaces that starts at `i`. */
  function EndOfRun(s: string, i: nat): (j: nat)
    requires i <= |s|
    ensures i <= j <= |s|
    ensures forall k :: i <= k < j ==> s[k] == ' '
    ensures j == |s| || s[j] != ' '
    decreases |s| - i
  {
    if i < |s| && s[i] == ' ' then EndOfRun(s, i + 1) else i
  }

  /** `s.split(/ +/)`: the pieces between maximal runs of spaces (only
      U+0020; a tab is not a separator). Leading or trailing runs give an
      empty first or last piece. */
  function SplitSpaces(s: string): (parts: seq<string>)
    ensures |parts| >= 1
    ensures forall i :: 0 <= i < |parts| ==> ' ' !in parts[i]
    decreases |s|
  {
    if ' ' !in s then [s]
    else
      var i := FirstSpace(s);
      var j := EndOfRun(s, i);
      [s[..i]] + SplitSpaces(s[j..])
  }

  /** `parts.join(' ')`. */
  function JoinSpaces(parts: seq<string>): string
    requires |parts| >= 1
  {
    if |parts| == 1 then parts[0] else parts[0] + " " + JoinSpaces(parts[1..])
  }

  /** `toLowerCase` on ASCII letters; every other character is kept. */
  function LowerChar(c: char): char {
    if 'A' <= c <= 'Z' then (c as int + 32) as char else c
  }

  function ToLower(s: string): (r: string)
    ensures |r| == |s|
    ensures forall i :: 0 <= i < |s| ==> r[i] == LowerChar(s[i])
  {
    seq(|s|, i requires 0 <= i < |s| => LowerChar(s[i]))
  }

  /** Lemmas */

  /** Reading the digits back gives the number: the rendering loses nothing. */
  lemma {:induction false} NatToStringRoundTrip(n: nat)
    ensures DigitsValue(NatToString(n)) == n
    decreases n
  {
    var s := NatToString(n);
    if n >= 10 {
      NatToStringRoundTrip(n / 10);
      assert s[..|s| - 1] == NatToString(n / 10);
    }
  }

  /** Two distinct numbers never render the same. */
  lemma NatToStringInjective(a: nat, b: nat)
    requires NatToString(a) == NatToString(b)
    ensures a == b
  {
    NatToStringRoundTrip(a);
    NatToStringRoundTrip(b);
  }

  function Pow10(w: nat): (p: nat)
    ensures p >= 1
  {
    if w == 0 then 1 else 10 * Pow10(w - 1)
  }

  /** A number below 10^w has at most `w` digits. */
  lemma {:induction false} NatToStringWidth(n: nat, w: nat)
    requires w >= 1 && n < Pow10(w)
    ensures |NatToString(n)| <= w
    decreases w
  {
    if n >= 10 {
      NatToStringWidth(n / 10, w - 1);
    }
  }

  /** Leading zeros do not change the value of a digit string. */
  lemma {:induction false} LeadingZeros(z: string, s: string)
    requires forall k :: 0 <= k < |z| ==> z[k] == '0'
    requires forall k :: 0 <= k < |s| ==> IsDigit(s[k])
    ensures forall k :: 0 <= k < |z + s| ==> IsDigit((z + s)[k])
    ensures DigitsValue(z + s) == DigitsValue(s)
    decreases |z| + |s|
  {
    if s == [] {
      assert z + s == z;
      if z != [] {
        LeadingZeros(z[..|z| - 1], s);
        assert z[..|z| - 1] + s == z[..|z| - 1];
      }
    } else {
      LeadingZeros(z, s[..|s| - 1]);
      assert (z + s)[..|z + s| - 1] == z + s[..|s| - 1];
    }
  }

  /** Padding a digit string with zeros keeps it a digit string of the same
      value. */
  lemma PaddedValue(s: string, width: nat)
    requires AllDigits(s)
    ensures AllDigits(PadStart(s, width)) && DigitsValue(PadStart(s, width)) == DigitsValue(s)
  {
    if |s| < width {
      LeadingZeros(seq(width - |s|, _ => '0'), s);
    }
  }

  /** A number below 100 padded to two places is its two decimal digits. */
  lemma {:induction false} Pad2TwoDigits(n: nat)
    requires n < 100
    ensures Pad2(NatToString(n)) == [DigitChar(n / 10), DigitChar(n % 10)]
  {
    if n >= 10 {
      assert NatToString(n / 10) == [DigitChar(n / 10)];
    }
  }

  /** Trimming twice is trimming once. */
  lemma TrimIdempotent(s: string)
    ensures Trim(Trim(s)) == Trim(s)
  {
  }

  /** Lower-casing twice is lower-casing once. */
  lemma ToLowerIdempotent(s: string)
    ensures ToLower(ToLower(s)) == ToLower(s)
  {
  }

  /** Joining pieces without spaces (and no empty piece in the middle) with
      single spaces and splitting again gives the pieces back. */
  lemma {:induction false} SplitJoin(parts: seq<string>)
    requires |parts| >= 1
    requires forall i :: 0 <= i < |parts| ==> ' ' !in parts[i]
    requires forall i :: 0 < i < |parts| - 1 ==> parts[i] != []
    ensures SplitSpaces(JoinSpaces(parts)) == parts
  {
    if |parts| > 1 {
      var s := JoinSpaces(parts);
      var rest := JoinSpaces(parts[1..]);
      assert s == parts[0] + " " + rest;
      assert ' ' in s by { assert s[|parts[0]|] == ' '; }
      var i := FirstSpace(s);
      assert i == |parts[0]| by {
        assert s[|parts[0]|] == ' ';
        assert s[..|parts[0]|] == parts[0];
      }
      var j := EndOfRun(s, i);
      if |parts| > 2 {
        assert parts[1] != [];
        assert rest[0] == parts[1][0];
        assert s[i + 1] == rest[0];
      } else {
        assert rest == parts[1];
        if parts[1] != [] {
          assert s[i + 1] == rest[0];
        }
      }
      assert j == i + 1;
      assert s[j..] == rest;
      assert s[..i] == parts[0];
      SplitJoin(parts[1..]);
    }
  }

  lemma JoinCons(a: string, parts: seq<string>)
    requires |parts| >= 1
    ensures JoinSpaces([a] + parts) == a + " " + JoinSpaces(parts)
  {
    assert ([a] + parts)[1..] == parts;
  }

  /** No two adjacent spaces. */
  predicate NoDoubleSpace(s: string) {
    |s| < 2 || (!(s[0] == ' ' && s[1] == ' ') && NoDoubleSpace(s[1..]))
  }

  lemma {:induction false} NoDoubleSpaceAt(s: string, i: nat)
    requires NoDoubleSpace(s)
    requires i + 1 < |s| && s[i] == ' '
    ensures s[i + 1] != ' '
    ensures NoDoubleSpace(s[i + 1..])
  {
    if i > 0 {
      NoDoubleSpaceAt(s[1..], i - 1);
      assert s[1..][i..] == s[i + 1..];
    }
  }

  /** Splitting a string with no double space and joining the pieces again
      gives the string back. */
  lemma {:induction false} JoinSplit(s: string)
    requires NoDoubleSpace(s)
    ensures JoinSpaces(SplitSpaces(s)) == s
    decreases |s|
  {
    if ' ' in s {
      var i := FirstSpace(s);
      var j := EndOfRun(s, i);
      var tail := s[i + 1..];
      if i + 1 < |s| {
        NoDoubleSpaceAt(s, i);
      }
      assert j == i + 1;
      JoinSplit(tail);
      JoinCons(s[..i], SplitSpaces(tail));
      assert s == s[..i] + " " + tail;
    }
  }

  /** A non-empty run of spaces. */
  predicate SpaceRun(r: string) {
    |r| >= 1 && forall k :: 0 <= k < |r| ==> r[k] == ' '
  }

  /** Pieces joined by the given runs of spaces, one run between each two. */
  function JoinRuns(parts: seq<string>, runs: seq<string>): string
    requires |parts| >= 1 && |runs| == |parts| - 1
  {
    if |parts| == 1 then parts[0] else parts[0] + runs[0] + JoinRuns(parts[1..], runs[1..])
  }

  /** A whole run of spaces, however long, is one separator: the piece
      before it is cut off and splitting carries on after it. */
  lemma SplitRun(a: string, r: string, b: string)
    requires ' ' !in a && SpaceRun(r)
    requires b == [] || b[0] != ' '
    ensures SplitSpaces(a + r + b) == [a] + SplitSpaces(b)
  {
    var s := a + r + b;
    assert s[|a|] == ' ';
    assert forall k :: 0 <= k < |a| ==> s[k] == a[k];
    var i := FirstSpace(s);
    assert i <= |a| by {
      assert forall k :: 0 <= k < i ==> s[..i][k] == s[k];
    }
    var j := EndOfRun(s, i);
    assert forall k :: |a| <= k < |a| + |r| ==> s[k] == r[k - |a|];
    assert b != [] ==> s[|a| + |r|] == b[0];
    assert s[..i] == a;
    assert s[j..] == b;
  }

  /** Pieces without spaces (no empty one in the middle) joined by any runs
      of spaces split back into the same pieces. */
  lemma {:induction false} SplitJoinRuns(parts: seq<string>, runs: seq<string>)
    requires |parts| >= 1 && |runs| == |parts| - 1
    requires forall i :: 0 <= i < |parts| ==> ' ' !in parts[i]
    requires forall i :: 0 < i < |parts| - 1 ==> parts[i] != []
    requires forall i :: 0 <= i < |runs| ==> SpaceRun(runs[i])
    ensures SplitSpaces(JoinRuns(parts, runs)) == parts
  {
    if |parts| > 1 {
      var rest := JoinRuns(parts[1..], runs[1..]);
      if |parts| > 2 {
        assert parts[1] != [];
        assert rest[0] == parts[1][0];
      } else {
        assert rest == parts[1];
      }
      assert parts[0] in parts;
      SplitRun(parts[0], runs[0], rest);
      SplitJoinRuns(parts[1..], runs[1..]);
    }
  }

  /** The string joined by runs starts with the first piece and ends with
      the last. */
  lemma {:induction false} JoinRunsEnds(parts: seq<string>, runs: seq<string>)
    requires |parts| >= 1 && |runs| == |parts| - 1
    ensures var s := JoinRuns(parts, runs);
            && |s| >= |parts[0]| && s[..|parts[0]|] == parts[0]
            && |s| >= |parts[|parts| - 1]| && s[|s| - |parts[|parts| - 1]|..] == parts[|parts| - 1]
  {
    if |parts| > 1 {
      JoinRunsEnds(parts[1..], runs[1..]);
    }
  }

  /** A string that neither starts nor ends with white space is its own
      trim. */
  lemma TrimOfTrimmed(s: string)
    requires s != [] && !IsJsSpace(s[0]) && !IsJsSpace(s[|s| - 1])
    ensures Trim(s) == s
  {
    assert TrimStart(s) == s;
    assert TrimEnd(s) == s;
  }

  /** The joined string starts with the first piece and ends with the last. */
  lemma {:induction false} JoinEnds(parts: seq<string>)
    requires |parts| >= 1
    ensures var s := JoinSpaces(parts);
            && |s| >= |parts[0]| && s[..|parts[0]|] == parts[0]
            && |s| >= |parts[|parts| - 1]| && s[|s| - |parts[|parts| - 1]|..] == parts[|parts| - 1]
  {
    if |parts| > 1 {
      JoinEnds(parts[1..]);
      assert JoinSpaces(parts) == parts[0] + " " + JoinSpaces(parts[1..]);
    }
  }

  /** Numbers are written on one line. */
  lemma IntToStringOneLine(i: int)
    ensures '\n' !in IntToString(i)
  {
    var digits := NatToString(if i < 0 then -i else i);
    assert forall k :: 0 <= k < |digits| ==> digits[k] != '\n';
  }

  /** Padding with zeros adds no line break. */
  lemma PadStartOneLine(s: string, width: nat)
    requires '\n' !in s
    ensures '\n' !in PadStart(s, width)
  {
    var r := PadStart(s, width);
    forall k | 0 <= k < |r| ensures r[k] != '\n' {
      if k >= |r| - |s| {
        assert r[k] == r[|r| - |s|..][k - (|r| - |s|)];
      }
    }
  }
}

=== FILE: tracker.dfy ===
/** Event recording: `trackMessage`, `updateWeeklyStats`, `getWeekKey`,
    `getWeeklyStats`, `trackMemberJoin` and `trackMemberLeave`. "Today" and
    "now" are parameters. The source mutates the document in place, so when
    a statement throws, whatever was changed before it stays changed. */
module Tracker {
  import opened Wrappers
  import opened Assoc
  import opened Dates
  import opened Document
  import opened Storage

  /** How far a handler got: to its end, or to a statement that threw; with
      the document as it stood at that point. */
  datatype Step = Completed(doc: Document) | Interrupted(doc: Document)

  /** A weekly per-user count, absent read as 0. */
  function WeekCountOf(um: Assoc<UserId, int>, u: UserId): int {
    Get(um, u).GetOr(0)
  }

  /** `messages[userId][today]++`, creating the user's map and the day's
      count at 0 when absent. */
  function BumpMessages(log: MessageLog, u: UserId, d: Day): (r: MessageLog)
    ensures CountOn(DaysOf(r, u), d) == CountOn(DaysOf(log, u), d) + 1
    ensures forall d' :: d' != d ==> Get(DaysOf(r, u), d') == Get(DaysOf(log, u), d')
    ensures forall v :: v != u ==> Get(r, v) == Get(log, v)
    ensures u in Keys(r) && Get(DaysOf(r, u), d).Some?
    ensures Distinct(log) ==> Distinct(r)
  {
    var days := DaysOf(log, u);
    Put(log, u, Put(days, d, CountOn(days, d) + 1))
  }

  /** The bumped log is the old one with the user's days replaced. */
  lemma BumpIsPut(log: MessageLog, u: UserId, d: Day)
    ensures var days := DaysOf(log, u);
            BumpMessages(log, u, d) == Put(log, u, Put(days, d, CountOn(days, d) + 1))
  {
  }

  /** The bumped user's days are the old ones with one more message on the
      day. */
  lemma BumpedDays(log: MessageLog, u: UserId, d: Day)
    ensures var days := DaysOf(log, u);
            DaysOf(BumpMessages(log, u, d), u) == Put(days, d, CountOn(days, d) + 1)
  {
    BumpIsPut(log, u, d);
  }

  /** `updateWeeklyStats(userId, dateStr)` on the weekly map: creates the
      week's entry, makes sure the user has a count, adds one to the week's
      total, adds the user to `activeUsers` (which throws on an Array) and
      adds one to the user's count. The flag says whether it ran to the end;
      the map is as it stands at that point either way. */
  function WeeklyStep(weekly: WeeklyMap, u: UserId, d: Day): (r: (WeeklyMap, bool))
    ensures Get(r.0, WeekKey(d)).Some?
    ensures
      var old_ := Get(weekly, WeekKey(d)).GetOr(NewWeeklyStat);
      var new_ := Get(r.0, WeekKey(d)).value;
      && (r.1 <==> old_.activeUsers.JsSet?)
      && new_.totalMessages == old_.totalMessages + 1
      && u in Keys(new_.userMessages)
      && WeekCountOf(new_.userMessages, u) == WeekCountOf(old_.userMessages, u) + (if r.1 then 1 else 0)
      && (forall v :: v != u ==> Get(new_.userMessages, v) == Get(old_.userMessages, v))
      && (r.1 ==> new_.activeUsers.Users() == old_.activeUsers.Users() + {u})
      && (r.1 ==> new_.activeUsers.JsSet?
                  && (NoDuplicates(old_.activeUsers.Elements()) ==> NoDuplicates(new_.activeUsers.Elements())))
      && (!r.1 ==> new_.activeUsers == old_.activeUsers)
    ensures forall w :: w != WeekKey(d) ==> Get(r.0, w) == Get(weekly, w)
    ensures Distinct(weekly) ==> Distinct(r.0)
  {
    var key := WeekKey(d);
    var ws := Get(weekly, key).GetOr(NewWeeklyStat);
    var um := Put(ws.userMessages, u, WeekCountOf(ws.userMessages, u));
    var bumped := ws.(totalMessages := ws.totalMessages + 1, userMessages := um);
    match AddUser(ws.activeUsers, u)
    case Threw => (Put(weekly, key, bumped), false)
    case Returned(c) =>
      var done := bumped.(activeUsers := c, userMessages := Put(um, u, WeekCountOf(um, u) + 1));
      (Put(weekly, key, done), true)
  }

  /** `updateWeeklyStats` on the document; a missing weekly map throws at
      its first read. */
  function UpdateWeeklyStats(doc: Document, u: UserId, d: Day): (s: Step)
    ensures doc.weeklyStats.None? ==> s == Interrupted(doc)
    ensures doc.weeklyStats.Some? ==>
      var r := WeeklyStep(doc.weeklyStats.value, u, d);
      s.doc == doc.(weeklyStats := Some(r.0)) && (s.Completed? <==> r.1)
  {
    match doc.weeklyStats
    case None => Interrupted(doc)
    case Some(weekly) =>
      var r := WeeklyStep(weekly, u, d);
      if r.1 then Completed(doc.(weeklyStats := Some(r.0))) else Interrupted(doc.(weeklyStats := Some(r.0)))
  }

  /** The body of `trackMessage` inside its `try`, up to the save. */
  function RecordMessage(doc: Document, u: UserId, today: Day, now: Timestamp): (s: Step)
    ensures doc.messages.None? ==> s == Interrupted(doc)
    ensures doc.messages.Some? ==> s.doc.messages == Some(BumpMessages(doc.messages.value, u, today))
    ensures s.doc.memberEvents == doc.memberEvents
    ensures s.Completed? ==> s.doc.lastUpdate == now
    ensures s.Interrupted? ==> s.doc.lastUpdate == doc.lastUpdate
    ensures doc.messages.Some? && doc.dailyStats.Some? ==>
      s.doc.dailyStats.Some? && Get(s.doc.dailyStats.value, today).Some?
    ensures doc.messages.Some? && doc.dailyStats.Some? ==>
      var old_ := Get(doc.dailyStats.value, today).GetOr(NewDailyStat);
      var new_ := Get(s.doc.dailyStats.value, today).value;
      && new_.totalMessages == old_.totalMessages + 1
      && (old_.activeUsers.JsSet? ==> new_.activeUsers.Users() == old_.activeUsers.Users() + {u})
      && (old_.activeUsers.JsSet? ==> new_.activeUsers.JsSet?
                                      && (NoDuplicates(old_.activeUsers.Elements()) ==> NoDuplicates(new_.activeUsers.Elements())))
      && (old_.activeUsers.JsArray? ==> s.Interrupted? && new_.activeUsers == old_.activeUsers
                                         && s.doc.weeklyStats == doc.weeklyStats)
      && (forall d :: d != today ==> Get(s.doc.dailyStats.value, d) == Get(doc.dailyStats.value, d))
    ensures doc.messages.Some? && doc.dailyStats.Some? && doc.weeklyStats.Some?
            && Get(doc.dailyStats.value, today).GetOr(NewDailyStat).activeUsers.JsSet? ==>
      var r := WeeklyStep(doc.weeklyStats.value, u, today);
      s.doc.weeklyStats == Some(r.0) && (s.Completed? <==> r.1)
  {
    match doc.messages
    case None => Interrupted(doc)
    case Some(log) =>
      var d1 := doc.(messages := Some(BumpMessages(log, u, today)));
      match d1.dailyStats
      case None => Interrupted(d1)
      case Some(daily) =>
        var ds := Get(daily, today).GetOr(NewDailyStat);
        var bumped := ds.(totalMessages := ds.totalMessages + 1);
        match AddUser(ds.activeUsers, u)
        case Threw => Interrupted(d1.(dailyStats := Some(Put(daily, today, bumped))))
        case Returned(c) =>
          var d3 := d1.(dailyStats := Some(Put(daily, today, bumped.(activeUsers := c))));
          match UpdateWeeklyStats(d3, u, today)
          case Interrupted(d4) => Interrupted(d4)
          case Completed(d4) => Completed(d4.(lastUpdate := now))
  }

  /** `trackMessage(userId)`. `userId` is `None` for a value that is not a
      string. An empty or non-string id changes nothing. Otherwise the
      message is recorded; an exception is logged and swallowed, leaving the
      work done before it; a run to the end saves. */
  function TrackMessage(mode: SaveMode, doc: Document, userId: Option<string>, today: Day, now: Timestamp): (e: Effect)
    ensures (userId.None? || userId.value == "") ==> e == Effect(doc, None)
    ensures userId.Some? && userId.value != "" ==>
      var s := RecordMessage(doc, userId.value, today, now);
      && (e.written.Some? <==> s.Completed?)
      && (s.Completed? ==> e == SaveData(mode, s.doc))
      && (s.Interrupted? ==> e.memory == s.doc)
    ensures e.memory.messages.Some? == doc.messages.Some?
  {
    match userId
    case None => Effect(doc, None)
    case Some(u) =>
      if u == "" then Effect(doc, None)
      else
        match RecordMessage(doc, u, today, now)
        case Interrupted(d) => Effect(d, None)
        case Completed(d) => SaveData(mode, d)
  }

  /** Whatever happens after the counter is bumped, the tracked document
      keeps the bumped log: both save modes leave `messages` alone. */
  lemma TrackedLog(mode: SaveMode, doc: Document, u: UserId, t: Day, now: Timestamp)
    requires u != "" && doc.messages.Some?
    ensures TrackMessage(mode, doc, Some(u), t, now).memory.messages == Some(BumpMessages(doc.messages.value, u, t))
  {
    var s := RecordMessage(doc, u, t, now);
    if s.Completed? {
      assert TrackMessage(mode, doc, Some(u), t, now) == SaveData(mode, s.doc);
    }
  }

  /** `getWeeklyStats(weekKey)`: the week's entry, or an empty one. */
  function GetWeeklyStats(doc: Document, key: Day): (r: Js<WeeklyStat>)
    ensures r.Returned? <==> doc.weeklyStats.Some?
    ensures r.Returned? && Get(doc.weeklyStats.value, key).None? ==> r.value == NewWeeklyStat
    ensures r.Returned? && Get(doc.weeklyStats.value, key).Some? ==>
              r.value == Get(doc.weeklyStats.value, key).value
  {
    var weekly :- Need(doc.weeklyStats);
    Returned(Get(weekly, key).GetOr(NewWeeklyStat))
  }

  datatype EventKind = Joined | Left

  /** Appends one record to today's `joins` or `leaves`, creating both empty
      lists for a new day. */
  function AppendEvent(events: EventMap, kind: EventKind, rec: MemberEvent, today: Day): (r: EventMap)
    ensures Get(r, today).Some?
    ensures
      var old_ := Get(events, today).GetOr(NewDayEvents);
      var new_ := Get(r, today).value;
      && (kind.Joined? ==> new_ == DayEvents(old_.joins + [rec], old_.leaves))
      && (kind.Left? ==> new_ == DayEvents(old_.joins, old_.leaves + [rec]))
    ensures forall d :: d != today ==> Get(r, d) == Get(events, d)
    ensures Distinct(events) ==> Distinct(r)
  {
    var ev := Get(events, today).GetOr(NewDayEvents);
    Put(events, today, if kind.Joined? then ev.(joins := ev.joins + [rec]) else ev.(leaves := ev.leaves + [rec]))
  }

  /** The shared body of `trackMemberJoin`/`trackMemberLeave`; it has no
      `try`, so a missing `memberEvents` throws to the caller. */
  function TrackMemberEvent(mode: SaveMode, doc: Document, kind: EventKind, userId: string,
                            username: string, today: Day, now: Timestamp): (r: Js<Effect>)
    ensures r.Returned? <==> doc.memberEvents.Some?
    ensures r.Returned? ==>
      var rec := MemberEvent(userId, username, now);
      var changed := doc.(memberEvents := Some(AppendEvent(doc.memberEvents.value, kind, rec, today)),
                          lastUpdate := now);
      r.value == SaveData(mode, changed)
  {
    var events :- Need(doc.memberEvents);
    var rec := MemberEvent(userId, username, now);
    Returned(SaveData(mode, doc.(memberEvents := Some(AppendEvent(events, kind, rec, today)), lastUpdate := now)))
  }

  /** `trackMemberJoin(userId, username)`: one join record appended to
      today's list; messages and stats keep their contents, though the
      aliased save turns their Sets into Arrays. */
  function TrackMemberJoin(mode: SaveMode, doc: Document, userId: string, username: string,
                           today: Day, now: Timestamp): (r: Js<Effect>)
    ensures r.Returned? <==> doc.memberEvents.Some?
    ensures r.Returned? ==>
      var m := r.value.memory;
      var old_ := Get(doc.memberEvents.value, today).GetOr(NewDayEvents);
      && m.memberEvents.Some?
      && Get(m.memberEvents.value, today) == Some(DayEvents(old_.joins + [MemberEvent(userId, username, now)], old_.leaves))
      && (forall d :: d != today ==> Get(m.memberEvents.value, d) == Get(doc.memberEvents.value, d))
      && m.messages == doc.messages
      && m.lastUpdate == now
      && r.value.written.Some?
      && (mode.CopyingSave? ==> m.dailyStats == doc.dailyStats && m.weeklyStats == doc.weeklyStats)
      && (mode.AliasedSave? ==> ArraysOnly(m))
  {
    TrackMemberEvent(mode, doc, Joined, userId, username, today, now)
  }

  /** `trackMemberLeave(userId, username)`: as `TrackMemberJoin`, for the
      day's `leaves`. */
  function TrackMemberLeave(mode: SaveMode, doc: Document, userId: string, username: string,
                            today: Day, now: Timestamp): (r: Js<Effect>)
    ensures r.Returned? <==> doc.memberEvents.Some?
    ensures r.Returned? ==>
      var m := r.value.memory;
      var old_ := Get(doc.memberEvents.value, today).GetOr(NewDayEvents);
      && m.memberEvents.Some?
      && Get(m.memberEvents.value, today) == Some(DayEvents(old_.joins, old_.leaves + [MemberEvent(userId, username, now)]))
      && (forall d :: d != today ==> Get(m.memberEvents.value, d) == Get(doc.memberEvents.value, d))
      && m.messages == doc.messages
      && m.lastUpdate == now
      && r.value.written.Some?
      && (mode.CopyingSave? ==> m.dailyStats == doc.dailyStats && m.weeklyStats == doc.weeklyStats)
      && (mode.AliasedSave? ==> ArraysOnly(m))
  {
    TrackMemberEvent(mode, doc, Left, userId, username, today, now)
  }
}

=== FILE: views.dfy ===
/** The read-only views of the document: the day figures shown by `!stats`,
    `/stats` and the daily report, and the per-user figures shown by
    `!activity` and `/activity`. */
module Views {
  import opened Wrappers
  import opened Assoc
  import opened Dates
  import opened Document
  import opened Storage
  import opened Tracker
  import opened Counts
  import opened Invariants
  import opened Maintenance

  /** The four numbers of a day's stats embed. */
  datatype DaySummary = DaySummary(totalMessages: int, activeUsers: nat, joins: nat, leaves: nat)

  /** `dailyStats[d] || { totalMessages: 0, activeUsers: new Set() }` and
      `memberEvents[d] || { joins: [], leaves: [] }`, then the message total,
      `activeUsers.size` and the two list lengths. Indexing a missing map
      throws, and so does `size.toString()` on an Array, whose `size` is
      undefined. */
  function SummarizeDay(doc: Document, d: Day): (r: Js<DaySummary>)
    ensures r.Returned? <==>
      && doc.dailyStats.Some? && doc.memberEvents.Some?
      && Get(doc.dailyStats.value, d).GetOr(NewDailyStat).activeUsers.JsSet?
    ensures r.Returned? ==>
      var stat := Get(doc.dailyStats.value, d).GetOr(NewDailyStat);
      var ev := Get(doc.memberEvents.value, d).GetOr(NewDayEvents);
      && r.value.totalMessages == stat.totalMessages
      && r.value.joins == |ev.joins| && r.value.leaves == |ev.leaves|
      && (NoDuplicates(stat.activeUsers.Elements()) ==> r.value.activeUsers == |stat.activeUsers.Users()|)
  {
    var daily :- Need(doc.dailyStats);
    var events :- Need(doc.memberEvents);
    var stat := Get(daily, d).GetOr(NewDailyStat);
    var ev := Get(events, d).GetOr(NewDayEvents);
    var size :- SizeText(stat.activeUsers);
    Returned(DaySummary(stat.totalMessages, size, |ev.joins|, |ev.leaves|))
  }

  /** A day with neither stats nor events reads as all zeros. */
  lemma QuietDayIsZero(doc: Document, d: Day)
    requires doc.dailyStats.Some? && doc.memberEvents.Some?
    requires Get(doc.dailyStats.value, d).None? && Get(doc.memberEvents.value, d).None?
    ensures SummarizeDay(doc, d) == Returned(DaySummary(0, 0, 0, 0))
  {
    var r := SummarizeDay(doc, d);
    assert NoDuplicates(NewDailyStat.activeUsers.Elements());
    assert NewDailyStat.activeUsers.Users() == {};
  }

  /** On a consistent document the day figures are the log's: the total is
      the sum of the users' counts for the day and the active-user figure is
      the number of users with a positive count. */
  lemma SummaryOfConsistent(doc: Document, d: Day)
    requires Consistent(doc) && doc.memberEvents.Some?
    ensures SummarizeDay(doc, d).Returned?
    ensures SummarizeDay(doc, d).value.totalMessages == DayTotal(doc.messages.value, d)
    ensures SummarizeDay(doc, d).value.activeUsers == |ActiveOn(doc.messages.value, d)|
  {
    var log := doc.messages.value;
    var daily := doc.dailyStats.value;
    assert StatIsSet(daily, d) && StatTotal(daily, d) == DayTotal(log, d) && StatUsers(daily, d) == ActiveOn(log, d);
  }

  /** After any save in the as-written mode, the view of a day that has
      stats throws: the save left an Array where the view expects a Set. */
  lemma SummaryAfterAliasedSave(doc: Document, d: Day)
    requires doc.dailyStats.Some? && Get(doc.dailyStats.value, d).Some?
    ensures SummarizeDay(SaveData(AliasedSave, doc).memory, d).Threw?
  {
    var m := SaveData(AliasedSave, doc).memory;
    var daily := m.dailyStats.value;
    assert Get(daily, d).Some?;
    GetEntry(daily, d);
    var i :| 0 <= i < |daily| && daily[i] == (d, Get(daily, d).value);
    assert daily[i].1.activeUsers.JsArray?;
  }

  /** So the as-written tracker breaks the day's stats with the first
      message that reaches its save. */
  lemma StatsBreakAfterAliasedTrack(doc: Document, u: UserId, t: Day, now: Timestamp)
    requires u != "" && doc.dailyStats.Some?
    requires TrackMessage(AliasedSave, doc, Some(u), t, now).written.Some?
    ensures SummarizeDay(TrackMessage(AliasedSave, doc, Some(u), t, now).memory, t).Threw?
  {
    var s := RecordMessage(doc, u, t, now);
    assert s.Completed?;
    assert doc.messages.Some?;
    SummaryAfterAliasedSave(s.doc, t);
  }

  /** A join recorded with a copying save shows as one more join in the
      day's figures; the other figures stay. */
  lemma JoinShowsInSummary(doc: Document, userId: string, username: string, t: Day, now: Timestamp)
    requires SummarizeDay(doc, t).Returned?
    ensures TrackMemberJoin(CopyingSave, doc, userId, username, t, now).Returned?
    ensures var before := SummarizeDay(doc, t).value;
            SummarizeDay(TrackMemberJoin(CopyingSave, doc, userId, username, t, now).value.memory, t)
            == Returned(before.(joins := before.joins + 1))
  {
    var m := TrackMemberJoin(CopyingSave, doc, userId, username, t, now).value.memory;
    var before := SummarizeDay(doc, t).value;
    var stat := Get(doc.dailyStats.value, t).GetOr(NewDailyStat);
    var after := SummarizeDay(m, t);
    assert m.dailyStats == doc.dailyStats;
    assert after.value.activeUsers == before.activeUsers;
  }

  /** A user's figures in the activity embeds. */
  datatype UserActivity = UserActivity(today: int, total: int)

  /** `messages[id] || {}`, then `userMessages[today] || 0` and the sum of
      `Object.values(userMessages)`. A missing `messages` map throws. */
  function GetUserActivity(doc: Document, u: UserId, today: Day): (r: Js<UserActivity>)
    ensures r.Returned? <==> doc.messages.Some?
    ensures r.Returned? ==>
      var days := DaysOf(doc.messages.value, u);
      r.value.today == CountOn(days, today) && r.value.total == UserTotal(days)
    ensures r.Returned? && Get(doc.messages.value, u).None? ==> r.value == UserActivity(0, 0)
  {
    var log :- Need(doc.messages);
    var days := DaysOf(log, u);
    Returned(UserActivity(CountOn(days, today), UserTotal(days)))
  }

  lemma {:induction false} UserTotalNonNegative(days: UserDays)
    requires NonNegative(days)
    ensures UserTotal(days) >= 0
  {
    if days != [] {
      assert NonNegative(days[1..]) by {
        forall i | 0 <= i < |days[1..]| ensures days[1..][i].1 >= 0 {
          assert days[1..][i] == days[i + 1];
        }
      }
      UserTotalNonNegative(days[1..]);
    }
  }

  /** With no negative counts, one day's count never exceeds the total. */
  lemma {:induction false} CountAtMostTotal(days: UserDays, d: Day)
    requires NonNegative(days)
    ensures CountOn(days, d) <= UserTotal(days)
  {
    if days != [] {
      assert NonNegative(days[1..]) by {
        forall i | 0 <= i < |days[1..]| ensures days[1..][i].1 >= 0 {
          assert days[1..][i] == days[i + 1];
        }
      }
      UserTotalNonNegative(days[1..]);
      if days[0].0 != d {
        CountAtMostTotal(days[1..], d);
      }
    }
  }

  /** The activity view never shows more messages today than in total, on
      a log with no negative counts. */
  lemma TodayAtMostTotal(doc: Document, u: UserId, today: Day)
    requires doc.messages.Some? && LogIsSound(doc.messages.value)
    ensures GetUserActivity(doc, u, today).Returned?
    ensures GetUserActivity(doc, u, today).value.today <= GetUserActivity(doc, u, today).value.total
  {
    CountAtMostTotal(DaysOf(doc.messages.value, u), today);
  }

  /** A tracked message shows in the user's figures, today and in total, in
      either save mode, even when the rest of the recording throws: the
      counter is bumped first. */
  lemma ActivityAfterMessage(mode: SaveMode, doc: Document, u: UserId, t: Day, now: Timestamp)
    requires u != "" && doc.messages.Some?
    ensures var before := GetUserActivity(doc, u, t).value;
            GetUserActivity(TrackMessage(mode, doc, Some(u), t, now).memory, u, t)
            == Returned(UserActivity(before.today + 1, before.total + 1))
  {
    TrackedLog(mode, doc, u, t, now);
    ActivityOfBumpedLog(TrackMessage(mode, doc, Some(u), t, now).memory, doc, u, t);
  }

  /** A document holding the bumped log shows one more message today and
      in total than the log before the bump. */
  lemma ActivityOfBumpedLog(m: Document, doc: Document, u: UserId, t: Day)
    requires doc.messages.Some? && m.messages == Some(BumpMessages(doc.messages.value, u, t))
    ensures GetUserActivity(m, u, t)
            == Returned(UserActivity(GetUserActivity(doc, u, t).value.today + 1, GetUserActivity(doc, u, t).value.total + 1))
  {
    BumpedDays(doc.messages.value, u, t);
    UserTotalAfterBump(DaysOf(doc.messages.value, u), t);
  }
}

=== FILE: wrappers.dfy ===
/** Option and the outcome of a JavaScript expression that may throw. */
module Wrappers {

  /** A value that may be absent (`null` or `undefined` in the source). */
  datatype Option<+T> = None | Some(value: T) {

    /** The value, or `default` when absent: the source's `x || default` for objects. */
    function GetOr(default: T): T {
      match this
      case Some(v) => v
      case None => default
    }
  }

  /** Either the value an expression returned, or the fact that it threw.
      The source only ever throws TypeErrors from reading a property of
      `undefined` or calling a method an object does not have. */
  datatype Js<+T> = Returned(value: T) | Threw {

    predicate IsFailure() {
      Threw?
    }

    function PropagateFailure<U>(): Js<U>
      requires Threw?
    {
      Threw
    }

    function Extract(): T
      requires Returned?
    {
      value
    }
  }

  /** Reading a property of a missing object throws. */
  function Need<T>(o: Option<T>): (r: Js<T>)
    ensures r.Returned? <==> o.Some?
    ensures r.Returned? ==> r.value == o.value
  {
    match o
    case Some(v) => Returned(v)
    case None => Threw
  }
}
